=== FILE: README.md ===
# Inventory requests and owner-scoped stock, in Dafny

This project models the core of an Express/Mongoose inventory backend. Users request items from an admin. The admin approves the request, which stamps a `REQ-<year>-<suffix>` token, or rejects it with a reason. The admin then dispatches an approved request. Dispatch moves the requested quantity from the admin's stock record of the item into the requester's record, creating that record if there is none.

Around that lifecycle sit several smaller pieces:

- a stock-add path keyed by `(item, branch)`;
- a seeding route that keeps per-branch entries inside an item;
- two dashboards (grouped stock and monthly charts);
- the role and bearer-token guards;
- registration and login;
- the user administration handlers;
- the `totalAmount` hook on sales.

The model has two layers.

- **Transition functions.** Each handler is a pure function from a database snapshot `Db` (users, items, stock records, requests) to a result and a new snapshot. Every error path is a `Result` error that leaves the snapshot unchanged. The laws modules prove what the source promises about these functions:
  - conservation of stock on dispatch;
  - no negative balances;
  - nothing changes on failure;
  - the final states stay final;
  - the invariants the database keeps.
- **Handlers on a mutable database.** A `class Database` holds the four collections as `seq` fields, and the handlers update it in place. Each handler states that its result and new state are exactly those of its transition function, and that `Valid()` is preserved. The source's loops are methods with loop invariants, proved equal to the specification functions:
  - the `forEach` that groups stock;
  - the `reduce` over the summaries;
  - the revenue sum;
  - the two monthly-bucket loops.

Clocks, ids Mongo assigns, hashing, password comparison and token verification are parameters. Dates are plain integers, and a month is an index 0..11 given by a caller-supplied function.

Modules:

| Module | Contents |
|---|---|
| `Wrappers`, `Seqs`, `Mongo` | Option/Result, first-match search, counting, filtering and sums. |
| `Text` | `trim`, ASCII `toLowerCase`/`toUpperCase`, `slice(-n)`, `padStart`, decimal rendering and `split`. |
| `Ledger` | Items, stock records and the two stock lookups. |
| `Requests` | The request schema and tokens. |
| `Users` | Users and their password-free view. |
| `Store` | The snapshot, its invariant and the `Database` class. |
| `RequestRules`, `RequestLaws`, `RequestController` | The request controller. |
| `StockRules`, `StockLaws`, `StockController` | The stock controller. |
| `Seed` | `seed.js`. |
| `DashboardData` | `dashboardController.js`. |
| `Middleware` | The two guards. |
| `AuthController` | `auth.js`. |
| `UserController` | `userController.js`. |
| `Sales` | The sales schema hook. |

## Behaviour worth knowing

- **Request states.** A request is `requested`, `approved`, `rejected` or `dispatched` (model/Request.js:16-20). Dispatch requires `approved` (controllers/requestController.js:131).
- **Admin checks.** The handlers check only `role === 'admin'` (controllers/requestController.js:123, controllers/stockController.js:72). The source of a dispatch is the dispatching admin's own stock record for the item.
- **Item names on stock-add.** Stock-add finds and creates items by their exact name (controllers/stockController.js:19). Only dispatch normalises the name (controllers/requestController.js:144). An item whose stored name is not normalised can therefore never be dispatched (`RequestLaws.UnnormalizedItemNeverDispatched`).
- **Rates on dispatch.** A requester's existing stock record keeps its own rate and branch (controllers/requestController.js:178-179). Only a newly created record copies the admin record's rate and branch (controllers/requestController.js:181-190). No handler overwrites a rate.
- **Saves on dispatch.** Dispatch saves the admin record, then the requester's record, then the request (controllers/requestController.js:170-198). The three `save()` calls are separate writes, and one consequence is recorded under Findings.

## Model

| member | source | states |
|---|---|---|
| Requests.ResolvePriority | model/Request.js:13 | Definition: `priority \|\| 'Medium'` followed by the enum check, so an absent or empty priority is Medium, one of 'Low', 'Medium', 'High' is that value, and anything else is a validation error. |
| Requests.SchemaValid | model/Request.js:9-11 | Definition: the required `itemName` and `Decofitem` are non-empty and `quantity` is at least 1. |
| Requests.TokensUnique | model/Request.js:22 | Definition: the sparse unique index on `token`, so two requests never share a token and requests without one never clash. |
| Requests.ResolvePriorityCases | model/Request.js:13 | A missing or empty priority becomes Medium, and a supplied one is accepted exactly when it is one of the three enum spellings, each mapping to its own value. |
| Requests.TokenDeterminesYearAndSuffix | controllers/requestController.js:74 | Two equal tokens come from the same year and the same upper-cased five-character id suffix. |
| Requests.DashNotEarlier | controllers/requestController.js:74 | In two equal `REQ-<digits>-<rest>` strings, neither digit run is shorter, which is how the year is read back from a token. |
| Requests.DistinctSuffixesDistinctTokens | controllers/requestController.js:74 | Within one year, ids whose upper-cased last five characters differ get different tokens. |
| Requests.LegacyTokenDiffers | controllers/requestController.js:8-10 | For every id longer than five characters, the exported but unused generator pads the whole id and never produces the token approval sets. |
| Requests.TokenFor | controllers/requestController.js:74 | Definition: the approval token `REQ-<year>-<last five characters of the id, upper-cased>`. |
| Requests.LegacyToken | controllers/requestController.js:8-10 | Definition: the exported but unused generator, `REQ-<year>-<the id left-padded with '0' to five characters>`. |
| RequestRules.CreateRequest | controllers/requestController.js:13-40 | Succeeds exactly when the item name and a positive quantity are sent, the caller exists, the priority passes the enum and the description is present. A missing name or quantity gives 400 and an unknown caller 404, and a failure changes nothing. The new request is appended in `requested`, with the caller as user, the resolved priority (Medium when none is sent), the sent description and required date, delivery address equal to the caller's location, `timestamps.requested` and `createdAt` now, and no token. |
| RequestRules.Approve | controllers/requestController.js:62-93 | A non-admin gets 403 with no change. Success holds exactly for an admin on a found request in `requested` whose token no other request holds (the unique index), and a token clash is the 500 path. On success only that request changes: it becomes `approved`, with `timestamps.approved` now and the token `REQ-<year>-<suffix>`, and keeps its submission fields. |
| RequestRules.Reject | controllers/requestController.js:95-120 | A non-admin gets 403 with no change. Success holds exactly for an admin on a found request in `requested`. The request becomes `rejected` with the sent reason, or "No reason provided", and keeps its token, timestamps and submission fields. |
| RequestRules.PlanDispatch | controllers/requestController.js:121-166 | A plan exists only when every check before the debit passes: admin role, request found and `approved`, admin user found, an item named by the request's trimmed lower-cased name, the admin's own `(item, admin, 'admin')` record, and a quantity covering the request. |
| RequestRules.Debited | controllers/requestController.js:169 | Definition: `adminStock.quantity -= quantity` on the admin record, nothing else changed. |
| RequestRules.NewUserStock | controllers/requestController.js:180-188 | Definition: the requester's new record holds the item and quantity, is owned by the requester as 'user', and copies the admin record's rate and branch. |
| RequestRules.MarkDispatched | controllers/requestController.js:195-197 | Definition: the request's status becomes 'dispatched' and `timestamps.dispatched` the current time, nothing else changed. |
| RequestRules.CompleteDispatch | controllers/requestController.js:168-205 | The admin record drops by the request quantity. The requester's first `(item, user, 'user')` record rises by it, or a new record with the admin record's branch and rate is appended. No other record changes. The request becomes `dispatched` with `timestamps.dispatched` now, and the receipt reports both quantities. |
| RequestRules.DispatchAsWritten | controllers/requestController.js:121-211 | The handler as written succeeds exactly when the plan exists and the requester exists. Its only failure that changes state is the 500 for a deleted requester, after the admin record has already been debited. |
| RequestRules.Dispatch | controllers/requestController.js:121-211 | A non-admin gets 403 with no change. Every failure leaves the database unchanged. Success holds exactly when the plan exists and the requester exists, and it then agrees with the handler as written. |
| RequestRules.DispatchCount | controllers/requestController.js:215-233 | Admin only, else 403. The count is the number of requests in `dispatched`, at most the number of requests, and zero exactly when none is `dispatched`. |
| RequestLaws.ApproveIsFinal | controllers/requestController.js:68-102 | After a successful approval, a second approve or reject of the same request fails with "Already processed" (403 for a non-admin) and changes nothing. |
| RequestLaws.RejectIsFinal | controllers/requestController.js:68-102 | After a successful rejection, a second approve or reject of the same request fails and changes nothing. |
| RequestLaws.TokenClashSharesSuffix | controllers/requestController.js:74-75 | An approval refused by the unique index means that another request already holds an approval token with the same year and the same upper-cased id suffix. |
| RequestLaws.DispatchIsComplete | controllers/requestController.js:121-205 | A successful dispatch has a plan whose admin record is the item's admin record, and its outcome is the completion of that plan. |
| RequestLaws.DispatchByPlan | controllers/requestController.js:121-205 | When every check passes and the requester exists, dispatch completes the plan. |
| RequestLaws.CompleteDispatchStocks | controllers/requestController.js:169-192 | The stock list after completion is the debited list with the requester's record credited, or with the new record appended. |
| RequestLaws.CompleteDispatchConserves | controllers/requestController.js:169-192 | Completing a dispatch leaves the total quantity, and every item's total, unchanged. |
| RequestLaws.DispatchConservesStock | controllers/requestController.js:162-198 | A successful dispatch conserves the overall quantity and the quantity of every item. |
| RequestLaws.HoldingUpdate | controllers/requestController.js:169-179 | Setting one record's quantity moves exactly one owner's holding of one item by the difference. |
| RequestLaws.HoldingAppend | controllers/requestController.js:181-188 | Appending a record adds its quantity only to its own owner's holding. |
| RequestLaws.CompleteDispatchTransfers | controllers/requestController.js:169-192 | Completing a dispatch takes the request quantity from the admin's holding of the item and gives it to the requester's holding. Every other holding is unchanged. |
| RequestLaws.DispatchTransfersQuantity | controllers/requestController.js:162-198 | A successful dispatch moves exactly the request quantity from the dispatching admin to the requester, and nothing else. |
| RequestLaws.CompleteDispatchNonNegative | controllers/requestController.js:162-192 | When the admin record covers the request, completion keeps every record non-negative, leaves the admin at least 0 and gives the requester at least 1. |
| RequestLaws.DispatchKeepsNonNegative | controllers/requestController.js:162-203 | Dispatch never drives a record negative. The remaining admin stock is at least 0, and the requester's total is at least 1. |
| RequestLaws.DispatchCountRises | controllers/requestController.js:195-222 | A successful dispatch raises the dispatched count by exactly one. |
| RequestLaws.UnnormalizedItemNeverDispatched | controllers/requestController.js:144-149 | An item whose stored name is not trimmed and lower-case is never the item of a dispatch plan. |
| RequestLaws.CreateRequestKeepsValid | controllers/requestController.js:24-34 | Creating a request with a fresh id keeps the database invariant: schema constraints, lifecycle timestamps, unique ids and unique tokens. |
| Store.RequestsValid | model/Request.js:4-31 | Definition: every request meets the schema and the status lifecycle, ids and tokens are unique, every token is an approval token of its own id, and no request carries an `item` reference. |
| RequestLaws.AppendKeepsRequestsValid | model/Request.js:4-31 | A fresh token-less request that meets the schema and the lifecycle can join a valid request list. |
| RequestLaws.ApproveKeepsValid | controllers/requestController.js:72-75 | Approval keeps the database invariant, including the sparse unique token index. |
| RequestLaws.RejectKeepsValid | controllers/requestController.js:106-108 | Rejection keeps the database invariant. |
| RequestLaws.CompleteDispatchKeepsValid | controllers/requestController.js:169-198 | Completing the dispatch of an approved request keeps the database invariant. |
| RequestLaws.CompleteDispatchKeepsStocksValid | controllers/requestController.js:169-192 | After completion every stock record still names an existing item, and none carries a creation time. |
| RequestLaws.CompleteDispatchKeepsRequestsValid | controllers/requestController.js:195-198 | Moving an approved request to `dispatched` with a dispatch time keeps the request invariant. |
| RequestLaws.DispatchKeepsValid | controllers/requestController.js:121-211 | Dispatch keeps the database invariant. |
| RequestLaws.DeletedRequesterLosesStock | controllers/requestController.js:169-175 | As written, when every check passes but the requester was deleted, the answer is 500 and the total stock has dropped by the request quantity. |
| RequestLaws.DeletedRequesterDbValid | model/Request.js:4-31 | The counterexample database meets the invariant, so the case is reachable from a valid state. |
| RequestLaws.DeletedRequesterUsersValid | model/user.js:4-17 | The counterexample's user table is valid. |
| RequestLaws.DeletedRequesterRequestsValid | model/Request.js:4-31 | The counterexample's request list is valid. |
| RequestLaws.DeletedRequesterItemName | controllers/requestController.js:144 | The example request's item name "Bolt " normalises to the stored name "bolt". |
| RequestLaws.DeletedRequesterLookups | controllers/requestController.js:128-160 | On the example, the request, the admin, the item and the admin record are found, and the requester is not. |
| RequestLaws.DeletedRequesterPlan | controllers/requestController.js:121-166 | On the example, every check before the debit passes and the requester is missing. |
| RequestLaws.DeletedRequesterExample | controllers/requestController.js:169-175 | Concretely, ten bolts are held and three are dispatched to a deleted user. As written the answer is 500 and seven bolts remain. The corrected dispatch fails with no change. |
| RequestLaws.RequesterPresentDbValid | model/Request.js:4-31 | The same database with the requester present meets the invariant. |
| RequestLaws.RequesterPresentUsersValid | model/user.js:4-17 | Its two users, admin and requester, form a valid user table. |
| RequestLaws.RequesterPresentUsersDistinct | model/user.js:4-17 | The two users differ in id and in e-mail address. |
| RequestLaws.RequesterPresentEmails | model/user.js:4-17 | Both e-mail addresses are stored normalised. |
| RequestLaws.RequesterPresentExample | controllers/requestController.js:121-206 | With the requester present the same dispatch succeeds from a valid state. The admin keeps 7, a new record with the admin's branch credits the requester with 3, the request is dispatched and the total stock stays 10. |
| RequestController.CreateRequestHandler | controllers/requestController.js:13-40 | The handler's result and new database are those of `CreateRequest`, and the invariant is kept. |
| RequestController.ApproveHandler | controllers/requestController.js:62-93 | In-place approval equals `Approve` and keeps the invariant. |
| RequestController.RejectHandler | controllers/requestController.js:95-120 | In-place rejection equals `Reject` and keeps the invariant. |
| RequestController.DispatchHandler | controllers/requestController.js:121-211 | In-place dispatch, with the requester checked before the debit, equals `Dispatch` and keeps the invariant. |
| RequestController.TransferStock | controllers/requestController.js:168-205 | The in-place debit, credit or create, and status change equal `CompleteDispatch`. |
| Ledger.FindItemNamed | controllers/stockController.js:19 | The first item with exactly the given name, or none when no item has it. |
| Ledger.FindItemById | controllers/stockController.js:81 | The item with the id, or none when no item has it. |
| Ledger.FindOwnedStock | controllers/requestController.js:152-177 | The first record of the item held by the owner with the owner type, or none when there is none. |
| Ledger.FindOwnedStockUpdate | controllers/requestController.js:169-170 | Changing a record without changing whether it matches does not move the dispatch lookup's answer. |
| Ledger.FindBranchStock | controllers/stockController.js:44 | The first record of the item at the branch, whatever its owner, or none. |
| Ledger.QuantityUpdate | controllers/stockController.js:46 | Setting one record's quantity moves the overall total and its item's total by the difference, and no other item's total. |
| Ledger.QuantityAppend | controllers/stockController.js:49-54 | Appending a record adds its quantity to the overall total and to its own item's total only. |
| Ledger.ItemQuantityOfAbsent | controllers/stockController.js:86-101 | An item with no records has total zero. |
| Users.FindUser | controllers/requestController.js:21 | `findById`: the first user with the id, or none when no user has it. |
| Users.FindUserByEmail | controllers/auth.js:26 | `findOne({email})`: the first user with exactly that stored e-mail address, or none. |
| Store.FindRequest | controllers/requestController.js:68 | The first request with the id, or none. |
| Store.FindRequestUpdate | controllers/requestController.js:75 | Saving a request without changing its id leaves `findById` pointing at the same request. |
| StockRules.NewItem | controllers/stockController.js:20-25 | A new item has the sent name, and the sent description or "No description provided", and the sent category or "Uncategorized". It has no rate and no entries. |
| StockRules.Refreshed | controllers/stockController.js:29-37 | A found item keeps its id, name, rate and entries, and takes each sent, non-empty description or category. When neither changes anything, the item is the stored one. |
| StockRules.AddStock | controllers/stockController.js:9-66 | Fails exactly when the name is missing or the quantity is null, and then changes nothing. The item is found by exact name and refreshed (description and category replaced only when sent, non-empty and different), or appended as new with the 'No description provided' and 'Uncategorized' defaults. The caller's branch record of that item gains exactly the sent quantity, or one new record holds it. No other item or record changes. |
| StockRules.FindSummary | controllers/stockController.js:88 | The grouping entry filed under the item id, or none. |
| StockRules.AddToGroupFound | controllers/stockController.js:96-100 | A record whose item has an entry adds its quantity to that entry's total and one branch pair to its list. |
| StockRules.AddToGroupNew | controllers/stockController.js:88-100 | A record whose item has no entry opens one holding the populated name, its quantity and its branch pair. |
| StockRules.Grouped | controllers/stockController.js:86-103 | Definition: the `forEach` over the records, adding each to its item's entry or opening one with the populated name, and failing when a record's item cannot be populated. |
| StockRules.Dashboard | controllers/stockController.js:70-121 | Definition: 403 for a non-admin, 500 when the grouping fails, otherwise the item count, the sum of the entry totals, the entries and this month's request counts. |
| StockRules.MonthStats | controllers/stockController.js:106-109 | The approved, dispatched and pending counts of the month each stay within the month's total. |
| StockRules.AdminStockSummary | controllers/stockController.js:122-162 | One row per item, in item order, with the item's name, category and description. |
| StockRules.UserStockSummary | controllers/stockController.js:164-197 | Answers exactly when every record at the caller's branch has an existing item, with one row per such record. |
| StockRules.AllUsers | controllers/stockController.js:201-220 | Admin only, else 403. Every user without the password, in order, with `totalUsers` equal to the number of users. |
| StockLaws.AddStockRaisesTotals | controllers/stockController.js:44-55 | Stock-add raises the overall total and the item's total by the sent quantity, and leaves every other item's total alone. |
| StockLaws.AddStockCreditsFoundRecordOnly | controllers/stockController.js:44-55 | Only the holding of the updated record's owner changes, by the sent quantity. A newly created record has no owner, so it adds to nobody's holding. |
| StockLaws.AddStockKeepsValid | controllers/stockController.js:19-55 | With a fresh new-item id, stock-add keeps the database invariant. |
| StockLaws.AddStockKeepsItemsValid | controllers/stockController.js:19-26 | Item ids and exact names stay unique, because the name is looked up before an item is created. |
| StockLaws.AddStockKeepsStocksValid | controllers/stockController.js:44-55 | Every record still names an existing item, and none gains a creation time. |
| StockLaws.BranchesOfAbsent | controllers/stockController.js:97-100 | An item with no records has no branch pairs. |
| StockLaws.BranchesOfAppend | controllers/stockController.js:97-100 | One more record adds one branch pair to its own item's list and none to the others. |
| StockLaws.StepIdsUnique | controllers/stockController.js:88-94 | A grouping step never creates a second entry for an item. |
| StockLaws.StepCovers | controllers/stockController.js:88-94 | After a step, every record seen so far has an entry. |
| StockLaws.StepTotals | controllers/stockController.js:96 | After a step, each entry's total is its item's total over the records seen. |
| StockLaws.StepBranches | controllers/stockController.js:97-100 | After a step, each entry's branch list is its item's records seen so far, in order. |
| StockLaws.StepNames | controllers/stockController.js:90 | After a step, each entry carries its populated item's name. |
| StockLaws.StepSum | controllers/stockController.js:113 | After a step, the entries' totals sum to the total of the records seen. |
| StockLaws.FirstRecordOf | controllers/stockController.js:86-94 | The index of the first record of an item, or the number of records when it has none: the record at which `itemMap` gains the item's key. |
| StockLaws.FirstRecordAppend | controllers/stockController.js:86-94 | Appending a record moves no item's first record, and gives its own item one at the end if it had none. |
| StockLaws.StepSound | controllers/stockController.js:88-94 | After a step, every entry's item has a record among those seen. |
| StockLaws.StepOrdered | controllers/stockController.js:88-94 | After a step, the entries still follow the order in which their items first appear. |
| StockLaws.StepOrderedIds | controllers/stockController.js:88-94 | The order is kept when existing entries keep their ids and an added entry is for an item not seen before. |
| StockLaws.GroupedFaithful | controllers/stockController.js:86-101 | The grouping has exactly one entry per item that has records: every record's item has an entry and every entry's item has a record. Each entry carries that item's name, total and per-record branch pairs in record order. The entries follow the order in which their items first appear (`Object.values` keeps insertion order), and they sum to the overall total. |
| StockLaws.GroupedSucceeds | controllers/stockController.js:87 | The grouping succeeds exactly when every record's item exists. |
| StockLaws.DashboardAnswersAdmins | controllers/stockController.js:72-74 | In a valid database the summary answers every admin and only admins. |
| StockLaws.DashboardTotals | controllers/stockController.js:86-116 | `totalQuantity` is the sum of all stock, and `totalItems` is the number of items. Each entry's total is its item's total, and its branch list is exactly its item's records (branch and quantity) in order. Every record's item has an entry and every entry's item has a record, and the entries follow the order of first appearance. |
| StockLaws.SummariesReportNothingDispatched | controllers/stockController.js:144-181 | Requests never carry an item reference in a valid database, so every dispatched and received sum is 0. |
| StockLaws.AdminAvailableIsFirstBranchRecord | controllers/stockController.js:138-141 | An admin row's available quantity is that of the item's first record at the branch, or 0 when there is none. |
| StockLaws.UserRowsFollowRecords | controllers/stockController.js:177-190 | The user summary has one row per record at the branch, showing that record's quantity and its item's name. The rows' records are exactly the database's records at that branch. |
| Seqs.Filter | controllers/stockController.js:169 | The `find` with a condition keeps exactly the records satisfying it: every kept record comes from the input and satisfies the condition, every input record that satisfies it is kept, and their number is the count of such records. |
| Seqs.FilterConcat | controllers/stockController.js:169 | The branch query keeps the records' order: filtering a concatenation is concatenating the filters. |
| StockController.CreateOrUpdateStockHandler | controllers/stockController.js:9-66 | In-place find-or-create of the item and the branch record equals `AddStock` and keeps the invariant. |
| StockController.RefreshItem | controllers/stockController.js:28-40 | The metadata update yields the refreshed item. The save flag is set exactly when a sent description or category differs from the stored one, and an unflagged item is unchanged. |
| StockController.GroupedFailsFromPrefix | controllers/stockController.js:86-87 | Once a record's item is missing, the grouping fails whatever follows. |
| StockController.GroupedStep | controllers/stockController.js:86-101 | One more record with an existing item extends the grouping by one step. |
| StockController.GroupedStepFails | controllers/stockController.js:87 | A record whose item is missing fails the grouping. |
| StockController.GroupStocks | controllers/stockController.js:86-101 | The `forEach` filling `itemMap` computes the grouping, or fails where the source throws. |
| StockController.SumTotals | controllers/stockController.js:113 | The `reduce` computes the sum of the entries' totals. |
| StockController.GetDashboardSummary | controllers/stockController.js:70-121 | The handler answers the summary function on the current database. |
| Seed.FindBranchEntry | seed.js:26 | The first entry for the branch, or none. |
| Seed.FindBranchEntryUpdate | seed.js:39 | Changing an entry's quantity does not move the branch lookup. |
| Seed.SeedEntries | seed.js:26-40 | The branch's first entry gains the quantity and the length stays the same, or exactly one entry is appended with category 'default' and description '' unless sent. No other entry changes. |
| Seed.SeedEntriesBranchTotals | seed.js:26-40 | Seeding raises the seeded branch's total by the quantity and leaves every other branch's total alone. |
| Seed.SeedEntriesKeepsBranchesUnique | seed.js:26-40 | A list with at most one entry per branch keeps that property. |
| Seed.SeedEntriesAccumulate | seed.js:26-40 | Seeding the same branch twice is seeding the sum once. |
| Seed.SeedStock | seed.js:7-52 | Fails exactly when the item name or branch is missing or the quantity is falsy, including 0, and then changes nothing. The item with the exact name has its entries seeded, or a new item with one entry is appended. Nothing else changes. |
| Seed.SeedStockKeepsValid | seed.js:15-42 | With a fresh new-item id, seeding keeps the database invariant. |
| Seed.SeedHandler | seed.js:7-52 | The in-place push or increment, and the save, equal `SeedStock` and keep the invariant. |
| DashboardData.OrderCounts | controllers/dashboardController.js:24-29 | Purchase orders are the approved plus the dispatched requests, and together with the pending ones they are at most all requests. |
| DashboardData.SalesTodayWithinDispatched | controllers/dashboardController.js:18-21 | Today's sales are among the dispatched requests. |
| DashboardData.RevenueOf | controllers/dashboardController.js:39-40 | Definition: a dispatched request contributes quantity times rate when its item is populated and has a non-zero rate, and 0 otherwise. |
| DashboardData.Revenue | controllers/dashboardController.js:36-42 | Definition: the sum of `RevenueOf` over all requests. |
| DashboardData.ComputeRevenue | controllers/dashboardController.js:36-42 | The revenue loop computes the sum of quantity times rate over dispatched requests whose item and rate are present, skipping the rest. |
| DashboardData.RevenueIsZero | controllers/dashboardController.js:36-42 | No request in a valid database has an item reference, so the revenue is 0. |
| DashboardData.Chart | controllers/dashboardController.js:45-49 | There are exactly twelve buckets, and bucket m is month m. |
| DashboardData.SaleStep | controllers/dashboardController.js:57-60 | One more dispatched request adds its quantity to the sales of its dispatch month only. |
| DashboardData.PurchaseStep | controllers/dashboardController.js:68-71 | One more admin stock record adds its quantity to the purchase of its creation month only. |
| DashboardData.SalesBuckets | controllers/dashboardController.js:52-60 | The sales loop fills each of the twelve buckets with the quantities dispatched this year in its month. |
| DashboardData.PurchaseBuckets | controllers/dashboardController.js:63-71 | The purchase loop fills each bucket with the admin stock created this year in its month. |
| DashboardData.MonthlyChart | controllers/dashboardController.js:45-71 | Both loops together produce the chart. |
| DashboardData.ChartSalesBefore | controllers/dashboardController.js:57-60 | The first n buckets hold exactly the sales dated in months below n. |
| DashboardData.ChartPurchasesBefore | controllers/dashboardController.js:68-71 | The first n buckets hold exactly the purchases dated in months below n. |
| DashboardData.ChartAddsUp | controllers/dashboardController.js:45-71 | The buckets add up to the year's sales and the year's purchases, so every sale and purchase lands in exactly one month. |
| DashboardData.PurchasesAreZero | controllers/dashboardController.js:63-71 | Stock records never carry a creation time, so every purchase bucket is 0. |
| DashboardData.DashboardOf | controllers/dashboardController.js:8-83 | Definition: the item count, the dispatched-today, order, pending and new-user counts, the revenue, and the twelve-month chart. |
| DashboardData.GetDashboardData | controllers/dashboardController.js:8-83 | The handler returns the item count, the sales today, the purchase orders, the pending requests, the new users of the month, the revenue and the chart. |
| Middleware.AllowedRoles | middleware/role.js:1-5 | Definition: the default is the empty list, a single role string becomes a one-element list, and a list is kept. |
| Middleware.RoleAdmits | middleware/role.js:3-10 | Access is allowed exactly when the caller's role is in the normalised role list. |
| Middleware.RoleAdmitsCases | middleware/role.js:1-5 | A single role admits exactly that role, as a one-element list does, and the default empty list admits nobody. |
| Middleware.BearerSplit | middleware/auth.js:11 | A "Bearer " header splits into "Bearer" followed by the segments of the rest. |
| Middleware.TokenOf | middleware/auth.js:11 | The token is the space-free text after "Bearer " up to the next space or the end. |
| Middleware.TokenIsFirstSegment | middleware/auth.js:11 | The first split segment is the prefix before the first space. |
| Middleware.TokenOfBearer | middleware/auth.js:7-11 | A header built from a space-free token yields that token. |
| Middleware.Authenticate | middleware/auth.js:4-26 | Every denial is 401, and a missing or non-bearer header is "No token provided". A caller is admitted exactly when the token verifies and carries an e-mail address some user has, and is then that user without the password. |
| Middleware.AuthenticateUnique | middleware/auth.js:17-20 | In a valid user table the admitted caller is the one user with the token's e-mail address. |
| Middleware.Exchange.CheckRole | middleware/role.js:7-12 | On deny the status is 403 and `next` is not called. On allow, `next` is called exactly once and nothing else changes. |
| Middleware.Exchange.Auth | middleware/auth.js:4-26 | On deny the status is 401 and `next` is not called. On admit, `req.user` is set and `next` is called exactly once. |
| AuthController.Validated | model/user.js:10 | Definition: the password the schema validators see, which is the controller's hash when it hashes and the sent password otherwise. |
| AuthController.SaveAccepts | model/user.js:6-11 | Definition: the role is in the enum, name and e-mail are non-empty, and the password the validators see has at least 6 characters. |
| AuthController.Registration | controllers/auth.js:14-58 | A missing field gives "All fields are required", a mismatch gives "do not match", and an existing normalised e-mail gives "User already exists". Failures change nothing. Success holds exactly when these checks pass and the schema validators accept the document. It appends exactly the new user and answers its account. |
| AuthController.RegisterAsWritten | controllers/auth.js:32-43 | As written, the stored password is the hash of the hash of the sent one. |
| AuthController.Register | controllers/auth.js:32-43 | Corrected, the stored password is the hash of the sent one. |
| AuthController.Login | controllers/auth.js:60-90 | Missing fields give "Email and password required", and an unknown normalised e-mail gives "User not found". Success holds exactly when the password matches the stored hash, and then answers that user's id and role claims and account. |
| AuthController.RegistrationKeepsUsersValid | controllers/auth.js:26-43 | Registration with a fresh id keeps the user table valid: at most one user per normalised e-mail address, with roles from the enum. |
| AuthController.NewUserIsLast | model/user.js:7-11 | Appending a user whose id and e-mail address nobody has, with a normalised e-mail and a valid role, keeps the table valid. |
| AuthController.FindAppended | controllers/auth.js:68 | After adding a user whose e-mail address nobody had, a lookup by that address finds the new user. |
| AuthController.RegisteredUserCanLogIn | controllers/auth.js:60-85 | After the corrected registration, logging in with any spelling of the address that normalises to the same key, and the same password, succeeds as the new user with the role defaulting to 'user'. |
| AuthController.DoubleHashedLoginFails | controllers/auth.js:32 | After registration as written, logging in with the registered password fails with "Invalid credentials" for any injective hash that moves every string. |
| AuthController.SampleNormalized | controllers/auth.js:36 | The sample address and name are left alone by normalisation and trimming. |
| AuthController.SampleAccepted | controllers/auth.js:18-43 | The sample form passes the presence, confirmation and uniqueness checks on an empty table, and the schema accepts the saved document with either stored hash. |
| AuthController.DoubleHashExample | controllers/auth.js:32 | Concretely, registering "a@b" with "secret" as written succeeds, stores "$$secret", and the login with "secret" fails with "Invalid credentials". |
| AuthController.SingleHashExample | controllers/auth.js:60-85 | With the corrected registration the same form stores "$secret", and the same login succeeds. |
| AuthController.RegisterHandler | controllers/auth.js:14-58 | In-place registration equals the corrected `Register`, leaves the other collections alone and keeps the invariant. |
| AuthController.LoginHandler | controllers/auth.js:60-90 | The handler answers `Login` on the current users. |
| UserController.ListUsers | controllers/userController.js:21 | Every user, in order, without the password. |
| UserController.ListingIgnoresPasswords | controllers/userController.js:21 | Two tables that differ only in passwords list alike, so no password reaches the answer. |
| UserController.Strip | controllers/userController.js:33 | Definition: the body without `name`, `email` and `password`. |
| UserController.UpdateValid | controllers/userController.js:38 | Definition: `runValidators` on the `$set`, so a supplied role is in the enum and a supplied phone or location is non-empty. |
| UserController.Apply | controllers/userController.js:35-39 | Definition: `$set`, so every supplied field overwrites the stored one and the rest is kept. |
| UserController.UpdateUser | controllers/userController.js:29-48 | A body the validators refuse gives 500, and an unknown id 404. Both leave the table alone. Otherwise exactly the found user is overwritten by the stripped body, and the answer is its password-free view. |
| UserController.UpdateKeepsProtectedFields | controllers/userController.js:33 | No update changes any user's id, name, e-mail address, password or creation time, whatever the body holds. |
| UserController.UpdateIgnoresStrippedFields | controllers/userController.js:33 | Bodies that differ only in name, e-mail address or password act alike. |
| UserController.UpdateOverwritesSuppliedFields | controllers/userController.js:35-39 | Each sent phone, location, branch, role or verification flag is stored, the rest keep their values, and no other user changes. |
| UserController.UpdateIdempotent | controllers/userController.js:35-39 | Sending the same body twice is the same as sending it once. |
| UserController.SameIdsSameFind | controllers/userController.js:35 | `findById` depends only on the ids. |
| UserController.SameKeysStayValid | model/user.js:7-11 | A table that keeps every id and e-mail address of a valid one, with roles from the enum, is valid. |
| UserController.UpdateKeepsUsersValid | controllers/userController.js:35-39 | An update keeps the user table valid. |
| UserController.DeleteUser | controllers/userController.js:51-62 | An unknown id gives 404 with no change. Otherwise exactly the found user is removed, keeping the order of the rest. |
| UserController.RemovedAt | controllers/userController.js:54 | Removing the entry at k keeps every other entry, in order. |
| UserController.DeleteRemovesExactly | controllers/userController.js:54-56 | In a valid table, after a deletion no user has the id, every other user remains, and the table is one shorter when the id was found. |
| UserController.DeleteKeepsUsersValid | controllers/userController.js:54 | A deletion keeps the user table valid. |
| UserController.RemovedKeepsValid | controllers/userController.js:54 | Removing one entry of a valid table leaves a valid table. |
| UserController.UpdateUserHandler | controllers/userController.js:29-48 | The in-place update equals `UpdateUser`, leaves the other collections alone and keeps the invariant. |
| UserController.DeleteUserHandler | controllers/userController.js:51-62 | The in-place deletion equals `DeleteUser`, leaves the other collections alone and keeps the invariant. |
| Sales.FileTypeOf | model/sales.js:27 | A file type is accepted exactly when it is absent, "pdf" or "image". Absent means `pdf`, and an accepted one keeps its spelling. |
| Sales.FileTypeRoundTrip | model/sales.js:27 | Every file type survives being written out and cast back. |
| Sales.Priced | model/sales.js:36-39 | The hook sets `totalAmount` to quantity times price and changes no other field. |
| Sales.PricedIdempotent | model/sales.js:36-39 | Running the hook twice is running it once, and a caller-supplied total never survives it. |
| Sales.Sale.constructor | model/sales.js:1-33 | A new sale record holds exactly the given document. |
| Sales.Sale.PreSave | model/sales.js:36-39 | The in-place hook leaves the record as `Priced` of the old one. |
| Text.TrimStart | controllers/auth.js:26 | Drops exactly the leading JavaScript white space. |
| Text.TrimEnd | controllers/auth.js:26 | Drops exactly the trailing JavaScript white space. |
| Text.Trim | controllers/auth.js:26 | Definition: `trim()`, dropping the leading and then the trailing JavaScript white space. |
| Text.Normalize | controllers/auth.js:26 | Definition: `trim().toLowerCase()`, the key under which e-mails and item names are looked up. |
| Text.TrimIsTrimmed | controllers/auth.js:26 | A trimmed string has no white space at either end. |
| Text.TrimOfTrimmed | controllers/auth.js:26 | Trimming a trimmed string changes nothing. |
| Text.NormalizeIsNormalized | controllers/requestController.js:144 | What `trim().toLowerCase()` produces is trimmed and has no upper-case letters. |
| Text.NormalizeFixes | controllers/requestController.js:144 | The normalised strings are exactly the fixed points of normalisation. |
| Text.NormalizeIdempotent | controllers/auth.js:26-36 | Normalising twice is normalising once, so the stored e-mail address is its own lookup key. |
| Text.Last | controllers/requestController.js:74 | `slice(-5)`: the last five characters, or the whole string when it is shorter. |
| Text.PadStart | controllers/requestController.js:9 | `padStart(5, '0')`: at least five characters, ending with the original. |
| Text.Decimal | controllers/requestController.js:74 | The year is written with at least one digit and only digits. |
| Text.DecimalInjective | controllers/requestController.js:74 | Distinct years are written differently. |
| Text.Split | middleware/auth.js:11 | `split(' ')` yields at least one segment, and no segment holds a space. |
| Text.JoinSplit | middleware/auth.js:11 | Joining the segments back gives the original header. |

## Left out

- **I/O:** HTTP, Express routing, the `catch`-all 500 responses for database failures, console logging and e-mail (the calls are commented out). The 500 paths the model does cover are the unique token index, a validator refusing a document, and the two dereferences of a missing document.
- **Clocks:** `new Date()`, the year, the start of today, month and year, and `getMonth()` are parameters, and dates are integers. The month label from `toLocaleString` is replaced by the month's index.
- **Hashing:** bcrypt is a deterministic function parameter, so salting is not modelled, and `bcrypt.compare` is a predicate parameter. JWT signing and verification are parameters too.
- **Mismatched tokens:** login signs `{id, role}` with one secret, while the middleware verifies with another and reads an `email` claim. The model states each side's own checks, and a token without an e-mail claim matches no user.
- **Concurrency:** concurrency and the non-atomic `save()` calls. A handler is one sequential step, apart from the deleted-requester case under Findings.
- **Numbers:** JavaScript numbers are modelled as integers (quantities, prices, rates), so there is no floating point, no `NaN` and no string-to-number conversion. In particular, `seed.js`'s `Number(quantity)` is taken to be the sent integer.
- **Letter case:** case mapping covers the ASCII letters only.
- **Strict mode:** Mongoose's strict mode is not modelled. `model/user.js` declares no `branch`, and `model/Stock.js` declares only `branch`, `item` and `quantity`. The model keeps `branch`, `ownerId`, `ownerType` and `rate` on the records, because the handlers read and write them.
- **Item model:** model/item.js is an Express router, not a schema. Items are the record the handlers use: name, description, category, rate and the per-branch entries.
- **Malformed ids:** an id that is not a valid ObjectId is not modelled. Ids are strings, and a malformed one simply matches nothing. `_id` or timestamps sent in an update body are not modelled either.
- **Role guards on routes:** guards applied in the route files are not part of the handlers, for example `checkRole('admin')` on the dashboard route. `getDashboardData` has no role check of its own, and neither does the user controller.
- **Unmodelled handlers:** `getAllRequests` and `getProfile` are plain pass-through queries. The sales creation and invoice upload handlers named in the routes are not in the controllers. No handler writes a model/Dispatch.js record. `otp` fields and `matchPassword` are unused.
- UserController.UpdateUser: `runValidators` is modelled as the role enum plus the required `phone` and `location` staying non-empty. Type casts of sent values are not modelled.
- StockRules.MonthStats: states only that each status count stays within the month's total, because the three counts are plain filtered counts and nothing more is promised.
- DashboardData.GetDashboardData: its contract ties the answer to `DashboardOf`. The count fields are `countDocuments` queries with no property beyond the filter they count, and the revenue and chart have their own lemmas above.

## Findings

| source | as written | input that shows it | evidently intended | confidence | as-written member | corrected member |
|---|---|---|---|---|---|---|
| controllers/requestController.js:169-175 | The admin's stock record is debited and saved before `request.user._id` is read. For a deleted requester `populate` yields null, the read throws, and the handler answers 500 with the debit already saved and nobody credited. | An approved request for 3 of "Bolt " whose requester was deleted, with the admin holding 10 of item "bolt": the answer is 500 and 7 remain (`RequestLaws.DeletedRequesterExample`; `RequestLaws.DeletedRequesterLosesStock` for every such input). | Every failure leaves the stock as it was, which means checking the requester before the debit. `RequestLaws.DispatchConservesStock` and `RequestLaws.DispatchTransfersQuantity` hold of the corrected dispatch. | not executed | RequestRules.DispatchAsWritten | RequestRules.Dispatch |
| controllers/auth.js:32 | The controller hashes the password, and the user schema's pre-save hook (model/user.js:20-25) hashes the result again. The stored value is the hash of the hash, so comparing the sent password with it fails. | Register "a@b" with password "secret", then log in with "secret": the answer is "Invalid credentials" (`AuthController.DoubleHashExample`; `AuthController.DoubleHashedLoginFails` for every injective hash). | The password is hashed once, so that a registered user can log in (`AuthController.RegisteredUserCanLogIn`). | not executed | AuthController.RegisterAsWritten | AuthController.Register |

=== FILE: auth_controller.dfy ===
/**
 * `register` and `login` of controllers/auth.js over the user table, with
 * the schema behaviour of model/user.js that they rely on: `name` is trimmed,
 * `email` trimmed and lower-cased, `role` drawn from its enum, and the
 * pre-save hook hashes whatever password is being saved. The hash, the
 * password comparison and token signing are parameters.
 */
module AuthController {
  import opened Wrappers
  import opened Mongo
  import opened Text
  import opened Users
  import opened Store

  datatype RegisterForm = RegisterForm(
    name: Option<string>, email: Option<string>, phone: Option<string>, location: Option<string>,
    password: Option<string>, confirmPassword: Option<string>, branch: Option<string>, role: Option<string>)

  datatype LoginForm = LoginForm(email: Option<string>, password: Option<string>)

  datatype AuthError = MissingFields | PasswordMismatch | UserExists | CredentialsRequired
                     | UserNotFound | InvalidCredentials | RegistrationFailed

  function AuthHttpStatus(e: AuthError): nat {
    if e == RegistrationFailed then 500 else 400
  }

  /** The `user` object of both responses. */
  datatype Account = Account(id: Id, name: string, email: string, role: string)

  function AccountOf(u: User): Account {
    Account(u.id, u.name, u.email, u.role)
  }

  /** The payload `generateToken` signs. */
  datatype TokenClaims = TokenClaims(id: Id, role: string)

  datatype LoggedIn = LoggedIn(claims: TokenClaims, account: Account)

  /** The seven fields `register` requires to be truthy. */
  predicate AllFieldsPresent(f: RegisterForm) {
    && Present(f.name) && Present(f.email) && Present(f.phone) && Present(f.location)
    && Present(f.password) && Present(f.confirmPassword) && Present(f.branch)
  }

  /** The destructuring default `role = 'user'` applies only when no role is sent. */
  function RoleOrDefault(role: Option<string>): string {
    if role.Some? then role.value else "user"
  }

  /** The stored password: hashed by the pre-save hook, and before that by the controller when `twice`. */
  function Stored(hash: string -> string, twice: bool, p: string): string {
    if twice then hash(hash(p)) else hash(p)
  }

  /** The password the validators see: they run before the pre-save hook, so only the controller's hash, if any, has been applied. */
  function Validated(hash: string -> string, twice: bool, p: string): string {
    if twice then hash(p) else p
  }

  /** The document `User.create` saves, after the schema's setters have run. */
  function NewUser(f: RegisterForm, id: Id, now: int, stored: string): User
    requires AllFieldsPresent(f)
  {
    User(id, Trim(f.name.value), Normalize(f.email.value), f.phone.value, f.location.value, f.branch.value,
         stored, RoleOrDefault(f.role), true, now)
  }

  /**
   * The schema validators on save: role in the enum, required strings
   * non-empty after trimming, and the password they see of length 6 or more.
   */
  predicate SaveAccepts(u: User, seen: string) {
    ValidRole(u.role) && u.name != "" && u.email != "" && |seen| >= 6
  }

  /**
   * Registration, with the password hashed once or twice before it is stored:
   * the checks in the order of controllers/auth.js, then the insertion.
   */
  function Registration(users: seq<User>, f: RegisterForm, newId: Id, now: int, hash: string -> string, twice: bool)
    : (out: (Result<Account, AuthError>, seq<User>))
    ensures out.0.Err? ==> out.1 == users
    ensures !AllFieldsPresent(f) ==> out.0 == Err(MissingFields)
    ensures AllFieldsPresent(f) && f.password != f.confirmPassword ==> out.0 == Err(PasswordMismatch)
    ensures AllFieldsPresent(f) && f.password == f.confirmPassword && FindUserByEmail(users, Normalize(f.email.value)).Some? ==>
              out.0 == Err(UserExists)
    ensures out.0.Ok? <==>
      && AllFieldsPresent(f) && f.password == f.confirmPassword
      && FindUserByEmail(users, Normalize(f.email.value)).None?
      && SaveAccepts(NewUser(f, newId, now, Stored(hash, twice, f.password.value)), Validated(hash, twice, f.password.value))
    ensures out.0.Ok? ==>
      var u := NewUser(f, newId, now, Stored(hash, twice, f.password.value));
      out.1 == users + [u] && out.0.value == AccountOf(u)
  {
    if !AllFieldsPresent(f) then (Err(MissingFields), users)
    else if f.password != f.confirmPassword then (Err(PasswordMismatch), users)
    else if FindUserByEmail(users, Normalize(f.email.value)).Some? then (Err(UserExists), users)
    else
      var u := NewUser(f, newId, now, Stored(hash, twice, f.password.value));
      if !SaveAccepts(u, Validated(hash, twice, f.password.value)) then (Err(RegistrationFailed), users)
      else (Ok(AccountOf(u)), users + [u])
  }

  /** `register` as written: the controller hashes the password and the pre-save hook hashes the result again. */
  function RegisterAsWritten(users: seq<User>, f: RegisterForm, newId: Id, now: int, hash: string -> string)
    : (out: (Result<Account, AuthError>, seq<User>))
    ensures out.0.Ok? ==> f.password.Some? && |out.1| == |users| + 1 && out.1[|users|].password == hash(hash(f.password.value))
  {
    Registration(users, f, newId, now, hash, true)
  }

  /** `register` with the password hashed once, by the pre-save hook alone. */
  function Register(users: seq<User>, f: RegisterForm, newId: Id, now: int, hash: string -> string)
    : (out: (Result<Account, AuthError>, seq<User>))
    ensures out.0.Ok? ==> f.password.Some? && |out.1| == |users| + 1 && out.1[|users|].password == hash(f.password.value)
  {
    Registration(users, f, newId, now, hash, false)
  }

  /** `login`: both fields required, the user looked up by normalised e-mail, the password compared with the stored hash. */
  function Login(users: seq<User>, f: LoginForm, matches: (string, string) -> bool): (r: Result<LoggedIn, AuthError>)
    ensures !Present(f.email) || !Present(f.password) ==> r == Err(CredentialsRequired)
    ensures Present(f.email) && Present(f.password) && FindUserByEmail(users, Normalize(f.email.value)).None? ==>
              r == Err(UserNotFound)
    ensures r.Ok? <==>
      && Present(f.email) && Present(f.password)
      && FindUserByEmail(users, Normalize(f.email.value)).Some?
      && matches(f.password.value, users[FindUserByEmail(users, Normalize(f.email.value)).value].password)
    ensures r.Ok? ==>
      exists k :: 0 <= k < |users| && users[k].email == Normalize(f.email.value)
        && r.value == LoggedIn(TokenClaims(users[k].id, users[k].role), AccountOf(users[k]))
  {
    if !Present(f.email) || !Present(f.password) then Err(CredentialsRequired)
    else match FindUserByEmail(users, Normalize(f.email.value))
      case None => Err(UserNotFound)
      case Some(k) =>
        if !matches(f.password.value, users[k].password) then Err(InvalidCredentials)
        else Ok(LoggedIn(TokenClaims(users[k].id, users[k].role), AccountOf(users[k])))
  }

  /** Registration with a fresh id keeps the user table valid: the e-mail is stored normalised, non-empty and unused, the role from the enum. */
  lemma RegistrationKeepsUsersValid(users: seq<User>, f: RegisterForm, newId: Id, now: int, hash: string -> string, twice: bool)
    requires UsersValid(users)
    requires forall j :: 0 <= j < |users| ==> users[j].id != newId
    ensures UsersValid(Registration(users, f, newId, now, hash, twice).1)
  {
    var (res, after) := Registration(users, f, newId, now, hash, twice);
    if res.Ok? {
      var u := NewUser(f, newId, now, Stored(hash, twice, f.password.value));
      assert after == users + [u];
      NormalizeIdempotent(f.email.value);
      assert Normalize(u.email) == u.email;
      assert forall j :: 0 <= j < |users| ==> users[j].email != u.email && users[j].id != u.id;
      NewUserIsLast(users, u);
    }
  }

  /** Appending a user that differs from every user in id and e-mail, with a valid stored e-mail and role, keeps the table valid. */
  lemma NewUserIsLast(users: seq<User>, u: User)
    requires UsersValid(users)
    requires forall j :: 0 <= j < |users| ==> users[j].email != u.email && users[j].id != u.id
    requires u.email != "" && Normalize(u.email) == u.email && ValidRole(u.role)
    ensures UsersValid(users + [u])
  {
    var all := users + [u];
    forall i | 0 <= i < |all|
      ensures all[i] == if i < |users| then users[i] else u
    {
    }
    forall i, j | 0 <= i < |all| && 0 <= j < |all| && i != j
      ensures all[i].id != all[j].id && all[i].email != all[j].email
    {
    }
    forall i | 0 <= i < |all|
      ensures all[i].email != "" && Normalize(all[i].email) == all[i].email && ValidRole(all[i].role)
    {
    }
  }

  /** After adding a user whose e-mail nobody had, looking that e-mail up finds the new user. */
  lemma FindAppended(users: seq<User>, u: User)
    requires FindUserByEmail(users, u.email).None?
    ensures FindUserByEmail(users + [u], u.email) == Some(|users|)
  {
    var all := users + [u];
    assert all[|users|].email == u.email;
    assert forall j :: 0 <= j < |users| ==> all[j].email != u.email;
  }

  /**
   * With a comparison that accepts a password against its own hash, a user
   * registered by the corrected `register` can log in with the same password
   * and any spelling of the e-mail that normalises alike.
   */
  lemma RegisteredUserCanLogIn(users: seq<User>, f: RegisterForm, newId: Id, now: int, hash: string -> string,
                               matches: (string, string) -> bool, loginEmail: string)
    requires Register(users, f, newId, now, hash).0.Ok?
    requires forall p :: matches(p, hash(p))
    requires loginEmail != [] && Normalize(loginEmail) == Normalize(f.email.value)
    ensures var after := Register(users, f, newId, now, hash).1;
      Login(after, LoginForm(Some(loginEmail), f.password), matches) ==
        Ok(LoggedIn(TokenClaims(newId, RoleOrDefault(f.role)), AccountOf(after[|users|])))
  {
    var after := Register(users, f, newId, now, hash).1;
    FindAppended(users, after[|users|]);
  }

  /**
   * With a comparison that accepts exactly a password's own hash, and a hash
   * that is injective and never returns its input, a user registered by the
   * as-written `register` can never log in with the password they chose.
   */
  lemma DoubleHashedLoginFails(users: seq<User>, f: RegisterForm, newId: Id, now: int, hash: string -> string,
                               matches: (string, string) -> bool)
    requires RegisterAsWritten(users, f, newId, now, hash).0.Ok?
    requires forall p, h :: matches(p, h) <==> h == hash(p)
    requires forall x, y :: hash(x) == hash(y) ==> x == y
    requires forall p :: hash(p) != p
    ensures Login(RegisterAsWritten(users, f, newId, now, hash).1, LoginForm(f.email, f.password), matches) == Err(InvalidCredentials)
  {
    var after := RegisterAsWritten(users, f, newId, now, hash).1;
    FindAppended(users, after[|users|]);
    var p := f.password.value;
    assert hash(p) != p;
    assert hash(hash(p)) != hash(p);
  }

  // ---- a concrete instance ----

  /** A stand-in hash: mark the text with a leading dollar sign. */
  function Dollar(p: string): string {
    "$" + p
  }

  function DollarMatches(p: string, h: string): bool {
    h == Dollar(p)
  }

  /** A registration of "a@b" with password "secret" and no role. */
  function SampleForm(): RegisterForm {
    RegisterForm(Some("A"), Some("a@b"), Some("1"), Some("L"), Some("secret"), Some("secret"), Some("B"), None)
  }

  lemma SampleNormalized()
    ensures Normalize("a@b") == "a@b" && Trim("A") == "A"
  {
    assert IsTrimmed("a@b");
    TrimOfTrimmed("a@b");
    assert ToLower("a@b") == "a@b";
    assert IsTrimmed("A");
    TrimOfTrimmed("A");
  }

  /** The sample form passes every check before the insertion, on an empty table and with either stored hash. */
  lemma SampleAccepted()
    ensures AllFieldsPresent(SampleForm()) && SampleForm().password == SampleForm().confirmPassword
    ensures FindUserByEmail([], Normalize(SampleForm().email.value)) == None
    ensures SaveAccepts(NewUser(SampleForm(), "u1", 0, "$$secret"), "$secret")
    ensures SaveAccepts(NewUser(SampleForm(), "u1", 0, "$secret"), "secret")
  {
    SampleNormalized();
  }

  /**
   * On an empty table the as-written registration of the sample succeeds,
   * stores "$$secret", and the login with "secret" is refused.
   */
  lemma DoubleHashExample()
    ensures RegisterAsWritten([], SampleForm(), "u1", 0, Dollar).0.Ok?
    ensures RegisterAsWritten([], SampleForm(), "u1", 0, Dollar).1[0].password == "$$secret"
    ensures Login(RegisterAsWritten([], SampleForm(), "u1", 0, Dollar).1, LoginForm(Some("a@b"), Some("secret")), DollarMatches)
              == Err(InvalidCredentials)
  {
    SampleAccepted();
    SampleNormalized();
    assert Stored(Dollar, true, "secret") == "$$secret";
    assert Validated(Dollar, true, "secret") == "$secret";
    assert RegisterAsWritten([], SampleForm(), "u1", 0, Dollar).1 == [NewUser(SampleForm(), "u1", 0, "$$secret")];
    forall x, y | Dollar(x) == Dollar(y)
      ensures x == y
    {
      assert Dollar(x)[1..] == x && Dollar(y)[1..] == y;
    }
    DoubleHashedLoginFails([], SampleForm(), "u1", 0, Dollar, DollarMatches);
  }

  /** On an empty table the corrected registration of the sample stores "$secret", and the login with "secret" succeeds. */
  lemma SingleHashExample()
    ensures Register([], SampleForm(), "u1", 0, Dollar).0.Ok?
    ensures Register([], SampleForm(), "u1", 0, Dollar).1[0].password == "$secret"
    ensures Login(Register([], SampleForm(), "u1", 0, Dollar).1, LoginForm(Some("a@b"), Some("secret")), DollarMatches).Ok?
  {
    SampleAccepted();
    SampleNormalized();
    assert Stored(Dollar, false, "secret") == "$secret";
    assert Register([], SampleForm(), "u1", 0, Dollar).1 == [NewUser(SampleForm(), "u1", 0, "$secret")];
    RegisteredUserCanLogIn([], SampleForm(), "u1", 0, Dollar, DollarMatches, "a@b");
  }

  // ---- the handlers on the database object ----

  /** `register` on the database, with the password hashed once. */
  method RegisterHandler(db: Database, f: RegisterForm, newId: Id, now: int, hash: string -> string)
    returns (res: Result<Account, AuthError>)
    requires db.Valid()
    requires forall j :: 0 <= j < |db.users| ==> db.users[j].id != newId
    modifies db
    ensures (res, db.users) == Register(old(db.users), f, newId, now, hash)
    ensures db.items == old(db.items) && db.stocks == old(db.stocks) && db.requests == old(db.requests)
    ensures db.Valid()
  {
    RegistrationKeepsUsersValid(db.users, f, newId, now, hash, false);
    if !AllFieldsPresent(f) {
      return Err(MissingFields);
    }
    if f.password != f.confirmPassword {
      return Err(PasswordMismatch);
    }
    var email := Normalize(f.email.value);
    if FindUserByEmail(db.users, email).Some? {
      return Err(UserExists);
    }
    var u := NewUser(f, newId, now, hash(f.password.value));
    if !SaveAccepts(u, f.password.value) {
      return Err(RegistrationFailed);
    }
    db.users := db.users + [u];
    res := Ok(AccountOf(u));
  }

  /** `login` on the database. */
  method LoginHandler(db: Database, f: LoginForm, matches: (string, string) -> bool) returns (r: Result<LoggedIn, AuthError>)
    ensures r == Login(db.users, f, matches)
  {
    if !Present(f.email) || !Present(f.password) {
      return Err(CredentialsRequired);
    }
    var found := FindUserByEmail(db.users, Normalize(f.email.value));
    if found.None? {
      return Err(UserNotFound);
    }
    var user := db.users[found.value];
    if !matches(f.password.value, user.password) {
      return Err(InvalidCredentials);
    }
    r := Ok(LoggedIn(TokenClaims(user.id, user.role), AccountOf(user)));
  }
}

=== FILE: dashboard.dfy ===
/**
 * `getDashboardData` of controllers/dashboardController.js: status counts,
 * the revenue sum, and the twelve monthly sales and purchase buckets. Dates
 * are abstract instants; the caller supplies the start of today, of the month
 * and of the year, and `monthOf`, which gives an instant's month as 0..11.
 */
module DashboardData {
  import opened Wrappers
  import opened Mongo
  import opened Seqs
  import opened Ledger
  import opened Requests
  import opened Users
  import opened Store

  /** A month index, as `getMonth()` returns it. */
  type Month = m: int | 0 <= m < 12

  /** The instants the handler derives from the clock. */
  datatype Clock = Clock(startOfToday: int, startOfMonth: int, startOfYear: int)

  datatype Stats = Stats(totalItems: nat, salesToday: nat, purchaseOrders: nat, pendingRequests: nat,
                         newUsers: nat, revenue: int)

  /** One chart bucket; the month label is its index. */
  datatype MonthStat = MonthStat(month: Month, sales: int, purchase: int)

  datatype Dashboard = Dashboard(stats: Stats, chartData: seq<MonthStat>)

  // ---- the counts ----

  function InStatus(status: Status): Request -> bool {
    (r: Request) => r.status == status
  }

  /** `status: { $in: ['approved', 'dispatched'] }`. */
  function IsOrder(): Request -> bool {
    (r: Request) => r.status == Approved || r.status == Dispatched
  }

  /** Dispatched with a dispatch time at or after `t`; a missing time never matches `$gte`. */
  function DispatchedSince(t: int): Request -> bool {
    (r: Request) => r.status == Dispatched && r.timestamps.dispatched.Some? && r.timestamps.dispatched.value >= t
  }

  function JoinedSince(t: int): User -> bool {
    (u: User) => u.createdAt >= t
  }

  /** Purchase orders are the approved and the dispatched requests, counted apart; pending ones are the rest of the open ones. */
  lemma OrderCounts(requests: seq<Request>)
    ensures Count(requests, IsOrder()) == Count(requests, InStatus(Approved)) + Count(requests, InStatus(Dispatched))
    ensures Count(requests, IsOrder()) + Count(requests, InStatus(Requested)) <= |requests|
  {
    CountSplit(requests, InStatus(Approved), InStatus(Dispatched), IsOrder());
    CountSplit(requests, IsOrder(), InStatus(Requested), IsOpenOrOrder());
  }

  function IsOpenOrOrder(): Request -> bool {
    (r: Request) => r.status != Rejected
  }

  /** Today's sales are among the dispatched requests. */
  lemma SalesTodayWithinDispatched(requests: seq<Request>, startOfToday: int)
    ensures Count(requests, DispatchedSince(startOfToday)) <= Count(requests, InStatus(Dispatched))
  {
    CountWithin(requests, DispatchedSince(startOfToday), InStatus(Dispatched));
  }

  // ---- revenue ----

  /**
   * A dispatched request's value: quantity times the populated item's rate
   * when `req.item && req.item.rate` holds (the item exists and its rate is
   * set and non-zero), else nothing.
   */
  function RevenueOf(items: seq<Item>): Request -> int {
    (r: Request) =>
      if r.status == Dispatched && r.item.Some? && FindItemById(items, r.item.value).Some?
         && items[FindItemById(items, r.item.value).value].rate.Some?
         && items[FindItemById(items, r.item.value).value].rate.value != 0
      then r.quantity * items[FindItemById(items, r.item.value).value].rate.value
      else 0
  }

  function Revenue(requests: seq<Request>, items: seq<Item>): int {
    SumOf(requests, RevenueOf(items))
  }

  /** The revenue `forEach`. */
  method ComputeRevenue(requests: seq<Request>, items: seq<Item>) returns (revenue: int)
    ensures revenue == Revenue(requests, items)
  {
    revenue := 0;
    var i := 0;
    assert requests[..0] == [];
    while i < |requests|
      invariant 0 <= i <= |requests|
      invariant revenue == Revenue(requests[..i], items)
    {
      assert requests[..i + 1][..i] == requests[..i];
      var r := requests[i];
      if r.status == Dispatched && r.item.Some? {
        var k := FindItemById(items, r.item.value);
        if k.Some? && items[k.value].rate.Some? && items[k.value].rate.value != 0 {
          revenue := revenue + r.quantity * items[k.value].rate.value;
        }
      }
      i := i + 1;
    }
    assert requests[..i] == requests;
  }

  /** No request in a valid database carries an item reference, so the revenue is zero. */
  lemma RevenueIsZero(db: Db)
    requires RequestsValid(db.requests)
    ensures Revenue(db.requests, db.items) == 0
  {
    SumOfZero(db.requests, RevenueOf(db.items));
  }

  // ---- the monthly buckets ----

  /** The instant a request counts as a sale this year, if it does. */
  function SaleTime(yearStart: int, r: Request): Option<int> {
    if r.status == Dispatched && r.timestamps.dispatched.Some? && r.timestamps.dispatched.value >= yearStart
    then r.timestamps.dispatched else None
  }

  /** The instant an admin stock record counts as a purchase this year, if it does. */
  function PurchaseTime(yearStart: int, s: StockRecord): Option<int> {
    if s.ownerType == Some(AdminOwner) && s.createdAt.Some? && s.createdAt.value >= yearStart
    then s.createdAt else None
  }

  /** What a request adds to month `m`'s sales when its sale month is below `n`. */
  function SaleBefore(yearStart: int, monthOf: int -> Month, n: int): Request -> int {
    (r: Request) =>
      var t := SaleTime(yearStart, r);
      if t.Some? && monthOf(t.value) < n then r.quantity else 0
  }

  function SaleIn(yearStart: int, monthOf: int -> Month, m: Month): Request -> int {
    (r: Request) =>
      var t := SaleTime(yearStart, r);
      if t.Some? && monthOf(t.value) == m then r.quantity else 0
  }

  function PurchaseBefore(yearStart: int, monthOf: int -> Month, n: int): StockRecord -> int {
    (s: StockRecord) =>
      var t := PurchaseTime(yearStart, s);
      if t.Some? && monthOf(t.value) < n then s.quantity else 0
  }

  function PurchaseIn(yearStart: int, monthOf: int -> Month, m: Month): StockRecord -> int {
    (s: StockRecord) =>
      var t := PurchaseTime(yearStart, s);
      if t.Some? && monthOf(t.value) == m then s.quantity else 0
  }

  /** The twelve buckets: month `m` holds the sales and the purchases dated in it this year. */
  function Chart(requests: seq<Request>, stocks: seq<StockRecord>, yearStart: int, monthOf: int -> Month): (c: seq<MonthStat>)
    ensures |c| == 12
    ensures forall m :: 0 <= m < 12 ==> c[m].month == m
  {
    seq(12, m requires 0 <= m < 12 =>
      MonthStat(m, SumOf(requests, SaleIn(yearStart, monthOf, m)), SumOf(stocks, PurchaseIn(yearStart, monthOf, m))))
  }

  /** One more request adds its quantity to its sale month's bucket and to no other. */
  lemma SaleStep(requests: seq<Request>, i: nat, yearStart: int, monthOf: int -> Month)
    requires i < |requests|
    ensures var t := SaleTime(yearStart, requests[i]);
      forall m :: 0 <= m < 12 ==>
        SumOf(requests[..i + 1], SaleIn(yearStart, monthOf, m)) ==
        SumOf(requests[..i], SaleIn(yearStart, monthOf, m)) + (if t.Some? && monthOf(t.value) == m then requests[i].quantity else 0)
  {
    assert requests[..i + 1][..i] == requests[..i];
  }

  /** One more record adds its quantity to its purchase month's bucket and to no other. */
  lemma PurchaseStep(stocks: seq<StockRecord>, i: nat, yearStart: int, monthOf: int -> Month)
    requires i < |stocks|
    ensures var t := PurchaseTime(yearStart, stocks[i]);
      forall m :: 0 <= m < 12 ==>
        SumOf(stocks[..i + 1], PurchaseIn(yearStart, monthOf, m)) ==
        SumOf(stocks[..i], PurchaseIn(yearStart, monthOf, m)) + (if t.Some? && monthOf(t.value) == m then stocks[i].quantity else 0)
  {
    assert stocks[..i + 1][..i] == stocks[..i];
  }

  /** The sales `forEach`, on a twelve-slot array. */
  method SalesBuckets(requests: seq<Request>, yearStart: int, monthOf: int -> Month) returns (buckets: seq<int>)
    ensures |buckets| == 12
    ensures forall m :: 0 <= m < 12 ==> buckets[m] == SumOf(requests, SaleIn(yearStart, monthOf, m))
  {
    var sales := new int[12](_ => 0);
    var i := 0;
    assert requests[..0] == [];
    while i < |requests|
      invariant 0 <= i <= |requests|
      invariant forall m :: 0 <= m < 12 ==> sales[m] == SumOf(requests[..i], SaleIn(yearStart, monthOf, m))
    {
      SaleStep(requests, i, yearStart, monthOf);
      var r := requests[i];
      if r.status == Dispatched && r.timestamps.dispatched.Some? && r.timestamps.dispatched.value >= yearStart {
        var month := monthOf(r.timestamps.dispatched.value);
        sales[month] := sales[month] + r.quantity;
      }
      i := i + 1;
    }
    assert requests[..i] == requests;
    buckets := sales[..];
  }

  /** The purchase `forEach`, on a twelve-slot array. */
  method PurchaseBuckets(stocks: seq<StockRecord>, yearStart: int, monthOf: int -> Month) returns (buckets: seq<int>)
    ensures |buckets| == 12
    ensures forall m :: 0 <= m < 12 ==> buckets[m] == SumOf(stocks, PurchaseIn(yearStart, monthOf, m))
  {
    var purchase := new int[12](_ => 0);
    var i := 0;
    assert stocks[..0] == [];
    while i < |stocks|
      invariant 0 <= i <= |stocks|
      invariant forall m :: 0 <= m < 12 ==> purchase[m] == SumOf(stocks[..i], PurchaseIn(yearStart, monthOf, m))
    {
      PurchaseStep(stocks, i, yearStart, monthOf);
      var s := stocks[i];
      if s.ownerType == Some(AdminOwner) && s.createdAt.Some? && s.createdAt.value >= yearStart {
        var month := monthOf(s.createdAt.value);
        purchase[month] := purchase[month] + s.quantity;
      }
      i := i + 1;
    }
    assert stocks[..i] == stocks;
    buckets := purchase[..];
  }

  /** `monthlyStats` after both loops. */
  method MonthlyChart(requests: seq<Request>, stocks: seq<StockRecord>, yearStart: int, monthOf: int -> Month)
    returns (chart: seq<MonthStat>)
    ensures chart == Chart(requests, stocks, yearStart, monthOf)
  {
    var sales := SalesBuckets(requests, yearStart, monthOf);
    var purchase := PurchaseBuckets(stocks, yearStart, monthOf);
    chart := seq(12, m requires 0 <= m < 12 => MonthStat(m, sales[m], purchase[m]));
  }

  function MonthSales(s: MonthStat): int {
    s.sales
  }

  function MonthPurchase(s: MonthStat): int {
    s.purchase
  }

  /** The first `n` buckets hold the sales dated in months below `n`. */
  lemma {:induction false} ChartSalesBefore(requests: seq<Request>, stocks: seq<StockRecord>, yearStart: int, monthOf: int -> Month, n: nat)
    requires n <= 12
    ensures SumOf(Chart(requests, stocks, yearStart, monthOf)[..n], MonthSales) == SumOf(requests, SaleBefore(yearStart, monthOf, n))
  {
    var c := Chart(requests, stocks, yearStart, monthOf);
    if n == 0 {
      SumOfZero(requests, SaleBefore(yearStart, monthOf, 0));
    } else {
      ChartSalesBefore(requests, stocks, yearStart, monthOf, n - 1);
      assert c[..n][..n - 1] == c[..n - 1];
      SumOfAdd(requests, SaleBefore(yearStart, monthOf, n - 1), SaleIn(yearStart, monthOf, n - 1), SaleBefore(yearStart, monthOf, n));
    }
  }

  /** The first `n` buckets hold the purchases dated in months below `n`. */
  lemma {:induction false} ChartPurchasesBefore(requests: seq<Request>, stocks: seq<StockRecord>, yearStart: int, monthOf: int -> Month, n: nat)
    requires n <= 12
    ensures SumOf(Chart(requests, stocks, yearStart, monthOf)[..n], MonthPurchase) == SumOf(stocks, PurchaseBefore(yearStart, monthOf, n))
  {
    var c := Chart(requests, stocks, yearStart, monthOf);
    if n == 0 {
      SumOfZero(stocks, PurchaseBefore(yearStart, monthOf, 0));
    } else {
      ChartPurchasesBefore(requests, stocks, yearStart, monthOf, n - 1);
      assert c[..n][..n - 1] == c[..n - 1];
      SumOfAdd(stocks, PurchaseBefore(yearStart, monthOf, n - 1), PurchaseIn(yearStart, monthOf, n - 1), PurchaseBefore(yearStart, monthOf, n));
    }
  }

  /** What a request adds to the year's sales. */
  function YearSale(yearStart: int): Request -> int {
    (r: Request) => if SaleTime(yearStart, r).Some? then r.quantity else 0
  }

  function YearPurchase(yearStart: int): StockRecord -> int {
    (s: StockRecord) => if PurchaseTime(yearStart, s).Some? then s.quantity else 0
  }

  /**
   * Every sale and every purchase of the year lands in exactly one bucket:
   * the buckets add up to the year's sales and the year's purchases.
   */
  lemma ChartAddsUp(requests: seq<Request>, stocks: seq<StockRecord>, yearStart: int, monthOf: int -> Month)
    ensures var c := Chart(requests, stocks, yearStart, monthOf);
      && SumOf(c, MonthSales) == SumOf(requests, YearSale(yearStart))
      && SumOf(c, MonthPurchase) == SumOf(stocks, YearPurchase(yearStart))
  {
    var c := Chart(requests, stocks, yearStart, monthOf);
    assert c[..12] == c;
    ChartSalesBefore(requests, stocks, yearStart, monthOf, 12);
    SumOfSame(requests, SaleBefore(yearStart, monthOf, 12), YearSale(yearStart));
    ChartPurchasesBefore(requests, stocks, yearStart, monthOf, 12);
    SumOfSame(stocks, PurchaseBefore(yearStart, monthOf, 12), YearPurchase(yearStart));
  }

  /** No stock record has a creation time in a valid database, so every purchase bucket is zero. */
  lemma PurchasesAreZero(db: Db, yearStart: int, monthOf: int -> Month)
    requires StocksUntimed(db.stocks)
    ensures forall m :: 0 <= m < 12 ==> Chart(db.requests, db.stocks, yearStart, monthOf)[m].purchase == 0
  {
    assert forall j :: 0 <= j < |db.stocks| ==> PurchaseTime(yearStart, db.stocks[j]).None?;
    forall m: Month
      ensures SumOf(db.stocks, PurchaseIn(yearStart, monthOf, m)) == 0
    {
      SumOfZero(db.stocks, PurchaseIn(yearStart, monthOf, m));
    }
  }

  // ---- the handler ----

  /** The response of `getDashboardData`. */
  function DashboardOf(db: Db, clock: Clock, monthOf: int -> Month): Dashboard {
    Dashboard(
      Stats(|db.items|,
            Count(db.requests, DispatchedSince(clock.startOfToday)),
            Count(db.requests, IsOrder()),
            Count(db.requests, InStatus(Requested)),
            Count(db.users, JoinedSince(clock.startOfMonth)),
            Revenue(db.requests, db.items)),
      Chart(db.requests, db.stocks, clock.startOfYear, monthOf))
  }

  /** `getDashboardData`: the counts are queries; revenue and the buckets are the handler's loops. */
  method GetDashboardData(db: Database, clock: Clock, monthOf: int -> Month) returns (r: Dashboard)
    ensures r == DashboardOf(db.Snapshot(), clock, monthOf)
  {
    var revenue := ComputeRevenue(db.requests, db.items);
    var chart := MonthlyChart(db.requests, db.stocks, clock.startOfYear, monthOf);
    r := Dashboard(
      Stats(|db.items|,
            Count(db.requests, DispatchedSince(clock.startOfToday)),
            Count(db.requests, IsOrder()),
            Count(db.requests, InStatus(Requested)),
            Count(db.users, JoinedSince(clock.startOfMonth)),
            revenue),
      chart);
  }
}

=== FILE: ledger.dfy ===
/**
 * Items and stock records, and the lookups and sums the controllers run over
 * them. A stock record carries every field the controllers read or write:
 * `item`, `branch` and `quantity` from model/Stock.js, and `ownerId`,
 * `ownerType` and `rate`, which only the dispatch path sets. Records created by
 * the stock-add route leave those three unset.
 */
module Ledger {
  import opened Wrappers
  import opened Mongo
  import opened Seqs
  import opened Text

  /** The `ownerType` strings 'admin' and 'user'. */
  datatype OwnerType = AdminOwner | UserOwner

  /** One element of an item's embedded `stock` list, as the seeding route writes it. */
  datatype BranchEntry = BranchEntry(branch: string, category: string, description: string, quantity: int)

  /** An item document. model/item.js is not a schema, so this is the record the handlers use. */
  datatype Item = Item(
    id: Id,
    name: string,
    description: Option<string>,
    category: Option<string>,
    rate: Option<int>,
    stock: seq<BranchEntry>)

  /** A stock document. The schema has no `timestamps` option, so `createdAt` is unset on every record the handlers create. */
  datatype StockRecord = StockRecord(
    item: Id,
    branch: Option<string>,
    ownerId: Option<Id>,
    ownerType: Option<OwnerType>,
    quantity: int,
    rate: Option<int>,
    createdAt: Option<int>)

  /** `Item.findOne({ name })`: exact string match. */
  function FindItemNamed(items: seq<Item>, name: string): (r: Option<nat>)
    ensures r.Some? ==> r.value < |items| && items[r.value].name == name
    ensures r.Some? ==> forall j :: 0 <= j < r.value ==> items[j].name != name
    ensures r.None? ==> forall j :: 0 <= j < |items| ==> items[j].name != name
  {
    FindFirst(items, (it: Item) => it.name == name)
  }

  /** `Item.findById` and `populate('item')`. */
  function FindItemById(items: seq<Item>, id: Id): (r: Option<nat>)
    ensures r.Some? ==> r.value < |items| && items[r.value].id == id
    ensures r.None? ==> forall j :: 0 <= j < |items| ==> items[j].id != id
  {
    FindFirst(items, (it: Item) => it.id == id)
  }

  /** The dispatch query `Stock.findOne({ item, ownerId, ownerType })`. */
  predicate OwnedBy(r: StockRecord, item: Id, owner: Id, kind: OwnerType) {
    r.item == item && r.ownerId == Some(owner) && r.ownerType == Some(kind)
  }

  function FindOwnedStock(stocks: seq<StockRecord>, item: Id, owner: Id, kind: OwnerType): (r: Option<nat>)
    ensures r.Some? ==> r.value < |stocks| && OwnedBy(stocks[r.value], item, owner, kind)
    ensures r.Some? ==> forall j :: 0 <= j < r.value ==> !OwnedBy(stocks[j], item, owner, kind)
    ensures r.None? ==> forall j :: 0 <= j < |stocks| ==> !OwnedBy(stocks[j], item, owner, kind)
  {
    FindFirst(stocks, (s: StockRecord) => OwnedBy(s, item, owner, kind))
  }

  /** Changing a record without changing whether it matches leaves the dispatch query's answer alone. */
  lemma FindOwnedStockUpdate(stocks: seq<StockRecord>, i: nat, x: StockRecord, item: Id, owner: Id, kind: OwnerType)
    requires i < |stocks| && OwnedBy(x, item, owner, kind) == OwnedBy(stocks[i], item, owner, kind)
    ensures FindOwnedStock(stocks[i := x], item, owner, kind) == FindOwnedStock(stocks, item, owner, kind)
  {
    assert forall j :: 0 <= j < |stocks| ==> (OwnedBy(stocks[i := x][j], item, owner, kind) <==> OwnedBy(stocks[j], item, owner, kind));
  }

  /** The stock-add query `Stock.findOne({ item, branch })`, which ignores the owner. */
  predicate AtBranch(r: StockRecord, item: Id, branch: string) {
    r.item == item && r.branch == Some(branch)
  }

  function FindBranchStock(stocks: seq<StockRecord>, item: Id, branch: string): (r: Option<nat>)
    ensures r.Some? ==> r.value < |stocks| && AtBranch(stocks[r.value], item, branch)
    ensures r.Some? ==> forall j :: 0 <= j < r.value ==> !AtBranch(stocks[j], item, branch)
    ensures r.None? ==> forall j :: 0 <= j < |stocks| ==> !AtBranch(stocks[j], item, branch)
  {
    FindFirst(stocks, (s: StockRecord) => AtBranch(s, item, branch))
  }

  function Quantity(r: StockRecord): int {
    r.quantity
  }

  /** The quantity a record contributes to the total of `item`. */
  function QuantityOfItem(item: Id): StockRecord -> int {
    (r: StockRecord) => if r.item == item then r.quantity else 0
  }

  /** The sum of all stock quantities. */
  function TotalQuantity(stocks: seq<StockRecord>): int {
    SumOf(stocks, Quantity)
  }

  /** The sum of the quantities of the records of one item, over every owner and branch. */
  function ItemQuantity(stocks: seq<StockRecord>, item: Id): int {
    SumOf(stocks, QuantityOfItem(item))
  }

  /** The quantity a record contributes to what one owner holds of one item. */
  function HoldingOf(item: Id, owner: Id, kind: OwnerType): StockRecord -> int {
    (r: StockRecord) => if OwnedBy(r, item, owner, kind) then r.quantity else 0
  }

  /** How much of `item` the `(owner, kind)` pair holds over all its records. */
  function Holding(stocks: seq<StockRecord>, item: Id, owner: Id, kind: OwnerType): int {
    SumOf(stocks, HoldingOf(item, owner, kind))
  }

  predicate NonNegative(stocks: seq<StockRecord>) {
    forall j :: 0 <= j < |stocks| ==> stocks[j].quantity >= 0
  }

  /** Setting one record's quantity moves the totals by exactly the difference. */
  lemma QuantityUpdate(stocks: seq<StockRecord>, i: nat, q: int)
    requires i < |stocks|
    ensures TotalQuantity(stocks[i := stocks[i].(quantity := q)]) == TotalQuantity(stocks) - stocks[i].quantity + q
    ensures forall id ::
              ItemQuantity(stocks[i := stocks[i].(quantity := q)], id) ==
              ItemQuantity(stocks, id) + (if id == stocks[i].item then q - stocks[i].quantity else 0)
  {
    var x := stocks[i].(quantity := q);
    SumOfUpdate(stocks, i, x, Quantity);
    forall id
      ensures ItemQuantity(stocks[i := x], id) ==
        ItemQuantity(stocks, id) + (if id == stocks[i].item then q - stocks[i].quantity else 0)
    {
      SumOfUpdate(stocks, i, x, QuantityOfItem(id));
    }
  }

  /** Appending a record adds its quantity to the totals. */
  lemma QuantityAppend(stocks: seq<StockRecord>, x: StockRecord)
    ensures TotalQuantity(stocks + [x]) == TotalQuantity(stocks) + x.quantity
    ensures forall id ::
              ItemQuantity(stocks + [x], id) == ItemQuantity(stocks, id) + (if id == x.item then x.quantity else 0)
  {
    SumOfAppend(stocks, x, Quantity);
    forall id
      ensures ItemQuantity(stocks + [x], id) == ItemQuantity(stocks, id) + (if id == x.item then x.quantity else 0)
    {
      SumOfAppend(stocks, x, QuantityOfItem(id));
    }
  }

  /** An item without records has total zero. */
  lemma {:induction false} ItemQuantityOfAbsent(stocks: seq<StockRecord>, item: Id)
    requires forall j :: 0 <= j < |stocks| ==> stocks[j].item != item
    ensures ItemQuantity(stocks, item) == 0
  {
    SumOfZero(stocks, QuantityOfItem(item));
  }
}

=== FILE: middleware.dfy ===
/**
 * The two route guards: `checkRole` of middleware/role.js and the bearer-token
 * `auth` of middleware/auth.js. Token verification is a parameter; the guards
 * act on an exchange object that records the response status, the user put on
 * the request and how often the next handler was called.
 */
module Middleware {
  import opened Wrappers
  import opened Mongo
  import opened Text
  import opened Users

  // ---- checkRole ----

  /** The argument of `checkRole`: one role string or a list; None is the default `[]`. */
  datatype RoleSpec = OneRole(role: string) | RoleList(roles: seq<string>)

  /** `typeof roles === 'string'` wraps a single role into a one-element list. */
  function AllowedRoles(spec: Option<RoleSpec>): seq<string> {
    match spec
    case None => []
    case Some(OneRole(r)) => [r]
    case Some(RoleList(rs)) => rs
  }

  /** The guard's decision: pass on to the next handler or answer 403. */
  function RoleAdmits(spec: Option<RoleSpec>, role: string): (ok: bool)
    ensures ok <==> exists k :: 0 <= k < |AllowedRoles(spec)| && AllowedRoles(spec)[k] == role
  {
    role in AllowedRoles(spec)
  }

  /** A single role admits exactly that role, as the one-element list does; the default list admits nobody. */
  lemma {:induction false} RoleAdmitsCases(r: string, role: string)
    ensures RoleAdmits(Some(OneRole(r)), role) <==> role == r
    ensures RoleAdmits(Some(OneRole(r)), role) == RoleAdmits(Some(RoleList([r])), role)
    ensures !RoleAdmits(None, role)
    ensures !RoleAdmits(Some(RoleList([])), role)
  {
    assert AllowedRoles(Some(OneRole(r))) == [r];
  }

  // ---- auth ----

  /** The claims the middleware reads from a verified token. */
  datatype Claims = Claims(email: Option<string>)

  /** The guard's decision: a 401 with its message, or the user to put on the request. */
  datatype AuthOutcome = Deny(status: nat, message: string) | Admit(user: PublicUser)

  const Bearer: string := "Bearer "

  /** `"Bearer " + rest` splits at its first space into "Bearer" and the segments of `rest`. */
  lemma BearerSplit(header: string)
    requires StartsWith(header, Bearer)
    ensures Split(header, ' ') == ["Bearer"] + Split(header[|Bearer|..], ' ')
  {
    assert header == "Bearer" + [' '] + header[|Bearer|..];
    SplitAfterSeparator("Bearer", ' ', header[|Bearer|..]);
  }

  /**
   * `authHeader.split(' ')[1]`: the text after "Bearer " up to the next space
   * or the end; it is empty when another space follows at once.
   */
  function TokenOf(header: string): (t: string)
    requires StartsWith(header, Bearer)
    ensures ' ' !in t
    ensures |Bearer| + |t| <= |header| && header[|Bearer|..|Bearer| + |t|] == t
    ensures |Bearer| + |t| == |header| || header[|Bearer| + |t|] == ' '
  {
    BearerSplit(header);
    var rest := header[|Bearer|..];
    var t := Split(rest, ' ')[0];
    TokenIsFirstSegment(rest);
    t
  }

  /** The first segment of a string is the prefix before its first space. */
  lemma TokenIsFirstSegment(rest: string)
    ensures var t := Split(rest, ' ')[0];
      |t| <= |rest| && rest[..|t|] == t && (|t| == |rest| || rest[|t|] == ' ')
  {
    var i := 0;
    while i < |rest| && rest[i] != ' '
      invariant 0 <= i <= |rest|
      invariant ' ' !in rest[..i]
    {
      assert rest[..i + 1] == rest[..i] + [rest[i]];
      i := i + 1;
    }
    SplitFirst(rest, ' ', i);
  }

  /** A header built from a space-free token gives that token back. */
  lemma TokenOfBearer(t: string)
    requires ' ' !in t
    ensures StartsWith(Bearer + t, Bearer)
    ensures TokenOf(Bearer + t) == t
  {
    var header := Bearer + t;
    assert header[..|Bearer|] == Bearer;
    assert header[|Bearer|..] == t;
    SplitNoSeparator(t, ' ');
  }

  /**
   * `auth`: a missing or non-bearer header, a token the verifier rejects, and
   * a token whose e-mail matches no user each give 401; otherwise the user,
   * without the password, is admitted. A token without an e-mail claim
   * matches no user.
   */
  function Authenticate(header: Option<string>, verify: string -> Option<Claims>, users: seq<User>): (r: AuthOutcome)
    ensures r.Deny? ==> r.status == 401
    ensures header.None? || !StartsWith(header.value, Bearer) ==> r == Deny(401, "No token provided")
    ensures r.Admit? <==>
      && header.Some? && StartsWith(header.value, Bearer)
      && verify(TokenOf(header.value)).Some?
      && verify(TokenOf(header.value)).value.email.Some?
      && FindUserByEmail(users, verify(TokenOf(header.value)).value.email.value).Some?
    ensures r.Admit? ==>
      exists k :: 0 <= k < |users| && r.user == View(users[k]) && Some(users[k].email) == verify(TokenOf(header.value)).value.email
  {
    if header.None? || !StartsWith(header.value, Bearer) then Deny(401, "No token provided")
    else
      match verify(TokenOf(header.value))
      case None => Deny(401, "Invalid token")
      case Some(claims) =>
        if claims.email.None? then Deny(401, "User not found")
        else match FindUserByEmail(users, claims.email.value)
          case None => Deny(401, "User not found")
          case Some(k) => Admit(View(users[k]))
  }

  /** In a valid user table an admitted caller is the one user holding the token's e-mail address. */
  lemma AuthenticateUnique(header: Option<string>, verify: string -> Option<Claims>, users: seq<User>, k: nat)
    requires UsersValid(users)
    requires k < |users|
    requires Authenticate(header, verify, users).Admit?
    requires Some(users[k].email) == verify(TokenOf(header.value)).value.email
    ensures Authenticate(header, verify, users).user == View(users[k])
  {
  }

  // ---- the exchange the guards act on ----

  /** What a guard can change: the response status, `req.user`, and the calls to `next`. */
  class Exchange {
    var status: Option<nat>
    var user: Option<PublicUser>
    var nextCalls: nat

    constructor ()
      ensures status.None? && user.None? && nextCalls == 0
    {
      status, user, nextCalls := None, None, 0;
    }

    /** `checkRole(spec)` on this exchange: 403 without `next`, or `next` exactly once. */
    method CheckRole(spec: Option<RoleSpec>)
      requires user.Some?
      modifies this
      ensures user == old(user)
      ensures RoleAdmits(spec, old(user).value.role) ==> status == old(status) && nextCalls == old(nextCalls) + 1
      ensures !RoleAdmits(spec, old(user).value.role) ==> status == Some(403) && nextCalls == old(nextCalls)
    {
      if !(user.value.role in AllowedRoles(spec)) {
        status := Some(403);
        return;
      }
      nextCalls := nextCalls + 1;
    }

    /** `auth` on this exchange: 401 without `next`, or `req.user` set and `next` exactly once. */
    method Auth(header: Option<string>, verify: string -> Option<Claims>, users: seq<User>)
      modifies this
      ensures var r := Authenticate(header, verify, users);
        && (r.Deny? ==> status == Some(401) && user == old(user) && nextCalls == old(nextCalls))
        && (r.Admit? ==> status == old(status) && user == Some(r.user) && nextCalls == old(nextCalls) + 1)
    {
      if header.None? || !StartsWith(header.value, Bearer) {
        status := Some(401);
        return;
      }
      var token := TokenOf(header.value);
      var decoded := verify(token);
      if decoded.None? || decoded.value.email.None? {
        status := Some(401);
        return;
      }
      var found := FindUserByEmail(users, decoded.value.email.value);
      if found.None? {
        status := Some(401);
        return;
      }
      user := Some(View(users[found.value]));
      nextCalls := nextCalls + 1;
    }
  }
}

=== FILE: request_controller.dfy ===
/**
 * The request handlers as they run: each updates the database object field by
 * field, in the order of controllers/requestController.js, and is proved to
 * leave exactly the state its transition function describes, keeping the
 * database invariant.
 */
module RequestController {
  import opened Wrappers
  import opened Mongo
  import opened Ledger
  import opened Requests
  import opened Users
  import opened Store
  import opened RequestRules
  import opened RequestLaws

  /** `createRequest`; `newId` and `now` stand for the id Mongo assigns and the clock. */
  method CreateRequestHandler(db: Database, actorId: Id, form: RequestForm, newId: Id, now: int)
    returns (res: Result<Request, RequestError>)
    requires db.Valid()
    requires forall j :: 0 <= j < |db.requests| ==> db.requests[j].id != newId
    modifies db
    ensures (res, db.Snapshot()) == CreateRequest(old(db.Snapshot()), actorId, form, newId, now)
    ensures db.Valid()
  {
    CreateRequestKeepsValid(db.Snapshot(), actorId, form, newId, now);
    if !AcceptableInput(form) {
      return Err(InvalidInput);
    }
    var u := FindUser(db.users, actorId);
    if u.None? {
      return Err(UserNotFound);
    }
    var user := db.users[u.value];
    var priority := ResolvePriority(form.priority);
    if priority.None? || !Present(form.decOfItem) {
      // the schema validators reject the document on save
      return Err(ServerError);
    }
    var r := Request(newId, user.id, None, form.itemName.value, form.decOfItem.value,
                     form.quantity.value, form.requiredDate, priority.value, user.location,
                     Requested, None, Timestamps(now, None, None), None, now);
    db.requests := db.requests + [r];
    res := Ok(r);
  }

  /** `approveRequest`; `year` is `new Date().getFullYear()`. */
  method ApproveHandler(db: Database, actor: PublicUser, id: Id, now: int, year: nat)
    returns (res: Result<Request, RequestError>)
    requires db.Valid()
    modifies db
    ensures (res, db.Snapshot()) == Approve(old(db.Snapshot()), actor, id, now, year)
    ensures db.Valid()
  {
    ApproveKeepsValid(db.Snapshot(), actor, id, now, year);
    if actor.role != "admin" {
      return Err(OnlyAdmin);
    }
    var found := FindRequest(db.requests, id);
    if found.None? {
      return Err(RequestNotFound);
    }
    var i := found.value;
    var request := db.requests[i];
    if request.status != Requested {
      return Err(AlreadyProcessed);
    }
    request := request.(status := Approved);
    request := request.(timestamps := request.timestamps.(approved := Some(now)));
    request := request.(token := Some(TokenFor(year, request.id)));
    if TokenTaken(db.requests, i, request.token.value) {
      // the unique index on `token` rejects the save
      return Err(ServerError);
    }
    db.requests := db.requests[i := request];
    res := Ok(request);
  }

  /** `rejectRequest`. */
  method RejectHandler(db: Database, actor: PublicUser, id: Id, reason: Option<string>)
    returns (res: Result<Request, RequestError>)
    requires db.Valid()
    modifies db
    ensures (res, db.Snapshot()) == Reject(old(db.Snapshot()), actor, id, reason)
    ensures db.Valid()
  {
    RejectKeepsValid(db.Snapshot(), actor, id, reason);
    if actor.role != "admin" {
      return Err(OnlyAdmin);
    }
    var found := FindRequest(db.requests, id);
    if found.None? {
      return Err(RequestNotFound);
    }
    var i := found.value;
    var request := db.requests[i];
    if request.status != Requested {
      return Err(AlreadyProcessed);
    }
    request := request.(status := Rejected);
    request := request.(rejectionReason := Some(if Present(reason) then reason.value else "No reason provided"));
    db.requests := db.requests[i := request];
    res := Ok(request);
  }

  /**
   * `dispatchRequest`, with the requester's existence checked before the admin
   * record is debited; the rest follows the source's steps.
   */
  method DispatchHandler(db: Database, actor: PublicUser, id: Id, now: int)
    returns (res: Result<DispatchReceipt, RequestError>)
    requires db.Valid()
    modifies db
    ensures (res, db.Snapshot()) == Dispatch(old(db.Snapshot()), actor, id, now)
    ensures db.Valid()
  {
    DispatchKeepsValid(db.Snapshot(), actor, id, now);
    var plan := PlanDispatch(db.Snapshot(), actor, id);
    if plan.Err? {
      return Err(plan.error);
    }
    var p := plan.value;
    if FindUser(db.users, db.requests[p.request].user).None? {
      return Err(ServerError);
    }
    DispatchByPlan(db.Snapshot(), actor, id, now);
    var receipt := TransferStock(db, p, now);
    res := Ok(receipt);
  }

  /** The transfer once every check has passed: debit the admin record, credit or create the requester's, mark dispatched. */
  method TransferStock(db: Database, p: DispatchPlan, now: int) returns (receipt: DispatchReceipt)
    requires PlanFits(db.Snapshot(), p) && db.stocks[p.adminStock].ownerType == Some(AdminOwner)
    modifies db
    ensures (receipt, db.Snapshot()) == CompleteDispatch(old(db.Snapshot()), p, now)
  {
    ghost var before := db.Snapshot();
    CompleteDispatchStocks(before, p, now);
    var request := db.requests[p.request];
    var q := request.quantity;
    var adminStock := db.stocks[p.adminStock];
    adminStock := adminStock.(quantity := adminStock.quantity - q);
    db.stocks := db.stocks[p.adminStock := adminStock];
    assert db.stocks == Debited(before, p);
    var userIndex := FindOwnedStock(db.stocks, p.item, request.user, UserOwner);
    var userTotal;
    if userIndex.Some? {
      var userStock := db.stocks[userIndex.value];
      userStock := userStock.(quantity := userStock.quantity + q);
      db.stocks := db.stocks[userIndex.value := userStock];
      userTotal := userStock.quantity;
    } else {
      var userStock := NewUserStock(adminStock, p.item, request.user, q);
      db.stocks := db.stocks + [userStock];
      userTotal := userStock.quantity;
    }
    request := MarkDispatched(request, now);
    db.requests := db.requests[p.request := request];
    receipt := DispatchReceipt(adminStock.quantity, userTotal, request);
  }
}

=== FILE: request_laws.dfy ===
/**
 * What the request handlers guarantee across calls: decisions are final,
 * dispatch moves stock without creating or destroying any, balances stay
 * non-negative, the database invariant is kept, and the two ways the
 * as-written dispatch differs from the corrected one.
 */
module RequestLaws {
  import opened Wrappers
  import opened Mongo
  import opened Seqs
  import opened Text
  import opened Ledger
  import opened Requests
  import opened Users
  import opened Store
  import opened RequestRules

  /** After a successful approval, approving or rejecting the same request again fails and changes nothing. */
  lemma ApproveIsFinal(db: Db, actor: PublicUser, id: Id, now: int, year: nat,
                       other: PublicUser, later: int, laterYear: nat, reason: Option<string>)
    requires Approve(db, actor, id, now, year).0.Ok?
    ensures var after := Approve(db, actor, id, now, year).1;
      && Approve(after, other, id, later, laterYear) ==
           (Err(if other.role == "admin" then AlreadyProcessed else OnlyAdmin), after)
      && Reject(after, other, id, reason) ==
           (Err(if other.role == "admin" then AlreadyProcessed else OnlyAdmin), after)
  {
    var i := FindRequest(db.requests, id).value;
    var approved := Approve(db, actor, id, now, year).0.value;
    FindRequestUpdate(db.requests, i, approved, id);
  }

  /** After a successful rejection, approving or rejecting the same request again fails and changes nothing. */
  lemma RejectIsFinal(db: Db, actor: PublicUser, id: Id, reason: Option<string>,
                      other: PublicUser, later: int, laterYear: nat, laterReason: Option<string>)
    requires Reject(db, actor, id, reason).0.Ok?
    ensures var after := Reject(db, actor, id, reason).1;
      && Approve(after, other, id, later, laterYear) ==
           (Err(if other.role == "admin" then AlreadyProcessed else OnlyAdmin), after)
      && Reject(after, other, id, laterReason) ==
           (Err(if other.role == "admin" then AlreadyProcessed else OnlyAdmin), after)
  {
    var i := FindRequest(db.requests, id).value;
    var rejected := Reject(db, actor, id, reason).0.value;
    FindRequestUpdate(db.requests, i, rejected, id);
  }

  /**
   * When approval fails on the unique token index, the clash is with a
   * request approved in the same year whose id ends in the same five
   * characters, compared without case.
   */
  lemma TokenClashSharesSuffix(db: Db, actor: PublicUser, id: Id, now: int, year: nat)
    requires TokensWellFormed(db.requests)
    requires Approve(db, actor, id, now, year).0 == Err(ServerError)
    ensures exists j ::
              && 0 <= j < |db.requests| && j != FindRequest(db.requests, id).value
              && db.requests[j].token == Some(TokenFor(year, db.requests[j].id))
              && ToUpper(Last(db.requests[j].id, 5)) == ToUpper(Last(id, 5))
  {
    var i := FindRequest(db.requests, id).value;
    var j :| 0 <= j < |db.requests| && j != i && db.requests[j].token == Some(TokenFor(year, id));
    var y: nat :| db.requests[j].token.value == TokenFor(y, db.requests[j].id);
    TokenDeterminesYearAndSuffix(y, db.requests[j].id, year, id);
  }

  /** A successful dispatch is the completion of its plan. */
  lemma DispatchIsComplete(db: Db, actor: PublicUser, id: Id, now: int)
    requires Dispatch(db, actor, id, now).0.Ok?
    ensures PlanDispatch(db, actor, id).Ok?
    ensures var p := PlanDispatch(db, actor, id).value;
      && PlanFits(db, p)
      && db.stocks[p.adminStock].ownerType == Some(AdminOwner)
      && p.item == db.stocks[p.adminStock].item
      && RequesterExists(db, p)
      && Dispatch(db, actor, id, now) == (Ok(CompleteDispatch(db, p, now).0), CompleteDispatch(db, p, now).1)
  {
  }

  /** When every check passes and the requester exists, dispatch is the completion of the plan. */
  lemma DispatchByPlan(db: Db, actor: PublicUser, id: Id, now: int)
    requires PlanDispatch(db, actor, id).Ok? && RequesterExists(db, PlanDispatch(db, actor, id).value)
    ensures var p := PlanDispatch(db, actor, id).value;
      Dispatch(db, actor, id, now) == (Ok(CompleteDispatch(db, p, now).0), CompleteDispatch(db, p, now).1)
  {
  }

  /** The stock list a completed dispatch leaves: the debited list with the requester credited or appended. */
  lemma CompleteDispatchStocks(db: Db, p: DispatchPlan, now: int)
    requires PlanFits(db, p) && db.stocks[p.adminStock].ownerType == Some(AdminOwner)
    ensures
      var r := db.requests[p.request];
      var debited := Debited(db, p);
      var u := FindOwnedStock(debited, p.item, r.user, UserOwner);
      CompleteDispatch(db, p, now).1.stocks ==
        if u.Some? then debited[u.value := debited[u.value].(quantity := debited[u.value].quantity + r.quantity)]
        else debited + [NewUserStock(db.stocks[p.adminStock], p.item, r.user, r.quantity)]
  {
  }

  /** Completing a dispatch leaves the total quantity, and the total of every item, as it was. */
  lemma CompleteDispatchConserves(db: Db, p: DispatchPlan, now: int)
    requires PlanFits(db, p) && db.stocks[p.adminStock].ownerType == Some(AdminOwner)
    requires p.item == db.stocks[p.adminStock].item
    ensures TotalQuantity(CompleteDispatch(db, p, now).1.stocks) == TotalQuantity(db.stocks)
    ensures forall item :: ItemQuantity(CompleteDispatch(db, p, now).1.stocks, item) == ItemQuantity(db.stocks, item)
  {
    var r := db.requests[p.request];
    var q := r.quantity;
    var a := p.adminStock;
    var debited := Debited(db, p);
    QuantityUpdate(db.stocks, a, db.stocks[a].quantity - q);
    CompleteDispatchStocks(db, p, now);
    match FindOwnedStock(debited, p.item, r.user, UserOwner)
    case Some(u) =>
      QuantityUpdate(debited, u, debited[u].quantity + q);
    case None =>
      QuantityAppend(debited, NewUserStock(db.stocks[a], p.item, r.user, q));
  }

  /** A successful dispatch leaves the total quantity, and the total of every item, as it was. */
  lemma DispatchConservesStock(db: Db, actor: PublicUser, id: Id, now: int)
    requires Dispatch(db, actor, id, now).0.Ok?
    ensures var after := Dispatch(db, actor, id, now).1;
      && TotalQuantity(after.stocks) == TotalQuantity(db.stocks)
      && forall item :: ItemQuantity(after.stocks, item) == ItemQuantity(db.stocks, item)
  {
    DispatchIsComplete(db, actor, id, now);
    CompleteDispatchConserves(db, PlanDispatch(db, actor, id).value, now);
  }

  /** Setting one record's quantity moves one holding by the difference and leaves every other holding alone. */
  lemma HoldingUpdate(stocks: seq<StockRecord>, i: nat, q: int)
    requires i < |stocks|
    ensures forall item, owner, kind ::
              Holding(stocks[i := stocks[i].(quantity := q)], item, owner, kind) ==
              Holding(stocks, item, owner, kind) + (if OwnedBy(stocks[i], item, owner, kind) then q - stocks[i].quantity else 0)
  {
    var x := stocks[i].(quantity := q);
    forall item, owner, kind
      ensures Holding(stocks[i := x], item, owner, kind) ==
        Holding(stocks, item, owner, kind) + (if OwnedBy(stocks[i], item, owner, kind) then q - stocks[i].quantity else 0)
    {
      SumOfUpdate(stocks, i, x, HoldingOf(item, owner, kind));
    }
  }

  /** Appending a record adds its quantity to its own owner's holding only. */
  lemma HoldingAppend(stocks: seq<StockRecord>, x: StockRecord)
    ensures forall item, owner, kind ::
              Holding(stocks + [x], item, owner, kind) ==
              Holding(stocks, item, owner, kind) + (if OwnedBy(x, item, owner, kind) then x.quantity else 0)
  {
    forall item, owner, kind
      ensures Holding(stocks + [x], item, owner, kind) ==
        Holding(stocks, item, owner, kind) + (if OwnedBy(x, item, owner, kind) then x.quantity else 0)
    {
      SumOfAppend(stocks, x, HoldingOf(item, owner, kind));
    }
  }

  /** Completing a dispatch moves the request's quantity from the admin record's owner to the requester. */
  lemma CompleteDispatchTransfers(db: Db, p: DispatchPlan, now: int, admin: Id)
    requires PlanFits(db, p) && OwnedBy(db.stocks[p.adminStock], p.item, admin, AdminOwner)
    ensures
      var r := db.requests[p.request];
      forall item, owner, kind ::
        Holding(CompleteDispatch(db, p, now).1.stocks, item, owner, kind) ==
        Holding(db.stocks, item, owner, kind)
          - (if item == p.item && owner == admin && kind == AdminOwner then r.quantity else 0)
          + (if item == p.item && owner == r.user && kind == UserOwner then r.quantity else 0)
  {
    var r := db.requests[p.request];
    var q := r.quantity;
    var a := p.adminStock;
    var debited := Debited(db, p);
    var after := CompleteDispatch(db, p, now).1.stocks;
    HoldingUpdate(db.stocks, a, db.stocks[a].quantity - q);
    CompleteDispatchStocks(db, p, now);
    var u := FindOwnedStock(debited, p.item, r.user, UserOwner);
    if u.Some? {
      HoldingUpdate(debited, u.value, debited[u.value].quantity + q);
    } else {
      HoldingAppend(debited, NewUserStock(db.stocks[a], p.item, r.user, q));
    }
    forall item, owner, kind
      ensures Holding(after, item, owner, kind) ==
        Holding(db.stocks, item, owner, kind)
          - (if item == p.item && owner == admin && kind == AdminOwner then q else 0)
          + (if item == p.item && owner == r.user && kind == UserOwner then q else 0)
    {
      assert OwnedBy(db.stocks[a], item, owner, kind) <==> item == p.item && owner == admin && kind == AdminOwner;
      if u.Some? {
        assert OwnedBy(debited[u.value], item, owner, kind) <==> item == p.item && owner == r.user && kind == UserOwner;
      } else {
        assert OwnedBy(NewUserStock(db.stocks[a], p.item, r.user, q), item, owner, kind) <==> item == p.item && owner == r.user && kind == UserOwner;
      }
    }
  }

  /**
   * A successful dispatch of a request for `q` units moves exactly `q` of
   * the item from the dispatching admin to the requester; what any other
   * owner holds of any item is unchanged.
   */
  lemma DispatchTransfersQuantity(db: Db, actor: PublicUser, id: Id, now: int)
    requires Dispatch(db, actor, id, now).0.Ok?
    ensures
      var p := PlanDispatch(db, actor, id).value;
      var r := db.requests[p.request];
      var after := Dispatch(db, actor, id, now).1;
      forall item, owner, kind ::
        Holding(after.stocks, item, owner, kind) ==
        Holding(db.stocks, item, owner, kind)
          - (if item == p.item && owner == actor.id && kind == AdminOwner then r.quantity else 0)
          + (if item == p.item && owner == r.user && kind == UserOwner then r.quantity else 0)
  {
    DispatchIsComplete(db, actor, id, now);
    CompleteDispatchTransfers(db, PlanDispatch(db, actor, id).value, now, actor.id);
  }

  /** Completing a dispatch keeps every record non-negative when the admin record covers the request. */
  lemma CompleteDispatchNonNegative(db: Db, p: DispatchPlan, now: int)
    requires PlanFits(db, p) && db.stocks[p.adminStock].ownerType == Some(AdminOwner)
    requires NonNegative(db.stocks) && db.requests[p.request].quantity >= 1
    requires db.stocks[p.adminStock].quantity >= db.requests[p.request].quantity
    ensures NonNegative(CompleteDispatch(db, p, now).1.stocks)
    ensures CompleteDispatch(db, p, now).0.adminRemainingStock >= 0
    ensures CompleteDispatch(db, p, now).0.userTotalStock >= 1
  {
  }

  /** Dispatch never drives a record negative: the sufficiency check guards the debit and the credit is positive. */
  lemma DispatchKeepsNonNegative(db: Db, actor: PublicUser, id: Id, now: int)
    requires NonNegative(db.stocks) && RequestsValid(db.requests)
    requires Dispatch(db, actor, id, now).0.Ok?
    ensures NonNegative(Dispatch(db, actor, id, now).1.stocks)
    ensures Dispatch(db, actor, id, now).0.value.adminRemainingStock >= 0
    ensures Dispatch(db, actor, id, now).0.value.userTotalStock >= 1
  {
    DispatchIsComplete(db, actor, id, now);
    var p := PlanDispatch(db, actor, id).value;
    assert SchemaValid(db.requests[p.request]);
    CompleteDispatchNonNegative(db, p, now);
  }

  /** A successful dispatch adds exactly one to the dispatched count. */
  lemma DispatchCountRises(db: Db, actor: PublicUser, id: Id, now: int)
    requires Dispatch(db, actor, id, now).0.Ok?
    ensures Count(Dispatch(db, actor, id, now).1.requests, IsDispatched) == Count(db.requests, IsDispatched) + 1
  {
    DispatchIsComplete(db, actor, id, now);
    var p := PlanDispatch(db, actor, id).value;
    var done := CompleteDispatch(db, p, now).0.request;
    CountUpdate(db.requests, p.request, done, IsDispatched);
  }

  /**
   * An item whose stored name is not already trimmed and lower-cased (as
   * the stock-add route can create) is never the item of a dispatch.
   */
  lemma UnnormalizedItemNeverDispatched(db: Db, actor: PublicUser, id: Id, k: nat)
    requires ItemsValid(db.items)
    requires k < |db.items| && !IsNormalized(db.items[k].name)
    ensures PlanDispatch(db, actor, id).Ok? ==> PlanDispatch(db, actor, id).value.item != db.items[k].id
  {
    if PlanDispatch(db, actor, id).Ok? {
      var p := PlanDispatch(db, actor, id).value;
      var k' :| 0 <= k' < |db.items| && db.items[k'].id == p.item
               && db.items[k'].name == Normalize(db.requests[p.request].itemName);
      NormalizeIsNormalized(db.requests[p.request].itemName);
    }
  }

  /** Creating a request with a fresh id keeps the database invariant. */
  lemma CreateRequestKeepsValid(db: Db, actorId: Id, form: RequestForm, newId: Id, now: int)
    requires ValidDb(db)
    requires forall j :: 0 <= j < |db.requests| ==> db.requests[j].id != newId
    ensures ValidDb(CreateRequest(db, actorId, form, newId, now).1)
  {
    var (res, after) := CreateRequest(db, actorId, form, newId, now);
    if res.Ok? {
      AppendKeepsRequestsValid(db.requests, res.value);
    }
  }

  /** A fresh, token-less request that meets the schema and the lifecycle can join a valid list. */
  lemma AppendKeepsRequestsValid(rs: seq<Request>, r: Request)
    requires RequestsValid(rs)
    requires forall j :: 0 <= j < |rs| ==> rs[j].id != r.id
    requires r.token.None? && r.item.None? && SchemaValid(r) && LifecycleConsistent(r)
    ensures RequestsValid(rs + [r])
  {
    var rs' := rs + [r];
    assert forall k :: 0 <= k < |rs| ==> rs'[k] == rs[k];
    assert IdsUnique(rs');
    assert TokensUnique(rs');
    assert TokensWellFormed(rs');
  }

  /** Approval keeps the database invariant. */
  lemma ApproveKeepsValid(db: Db, actor: PublicUser, id: Id, now: int, year: nat)
    requires ValidDb(db)
    ensures ValidDb(Approve(db, actor, id, now, year).1)
  {
    var (res, after) := Approve(db, actor, id, now, year);
    if res.Ok? {
      var i := FindRequest(db.requests, id).value;
      var rs := after.requests;
      assert rs == db.requests[i := res.value];
      assert rs[i].token.value == TokenFor(year, rs[i].id);
      assert TokensWellFormed(rs);
    }
  }

  /** Rejection keeps the database invariant. */
  lemma RejectKeepsValid(db: Db, actor: PublicUser, id: Id, reason: Option<string>)
    requires ValidDb(db)
    ensures ValidDb(Reject(db, actor, id, reason).1)
  {
  }

  /** Completing a dispatch keeps the database invariant: the request moves from approved to dispatched and any new record names the plan's item. */
  lemma CompleteDispatchKeepsValid(db: Db, p: DispatchPlan, now: int)
    requires ValidDb(db) && PlanFits(db, p) && db.stocks[p.adminStock].ownerType == Some(AdminOwner)
    requires p.item == db.stocks[p.adminStock].item
    requires db.requests[p.request].status == Approved
    ensures ValidDb(CompleteDispatch(db, p, now).1)
  {
    var after := CompleteDispatch(db, p, now).1;
    CompleteDispatchKeepsStocksValid(db, p, now);
    CompleteDispatchKeepsRequestsValid(db, p, now);
    assert after.users == db.users && after.items == db.items;
  }

  /** A completed dispatch's records all name existing items and carry no creation time. */
  lemma CompleteDispatchKeepsStocksValid(db: Db, p: DispatchPlan, now: int)
    requires PlanFits(db, p) && db.stocks[p.adminStock].ownerType == Some(AdminOwner)
    requires p.item == db.stocks[p.adminStock].item
    requires StocksReferToItems(db.stocks, db.items) && StocksUntimed(db.stocks)
    ensures var after := CompleteDispatch(db, p, now).1;
      StocksReferToItems(after.stocks, after.items) && StocksUntimed(after.stocks)
  {
    var after := CompleteDispatch(db, p, now).1;
    var r := db.requests[p.request];
    var debited := Debited(db, p);
    CompleteDispatchStocks(db, p, now);
    assert forall k :: 0 <= k < |debited| ==> debited[k].item == db.stocks[k].item && debited[k].createdAt == db.stocks[k].createdAt;
    forall k | 0 <= k < |after.stocks|
      ensures after.stocks[k].createdAt.None?
      ensures exists j :: 0 <= j < |db.items| && db.items[j].id == after.stocks[k].item
    {
      if k < |db.stocks| {
        assert after.stocks[k].item == db.stocks[k].item && after.stocks[k].createdAt == db.stocks[k].createdAt;
      } else {
        assert after.stocks[k] == NewUserStock(db.stocks[p.adminStock], p.item, r.user, r.quantity);
      }
    }
  }

  /** A completed dispatch keeps the request invariant. */
  lemma CompleteDispatchKeepsRequestsValid(db: Db, p: DispatchPlan, now: int)
    requires PlanFits(db, p) && db.stocks[p.adminStock].ownerType == Some(AdminOwner)
    requires RequestsValid(db.requests)
    requires db.requests[p.request].status == Approved
    ensures RequestsValid(CompleteDispatch(db, p, now).1.requests)
  {
    var after := CompleteDispatch(db, p, now).1;
    var done := CompleteDispatch(db, p, now).0.request;
    assert after.requests == db.requests[p.request := done];
  }

  /** Dispatch keeps the database invariant. */
  lemma DispatchKeepsValid(db: Db, actor: PublicUser, id: Id, now: int)
    requires ValidDb(db)
    ensures ValidDb(Dispatch(db, actor, id, now).1)
  {
    if Dispatch(db, actor, id, now).0.Ok? {
      DispatchIsComplete(db, actor, id, now);
      CompleteDispatchKeepsValid(db, PlanDispatch(db, actor, id).value, now);
    }
  }

  /**
   * The as-written dispatch, on a request whose requester no longer exists,
   * answers 500 yet stores the admin debit: the stock total drops by the
   * request's quantity and no one is credited.
   */
  lemma DeletedRequesterLosesStock(db: Db, actor: PublicUser, id: Id, now: int)
    requires RequestsValid(db.requests)
    requires PlanDispatch(db, actor, id).Ok? && !RequesterExists(db, PlanDispatch(db, actor, id).value)
    ensures var (res, after) := DispatchAsWritten(db, actor, id, now);
      && res == Err(ServerError)
      && TotalQuantity(after.stocks) == TotalQuantity(db.stocks) - db.requests[PlanDispatch(db, actor, id).value.request].quantity
      && TotalQuantity(after.stocks) < TotalQuantity(db.stocks)
  {
    var p := PlanDispatch(db, actor, id).value;
    assert DispatchAsWritten(db, actor, id, now) == (Err(ServerError), db.(stocks := Debited(db, p)));
    assert SchemaValid(db.requests[p.request]);
    QuantityUpdate(db.stocks, p.adminStock, db.stocks[p.adminStock].quantity - db.requests[p.request].quantity);
  }

  /** A database in which the requester of an approved request has been deleted. */
  function DeletedRequesterDb(): Db {
    var admin := User("a1", "Admin", "a@hq", "1", "HQ", "HQ", "h", "admin", true, 0);
    var bolt := Item("i1", "bolt", None, None, None, []);
    var stock := StockRecord("i1", Some("HQ"), Some("a1"), Some(AdminOwner), 10, None, None);
    var request := Request("r1", "u1", None, "Bolt ", "M8", 3, None, Medium, "Site", Approved,
                           Some(TokenFor(2025, "r1")), Timestamps(0, Some(1), None), None, 0);
    Db([admin], [bolt], [stock], [request])
  }

  function DeletedRequesterAdmin(): PublicUser {
    View(DeletedRequesterDb().users[0])
  }

  /** The example database meets the invariant, so the case is reachable from a valid state. */
  lemma DeletedRequesterDbValid()
    ensures ValidDb(DeletedRequesterDb())
  {
    var db := DeletedRequesterDb();
    DeletedRequesterUsersValid();
    DeletedRequesterRequestsValid();
    assert db.items[0].id == db.stocks[0].item;
    assert StocksReferToItems(db.stocks, db.items);
  }

  /** The example's one user meets the user invariant. */
  lemma DeletedRequesterUsersValid()
    ensures UsersValid(DeletedRequesterDb().users)
  {
    assert IsTrimmed("a@hq");
    TrimOfTrimmed("a@hq");
  }

  /** The example's one request meets the request invariant. */
  lemma DeletedRequesterRequestsValid()
    ensures RequestsValid(DeletedRequesterDb().requests)
  {
    var rs := DeletedRequesterDb().requests;
    assert |rs| == 1 && rs[0].token == Some(TokenFor(2025, "r1")) && rs[0].id == "r1";
    assert rs[0].token.value == TokenFor(2025, rs[0].id);
    assert TokensWellFormed(rs);
    assert SchemaValid(rs[0]) && LifecycleConsistent(rs[0]);
  }

  /** The example request's item name normalises to the stored item's name. */
  lemma DeletedRequesterItemName()
    ensures Normalize("Bolt ") == "bolt"
  {
    TrimStartOfTrimmed("Bolt ");
    assert "Bolt "[..4] == "Bolt";
    TrimEndOfTrimmed("Bolt");
  }

  /** The lookups on the example database. */
  lemma DeletedRequesterLookups()
    ensures var db := DeletedRequesterDb();
      && FindRequest(db.requests, "r1") == Some(0)
      && FindUser(db.users, "a1") == Some(0)
      && FindItemNamed(db.items, "bolt") == Some(0)
      && FindOwnedStock(db.stocks, "i1", "a1", AdminOwner) == Some(0)
      && FindUser(db.users, "u1") == None
  {
    var db := DeletedRequesterDb();
    assert FindRequest(db.requests, "r1") == Some(0);
    assert FindUser(db.users, "a1") == Some(0);
    assert FindItemNamed(db.items, "bolt") == Some(0);
    assert FindOwnedStock(db.stocks, "i1", "a1", AdminOwner) == Some(0);
  }

  /** Every check before the debit passes on the example. */
  lemma DeletedRequesterPlan()
    ensures PlanDispatch(DeletedRequesterDb(), DeletedRequesterAdmin(), "r1") == Ok(DispatchPlan(0, "i1", 0))
    ensures !RequesterExists(DeletedRequesterDb(), DispatchPlan(0, "i1", 0))
  {
    var db := DeletedRequesterDb();
    DeletedRequesterItemName();
    DeletedRequesterLookups();
    assert db.requests[0].itemName == "Bolt " && db.requests[0].status == Approved;
  }

  /** The concrete case: ten bolts held, three dispatched to a deleted user, seven left and nothing credited. */
  lemma DeletedRequesterExample()
    ensures var (res, after) := DispatchAsWritten(DeletedRequesterDb(), DeletedRequesterAdmin(), "r1", 2);
      res == Err(ServerError) && TotalQuantity(after.stocks) == 7 && TotalQuantity(DeletedRequesterDb().stocks) == 10
    ensures Dispatch(DeletedRequesterDb(), DeletedRequesterAdmin(), "r1", 2) == (Err(ServerError), DeletedRequesterDb())
  {
    DeletedRequesterDbValid();
    DeletedRequesterPlan();
    DeletedRequesterLosesStock(DeletedRequesterDb(), DeletedRequesterAdmin(), "r1", 2);
  }

  /** The same database with the requester present. */
  function RequesterPresentDb(): Db {
    DeletedRequesterDb().(users := RequesterPresentUsers())
  }

  /** The example's admin followed by the requester. */
  function RequesterPresentUsers(): seq<User> {
    [User("a1", "Admin", "a@hq", "1", "HQ", "HQ", "h", "admin", true, 0),
     User("u1", "Site user", "u@site", "2", "Site", "Site", "h", "user", true, 0)]
  }

  /** The database with the requester present meets the invariant. */
  lemma RequesterPresentDbValid()
    ensures ValidDb(RequesterPresentDb())
  {
    var db := RequesterPresentDb();
    RequesterPresentUsersValid();
    DeletedRequesterRequestsValid();
    assert db.items[0].id == db.stocks[0].item;
    assert StocksReferToItems(db.stocks, db.items);
  }

  /** The example's two users meet the user invariant. */
  lemma RequesterPresentUsersValid()
    ensures UsersValid(RequesterPresentUsers())
  {
    RequesterPresentUsersDistinct();
    RequesterPresentEmails();
  }

  /** The example's two users differ in id and in e-mail address. */
  lemma RequesterPresentUsersDistinct()
    ensures var us := RequesterPresentUsers();
      && (forall i, j :: 0 <= i < |us| && 0 <= j < |us| && i != j ==> us[i].id != us[j].id)
      && (forall i, j :: 0 <= i < |us| && 0 <= j < |us| && i != j ==> us[i].email != us[j].email)
  {
  }

  /** The example's e-mail addresses are stored normalised. */
  lemma RequesterPresentEmails()
    ensures var us := RequesterPresentUsers();
      forall i :: 0 <= i < |us| ==> us[i].email != "" && Normalize(us[i].email) == us[i].email
  {
    var us := RequesterPresentUsers();
    forall i | 0 <= i < |us|
      ensures us[i].email != "" && Normalize(us[i].email) == us[i].email
    {
      if i == 0 {
        assert IsNormalized("a@hq");
        NormalizeFixes("a@hq");
      } else {
        assert us[i].email == "u@site";
        assert IsNormalized("u@site");
        NormalizeFixes("u@site");
      }
    }
  }

  /**
   * The success path is reachable from a valid state: with the requester
   * present the same dispatch succeeds, the admin keeps seven, a new record
   * credits the requester with three and the request is dispatched.
   */
  lemma RequesterPresentExample()
    ensures ValidDb(RequesterPresentDb())
    ensures var (res, after) := Dispatch(RequesterPresentDb(), DeletedRequesterAdmin(), "r1", 2);
      && res.Ok?
      && res.value.adminRemainingStock == 7
      && res.value.userTotalStock == 3
      && after.requests[0].status == Dispatched
      && |after.stocks| == 2
      && after.stocks[1] == StockRecord("i1", Some("HQ"), Some("u1"), Some(UserOwner), 3, None, None)
      && TotalQuantity(after.stocks) == 10
  {
    var db := RequesterPresentDb();
    RequesterPresentDbValid();
    DeletedRequesterItemName();
    DeletedRequesterLookups();
    assert FindUser(db.users, "a1") == Some(0);
    assert FindUser(db.users, "u1") == Some(1);
    assert db.requests[0].itemName == "Bolt " && db.requests[0].status == Approved;
    var p := DispatchPlan(0, "i1", 0);
    assert PlanDispatch(db, DeletedRequesterAdmin(), "r1") == Ok(p);
    assert RequesterExists(db, p);
    assert FindOwnedStock(db.stocks, "i1", "u1", UserOwner) == None;
    DispatchConservesStock(db, DeletedRequesterAdmin(), "r1", 2);
  }
}

=== FILE: request_model.dfy ===
/**
 * The Request document (model/Request.js): its enums, defaults, constraints, and
 * the approval token built from a request's id.
 */
module Requests {
  import opened Wrappers
  import opened Mongo
  import opened Text

  /** The `status` enum. There is no invoice state. */
  datatype Status = Requested | Approved | Rejected | Dispatched

  /** The `priority` enum. */
  datatype Priority = Low | Medium | High

  /** The schema's enum validator applied to a supplied priority string. */
  function ParsePriority(s: string): Option<Priority> {
    if s == "Low" then Some(Low)
    else if s == "Medium" then Some(Medium)
    else if s == "High" then Some(High)
    else None
  }

  /** `priority || 'Medium'` followed by the enum validator that runs on save; None is a validation error. */
  function ResolvePriority(supplied: Option<string>): Option<Priority> {
    if Present(supplied) then ParsePriority(supplied.value) else Some(Medium)
  }

  /** Only the three enum spellings are accepted, and a falsy priority falls back to Medium. */
  lemma ResolvePriorityCases(supplied: Option<string>)
    ensures !Present(supplied) ==> ResolvePriority(supplied) == Some(Medium)
    ensures Present(supplied) && ResolvePriority(supplied) == Some(Low) ==> supplied.value == "Low"
    ensures Present(supplied) && ResolvePriority(supplied) == Some(Medium) ==> supplied.value == "Medium"
    ensures Present(supplied) && ResolvePriority(supplied) == Some(High) ==> supplied.value == "High"
    ensures Present(supplied) ==>
      (ResolvePriority(supplied).Some? <==> supplied.value in ["Low", "Medium", "High"])
  {
  }

  /** `timestamps.requested` (defaulted at creation), `approved` and `dispatched`; times are abstract numbers. */
  datatype Timestamps = Timestamps(requested: int, approved: Option<int>, dispatched: Option<int>)

  /**
   * A saved request. `item` is the reference the summaries populate; no handler
   * in the model ever sets it. `createdAt` comes from the schema's `timestamps` option.
   */
  datatype Request = Request(
    id: Id,
    user: Id,
    item: Option<Id>,
    itemName: string,
    decOfItem: string,
    quantity: int,
    requiredDate: Option<int>,
    priority: Priority,
    deliveryAddress: string,
    status: Status,
    token: Option<string>,
    timestamps: Timestamps,
    rejectionReason: Option<string>,
    createdAt: int)

  /** The schema constraints every saved request meets: required strings are non-empty, `quantity >= 1`. */
  predicate SchemaValid(r: Request) {
    r.itemName != "" && r.decOfItem != "" && r.quantity >= 1
  }

  /**
   * What each status implies about the fields the handlers set: a token and an
   * approval time exactly from approval on, a dispatch time only once dispatched,
   * a rejection reason exactly when rejected.
   */
  predicate LifecycleConsistent(r: Request) {
    match r.status
    case Requested =>
      r.token.None? && r.timestamps.approved.None? && r.timestamps.dispatched.None? && r.rejectionReason.None?
    case Approved =>
      r.token.Some? && r.timestamps.approved.Some? && r.timestamps.dispatched.None? && r.rejectionReason.None?
    case Rejected =>
      r.token.None? && r.timestamps.approved.None? && r.timestamps.dispatched.None? && r.rejectionReason.Some?
    case Dispatched =>
      r.token.Some? && r.timestamps.approved.Some? && r.timestamps.dispatched.Some? && r.rejectionReason.None?
  }

  /** The sparse unique index on `token`: two requests never share a token, and requests without one never clash. */
  predicate TokensUnique(rs: seq<Request>) {
    forall i, j :: 0 <= i < |rs| && 0 <= j < |rs| && i != j && rs[i].token.Some? ==> rs[i].token != rs[j].token
  }

  /** Every stored token is the one approval builds from the request's own id, for some year. */
  ghost predicate TokensWellFormed(rs: seq<Request>) {
    forall j :: 0 <= j < |rs| && rs[j].token.Some? ==> exists y: nat :: rs[j].token.value == TokenFor(y, rs[j].id)
  }

  /** Two versions of one request that agree on everything fixed at creation; the handlers only change the rest. */
  predicate SameSubmission(a: Request, b: Request) {
    && a.id == b.id && a.user == b.user && a.item == b.item
    && a.itemName == b.itemName && a.decOfItem == b.decOfItem && a.quantity == b.quantity
    && a.requiredDate == b.requiredDate && a.priority == b.priority && a.deliveryAddress == b.deliveryAddress
    && a.timestamps.requested == b.timestamps.requested && a.createdAt == b.createdAt
  }

  predicate IdsUnique(rs: seq<Request>) {
    forall i, j :: 0 <= i < |rs| && 0 <= j < |rs| && i != j ==> rs[i].id != rs[j].id
  }

  /** The token set on approval: `REQ-<year>-<last five characters of the id, upper-cased>`. */
  function TokenFor(year: nat, id: Id): string {
    "REQ-" + Decimal(year) + "-" + ToUpper(Last(id, 5))
  }

  /** The exported-but-unused `generateToken`: the whole id, left-padded with '0' to five characters. */
  function LegacyToken(year: nat, id: Id): string {
    "REQ-" + Decimal(year) + "-" + PadStart(id, 5, '0')
  }

  /** A token names its year and its id suffix unambiguously. */
  lemma TokenDeterminesYearAndSuffix(y1: nat, id1: Id, y2: nat, id2: Id)
    requires TokenFor(y1, id1) == TokenFor(y2, id2)
    ensures y1 == y2
    ensures ToUpper(Last(id1, 5)) == ToUpper(Last(id2, 5))
  {
    var d1, d2 := Decimal(y1), Decimal(y2);
    var s1, s2 := ToUpper(Last(id1, 5)), ToUpper(Last(id2, 5));
    var t := TokenFor(y1, id1);
    assert t == "REQ-" + d1 + "-" + s1;
    assert t == "REQ-" + d2 + "-" + s2;
    DashNotEarlier(d1, s1, d2, s2);
    DashNotEarlier(d2, s2, d1, s1);
    assert d1 == t[4..4 + |d1|] == d2;
    DecimalInjective(y1, y2);
    assert s1 == t[5 + |d1|..] == s2;
  }

  /** In two equal `REQ-<digits>-<rest>` strings, neither digit run is shorter than the other. */
  lemma DashNotEarlier(d1: string, s1: string, d2: string, s2: string)
    requires forall i :: 0 <= i < |d2| ==> IsDigit(d2[i])
    requires "REQ-" + d1 + "-" + s1 == "REQ-" + d2 + "-" + s2
    ensures |d1| >= |d2|
  {
    var t := "REQ-" + d1 + "-" + s1;
    var u := "REQ-" + d2 + "-" + s2;
    assert t[4 + |d1|] == '-';
    assert u[4 + |d1|] == '-';
  }

  /** Requests whose ids differ in their last five characters get different tokens within one year. */
  lemma DistinctSuffixesDistinctTokens(year: nat, id1: Id, id2: Id)
    requires ToUpper(Last(id1, 5)) != ToUpper(Last(id2, 5))
    ensures TokenFor(year, id1) != TokenFor(year, id2)
  {
    if TokenFor(year, id1) == TokenFor(year, id2) {
      TokenDeterminesYearAndSuffix(year, id1, year, id2);
    }
  }

  /** For every id longer than five characters (an ObjectId has 24) the unused generator disagrees with the token actually set. */
  lemma LegacyTokenDiffers(year: nat, id: Id)
    requires |id| > 5
    ensures LegacyToken(year, id) != TokenFor(year, id)
    ensures |LegacyToken(year, id)| > |TokenFor(year, id)|
  {
  }
}

=== FILE: request_rules.dfy ===
/**
 * The request handlers of controllers/requestController.js as transition
 * functions on a database value: each returns the handler's outcome and the
 * database it leaves behind. A failed handler returns the database unchanged,
 * except where the source has already saved something before it fails.
 */
module RequestRules {
  import opened Wrappers
  import opened Mongo
  import opened Seqs
  import opened Text
  import opened Ledger
  import opened Requests
  import opened Users
  import opened Store

  /** The handlers' error responses; ServerError is the 500 sent from a handler's `catch`. */
  datatype RequestError =
    | InvalidInput
    | UserNotFound
    | OnlyAdmin
    | RequestNotFound
    | AlreadyProcessed
    | NotApprovedYet
    | AdminUserNotFound
    | ItemNotFound(itemName: string)
    | AdminStockNotFound(itemName: string)
    | InsufficientStock(available: int, required: int)
    | ServerError

  function HttpStatus(e: RequestError): nat {
    match e
    case InvalidInput => 400
    case UserNotFound => 404
    case OnlyAdmin => 403
    case RequestNotFound => 404
    case AlreadyProcessed => 400
    case NotApprovedYet => 400
    case AdminUserNotFound => 404
    case ItemNotFound(_) => 400
    case AdminStockNotFound(_) => 404
    case InsufficientStock(_, _) => 400
    case ServerError => 500
  }

  /** The body of a create-request call; None stands for a field that was not sent. */
  datatype RequestForm = RequestForm(
    itemName: Option<string>,
    quantity: Option<int>,
    requiredDate: Option<int>,
    priority: Option<string>,
    decOfItem: Option<string>)

  /** The handler's own input check: `!itemName || !quantity || quantity <= 0` rejects. */
  predicate AcceptableInput(form: RequestForm) {
    Present(form.itemName) && form.quantity.Some? && form.quantity.value > 0
  }

  /**
   * `createRequest`: input check, requester lookup, then a new document whose
   * save runs the schema validators (priority enum, required `Decofitem`).
   */
  function CreateRequest(db: Db, actorId: Id, form: RequestForm, newId: Id, now: int): (out: (Result<Request, RequestError>, Db))
    ensures out.0.Ok? <==>
      AcceptableInput(form) && FindUser(db.users, actorId).Some? && ResolvePriority(form.priority).Some? && Present(form.decOfItem)
    ensures !AcceptableInput(form) ==> out.0 == Err(InvalidInput)
    ensures AcceptableInput(form) && FindUser(db.users, actorId).None? ==> out.0 == Err(UserNotFound)
    ensures out.0.Err? ==> out.1 == db
    ensures out.0.Ok? ==>
      && out.1 == db.(requests := db.requests + [out.0.value])
      && out.0.value.id == newId && out.0.value.user == actorId && out.0.value.item.None?
      && out.0.value.itemName == form.itemName.value && out.0.value.quantity == form.quantity.value >= 1
      && out.0.value.status == Requested
      && out.0.value.priority == ResolvePriority(form.priority).value
      && (!Present(form.priority) ==> out.0.value.priority == Medium)
      && out.0.value.decOfItem == form.decOfItem.value
      && out.0.value.requiredDate == form.requiredDate
      && out.0.value.createdAt == now
      && out.0.value.deliveryAddress == db.users[FindUser(db.users, actorId).value].location
      && out.0.value.timestamps == Timestamps(now, None, None)
      && out.0.value.token.None? && out.0.value.rejectionReason.None?
  {
    if !AcceptableInput(form) then (Err(InvalidInput), db)
    else match FindUser(db.users, actorId)
      case None => (Err(UserNotFound), db)
      case Some(u) =>
        var priority := ResolvePriority(form.priority);
        if priority.None? || !Present(form.decOfItem) then (Err(ServerError), db)
        else
          var r := Request(newId, db.users[u].id, None, form.itemName.value, form.decOfItem.value,
                           form.quantity.value, form.requiredDate, priority.value, db.users[u].location,
                           Requested, None, Timestamps(now, None, None), None, now);
          (Ok(r), db.(requests := db.requests + [r]))
  }

  /** Some other request already holds token `t`, so saving it on request `i` violates the unique index. */
  predicate TokenTaken(requests: seq<Request>, i: nat, t: string) {
    exists j :: 0 <= j < |requests| && j != i && requests[j].token == Some(t)
  }

  /** `approveRequest`: admin only, from `requested` only; sets the approval time and the token. */
  function Approve(db: Db, actor: PublicUser, id: Id, now: int, year: nat): (out: (Result<Request, RequestError>, Db))
    ensures actor.role != "admin" ==> out == (Err(OnlyAdmin), db)
    ensures out.0.Err? ==> out.1 == db
    ensures out.0.Ok? <==>
      && actor.role == "admin"
      && FindRequest(db.requests, id).Some?
      && db.requests[FindRequest(db.requests, id).value].status == Requested
      && !TokenTaken(db.requests, FindRequest(db.requests, id).value, TokenFor(year, id))
    ensures out.0 == Err(ServerError) ==>
      FindRequest(db.requests, id).Some? && TokenTaken(db.requests, FindRequest(db.requests, id).value, TokenFor(year, id))
    ensures out.0.Ok? ==>
      (var i := FindRequest(db.requests, id).value;
       && out.1 == db.(requests := db.requests[i := out.0.value])
       && out.0.value.status == Approved
       && out.0.value.token == Some(TokenFor(year, id))
       && out.0.value.timestamps.approved == Some(now)
       && out.0.value.timestamps.dispatched == db.requests[i].timestamps.dispatched
       && out.0.value.rejectionReason == db.requests[i].rejectionReason
       && SameSubmission(out.0.value, db.requests[i]))
  {
    if actor.role != "admin" then (Err(OnlyAdmin), db)
    else match FindRequest(db.requests, id)
      case None => (Err(RequestNotFound), db)
      case Some(i) =>
        var r := db.requests[i];
        if r.status != Requested then (Err(AlreadyProcessed), db)
        else
          var t := TokenFor(year, r.id);
          if TokenTaken(db.requests, i, t) then (Err(ServerError), db)
          else
            var approved := r.(status := Approved, timestamps := r.timestamps.(approved := Some(now)), token := Some(t));
            (Ok(approved), db.(requests := db.requests[i := approved]))
  }

  /** The reason recorded on rejection: `reason || 'No reason provided'`. */
  function RejectionReason(reason: Option<string>): string {
    if Present(reason) then reason.value else "No reason provided"
  }

  /** `rejectRequest`: admin only, from `requested` only; records the reason. */
  function Reject(db: Db, actor: PublicUser, id: Id, reason: Option<string>): (out: (Result<Request, RequestError>, Db))
    ensures actor.role != "admin" ==> out == (Err(OnlyAdmin), db)
    ensures out.0.Err? ==> out.1 == db
    ensures out.0.Ok? <==>
      && actor.role == "admin"
      && FindRequest(db.requests, id).Some?
      && db.requests[FindRequest(db.requests, id).value].status == Requested
    ensures out.0.Ok? ==>
      (var i := FindRequest(db.requests, id).value;
       && out.1 == db.(requests := db.requests[i := out.0.value])
       && out.0.value.status == Rejected
       && (Present(reason) ==> out.0.value.rejectionReason == reason)
       && (!Present(reason) ==> out.0.value.rejectionReason == Some("No reason provided"))
       && out.0.value.token == db.requests[i].token
       && out.0.value.timestamps == db.requests[i].timestamps
       && SameSubmission(out.0.value, db.requests[i]))
  {
    if actor.role != "admin" then (Err(OnlyAdmin), db)
    else match FindRequest(db.requests, id)
      case None => (Err(RequestNotFound), db)
      case Some(i) =>
        var r := db.requests[i];
        if r.status != Requested then (Err(AlreadyProcessed), db)
        else
          var rejected := r.(status := Rejected, rejectionReason := Some(RejectionReason(reason)));
          (Ok(rejected), db.(requests := db.requests[i := rejected]))
  }

  /** What the dispatch checks settle on: the request, the item, and the admin's stock record. */
  datatype DispatchPlan = DispatchPlan(request: nat, item: Id, adminStock: nat)

  /** The plan's indices are in range, so the transfer can be applied. */
  predicate PlanFits(db: Db, p: DispatchPlan) {
    p.request < |db.requests| && p.adminStock < |db.stocks|
  }

  /**
   * The checks `dispatchRequest` makes before it changes anything, in the
   * source's order: admin role, request exists, status `approved`, admin user
   * exists, an item named by the trimmed lower-cased `itemName`, an
   * `(item, admin, 'admin')` stock record, and enough quantity in it.
   */
  function PlanDispatch(db: Db, actor: PublicUser, id: Id): (r: Result<DispatchPlan, RequestError>)
    ensures r.Ok? ==> PlanFits(db, r.value)
    ensures r.Ok? ==>
      && actor.role == "admin"
      && db.requests[r.value.request].id == id
      && db.requests[r.value.request].status == Approved
      && FindUser(db.users, actor.id).Some?
      && OwnedBy(db.stocks[r.value.adminStock], r.value.item, actor.id, AdminOwner)
      && r.value.adminStock == FindOwnedStock(db.stocks, r.value.item, actor.id, AdminOwner).value
      && db.stocks[r.value.adminStock].quantity >= db.requests[r.value.request].quantity
      && exists k :: 0 <= k < |db.items| && db.items[k].id == r.value.item
                     && db.items[k].name == Normalize(db.requests[r.value.request].itemName)
  {
    if actor.role != "admin" then Err(OnlyAdmin)
    else match FindRequest(db.requests, id)
      case None => Err(RequestNotFound)
      case Some(i) =>
        var r := db.requests[i];
        if r.status != Approved then Err(NotApprovedYet)
        else if FindUser(db.users, actor.id).None? then Err(AdminUserNotFound)
        else match FindItemNamed(db.items, Normalize(r.itemName))
          case None => Err(ItemNotFound(r.itemName))
          case Some(k) =>
            match FindOwnedStock(db.stocks, db.items[k].id, actor.id, AdminOwner)
            case None => Err(AdminStockNotFound(r.itemName))
            case Some(a) =>
              if db.stocks[a].quantity < r.quantity then Err(InsufficientStock(db.stocks[a].quantity, r.quantity))
              else Ok(DispatchPlan(i, db.items[k].id, a))
  }

  /** The admin's stock after `adminStock.quantity -= quantity`. */
  function Debited(db: Db, p: DispatchPlan): seq<StockRecord>
    requires PlanFits(db, p)
  {
    var a := db.stocks[p.adminStock];
    db.stocks[p.adminStock := a.(quantity := a.quantity - db.requests[p.request].quantity)]
  }

  /** The record created for a requester who holds none of the item: the admin record's rate and branch. */
  function NewUserStock(admin: StockRecord, item: Id, owner: Id, quantity: int): StockRecord {
    StockRecord(item, admin.branch, Some(owner), Some(UserOwner), quantity, admin.rate, None)
  }

  /** The response body of a successful dispatch. */
  datatype DispatchReceipt = DispatchReceipt(adminRemainingStock: int, userTotalStock: int, request: Request)

  /** The status change on the dispatched request. */
  function MarkDispatched(r: Request, now: int): Request {
    r.(status := Dispatched, timestamps := r.timestamps.(dispatched := Some(now)))
  }

  /**
   * The rest of `dispatchRequest` once the requester is known: debit the admin
   * record, credit the requester's first `(item, user, 'user')` record or create
   * one, and mark the request dispatched.
   */
  function CompleteDispatch(db: Db, p: DispatchPlan, now: int): (out: (DispatchReceipt, Db))
    requires PlanFits(db, p)
    requires db.stocks[p.adminStock].ownerType == Some(AdminOwner)
    ensures out.1.users == db.users && out.1.items == db.items
    ensures out.1.requests == db.requests[p.request := out.0.request]
    ensures out.0.request.status == Dispatched
    ensures out.0.request.timestamps.dispatched == Some(now)
    ensures out.0.request.timestamps.approved == db.requests[p.request].timestamps.approved
    ensures out.0.request.token == db.requests[p.request].token
    ensures out.0.request.rejectionReason == db.requests[p.request].rejectionReason
    ensures SameSubmission(out.0.request, db.requests[p.request])
    ensures p.adminStock < |out.1.stocks|
    ensures out.1.stocks[p.adminStock] ==
      db.stocks[p.adminStock].(quantity := db.stocks[p.adminStock].quantity - db.requests[p.request].quantity)
    ensures out.0.adminRemainingStock == out.1.stocks[p.adminStock].quantity
    ensures
      var u := FindOwnedStock(db.stocks, p.item, db.requests[p.request].user, UserOwner);
      if u.Some? then
        && |out.1.stocks| == |db.stocks|
        && u.value != p.adminStock
        && out.1.stocks[u.value] == db.stocks[u.value].(quantity := db.stocks[u.value].quantity + db.requests[p.request].quantity)
        && out.0.userTotalStock == out.1.stocks[u.value].quantity
        && (forall j :: 0 <= j < |db.stocks| && j != p.adminStock && j != u.value ==> out.1.stocks[j] == db.stocks[j])
      else
        && |out.1.stocks| == |db.stocks| + 1
        && out.1.stocks[|db.stocks|] ==
             StockRecord(p.item, db.stocks[p.adminStock].branch, Some(db.requests[p.request].user), Some(UserOwner),
                         db.requests[p.request].quantity, db.stocks[p.adminStock].rate, None)
        && out.0.userTotalStock == db.requests[p.request].quantity
        && (forall j :: 0 <= j < |db.stocks| && j != p.adminStock ==> out.1.stocks[j] == db.stocks[j])
  {
    var r := db.requests[p.request];
    var a := db.stocks[p.adminStock];
    var debited := Debited(db, p);
    var done := MarkDispatched(r, now);
    FindOwnedStockUpdate(db.stocks, p.adminStock, debited[p.adminStock], p.item, r.user, UserOwner);
    match FindOwnedStock(debited, p.item, r.user, UserOwner)
    case Some(u) =>
      var credited := debited[u := debited[u].(quantity := debited[u].quantity + r.quantity)];
      (DispatchReceipt(a.quantity - r.quantity, debited[u].quantity + r.quantity, done),
       db.(stocks := credited, requests := db.requests[p.request := done]))
    case None =>
      var created := NewUserStock(a, p.item, r.user, r.quantity);
      (DispatchReceipt(a.quantity - r.quantity, r.quantity, done),
       db.(stocks := debited + [created], requests := db.requests[p.request := done]))
  }

  /** Whether `populate('user')` finds the requester; null when the user has been deleted. */
  predicate RequesterExists(db: Db, p: DispatchPlan)
    requires PlanFits(db, p)
  {
    FindUser(db.users, db.requests[p.request].user).Some?
  }

  /**
   * `dispatchRequest` as written: the admin debit is saved before
   * `request.user._id` is read, so a deleted requester makes the handler
   * throw with the debit already stored.
   */
  function DispatchAsWritten(db: Db, actor: PublicUser, id: Id, now: int): (out: (Result<DispatchReceipt, RequestError>, Db))
    ensures out.0.Ok? <==> PlanDispatch(db, actor, id).Ok? && RequesterExists(db, PlanDispatch(db, actor, id).value)
    ensures out.0.Err? && out.1 != db ==>
      && PlanDispatch(db, actor, id).Ok?
      && !RequesterExists(db, PlanDispatch(db, actor, id).value)
      && out == (Err(ServerError), db.(stocks := Debited(db, PlanDispatch(db, actor, id).value)))
  {
    match PlanDispatch(db, actor, id)
    case Err(e) => (Err(e), db)
    case Ok(p) =>
      if !RequesterExists(db, p) then (Err(ServerError), db.(stocks := Debited(db, p)))
      else var (receipt, after) := CompleteDispatch(db, p, now); (Ok(receipt), after)
  }

  /** `dispatchRequest` with the requester checked before the debit, so that every failure leaves the stock alone. */
  function Dispatch(db: Db, actor: PublicUser, id: Id, now: int): (out: (Result<DispatchReceipt, RequestError>, Db))
    ensures actor.role != "admin" ==> out == (Err(OnlyAdmin), db)
    ensures out.0.Err? ==> out.1 == db
    ensures out.0.Ok? <==> PlanDispatch(db, actor, id).Ok? && RequesterExists(db, PlanDispatch(db, actor, id).value)
    ensures out.0.Ok? ==> out == DispatchAsWritten(db, actor, id, now)
  {
    match PlanDispatch(db, actor, id)
    case Err(e) => (Err(e), db)
    case Ok(p) =>
      if !RequesterExists(db, p) then (Err(ServerError), db)
      else var (receipt, after) := CompleteDispatch(db, p, now); (Ok(receipt), after)
  }

  function IsDispatched(r: Request): bool {
    r.status == Dispatched
  }

  /** `getDispatchCount`: admin only; the number of requests in `dispatched`. */
  function DispatchCount(db: Db, actor: PublicUser): (r: Result<nat, RequestError>)
    ensures r.Ok? <==> actor.role == "admin"
    ensures r.Ok? ==> r.value == Count(db.requests, IsDispatched)
    ensures r.Ok? ==> r.value <= |db.requests|
    ensures r.Ok? ==> (r.value == 0 <==> forall j :: 0 <= j < |db.requests| ==> db.requests[j].status != Dispatched)
    ensures r.Err? ==> r.error == OnlyAdmin
  {
    if actor.role != "admin" then Err(OnlyAdmin) else Ok(Count(db.requests, IsDispatched))
  }
}

=== FILE: sales.dfy ===
/**
 * The sale record of model/sales.js: its invoice file-type enum with its
 * default, and the pre-save hook that derives the total amount from the
 * quantity and the unit price.
 */
module Sales {
  import opened Wrappers
  import opened Mongo

  /** The invoice's `fileType` enum. */
  datatype FileType = Pdf | Image

  function FileTypeName(t: FileType): string {
    match t
    case Pdf => "pdf"
    case Image => "image"
  }

  /** Casting a sent `fileType`: absent gives the default `pdf`; a value outside the enum fails validation. */
  function FileTypeOf(sent: Option<string>): (r: Option<FileType>)
    ensures r.Some? <==> sent.None? || sent.value == "pdf" || sent.value == "image"
    ensures sent.None? ==> r == Some(Pdf)
    ensures r.Some? && sent.Some? ==> FileTypeName(r.value) == sent.value
  {
    match sent
    case None => Some(Pdf)
    case Some(s) =>
      if s == "pdf" then Some(Pdf)
      else if s == "image" then Some(Image)
      else None
  }

  /** Every file type survives being written out and cast back. */
  lemma FileTypeRoundTrip(t: FileType)
    ensures FileTypeOf(Some(FileTypeName(t))) == Some(t)
  {
    match t {
      case Pdf =>
      case Image =>
        assert "image" != "pdf";
    }
  }

  datatype Invoice = Invoice(filePath: Option<string>, fileType: FileType, uploadedAt: Option<int>)

  /** A sale document; `totalAmount` is whatever the caller sent until the hook runs. */
  datatype SaleDoc = SaleDoc(
    userId: Id,
    customerName: string,
    customerEmail: Option<string>,
    customerAddress: Option<string>,
    item: Id,
    quantity: int,
    price: int,
    totalAmount: Option<int>,
    invoice: Invoice,
    saleDate: int)

  /** The document as the pre-save hook leaves it: the total is the quantity times the price, whatever was sent. */
  function Priced(doc: SaleDoc): (r: SaleDoc)
    ensures r.totalAmount == Some(doc.quantity * doc.price)
    ensures r.(totalAmount := doc.totalAmount) == doc
  {
    doc.(totalAmount := Some(doc.quantity * doc.price))
  }

  /** Running the hook again changes nothing, and a caller-supplied total never survives it. */
  lemma PricedIdempotent(doc: SaleDoc, sent: Option<int>)
    ensures Priced(Priced(doc)) == Priced(doc)
    ensures Priced(doc.(totalAmount := sent)) == Priced(doc)
  {
  }

  /** A sale record as Mongoose holds it before saving. */
  class Sale {
    var userId: Id
    var customerName: string
    var customerEmail: Option<string>
    var customerAddress: Option<string>
    var item: Id
    var quantity: int
    var price: int
    var totalAmount: Option<int>
    var invoice: Invoice
    var saleDate: int

    /** A new record from a document; an invoice without a sent file type has already defaulted to `pdf`. */
    constructor (doc: SaleDoc)
      ensures Doc() == doc
    {
      userId, customerName, customerEmail, customerAddress := doc.userId, doc.customerName, doc.customerEmail, doc.customerAddress;
      item, quantity, price, totalAmount := doc.item, doc.quantity, doc.price, doc.totalAmount;
      invoice, saleDate := doc.invoice, doc.saleDate;
    }

    function Doc(): SaleDoc
      reads this
    {
      SaleDoc(userId, customerName, customerEmail, customerAddress, item, quantity, price, totalAmount, invoice, saleDate)
    }

    /** The `pre('save')` hook: assigns the total and nothing else. */
    method PreSave()
      modifies this
      ensures Doc() == Priced(old(Doc()))
    {
      totalAmount := Some(quantity * price);
    }
  }
}

=== FILE: seed.dfy ===
/**
 * The stock-seeding route of seed.js: it keeps a per-branch list of stock
 * entries inside the item document, adding the quantity to the branch's
 * entry or appending a new entry.
 */
module Seed {
  import opened Wrappers
  import opened Mongo
  import opened Seqs
  import opened Ledger
  import opened Store

  /** The body of a seeding call; None is a field that was not sent. */
  datatype SeedForm = SeedForm(itemName: Option<string>, branch: Option<string>, quantity: Option<int>,
                               category: Option<string>, description: Option<string>)

  datatype SeedError = SeedMissingFields | SeedServerError

  function SeedHttpStatus(e: SeedError): nat {
    match e
    case SeedMissingFields => 400
    case SeedServerError => 500
  }

  /** `!itemName || !branch || !quantity` rejects, so a zero quantity is refused while a negative one passes. */
  predicate SeedInputPresent(form: SeedForm) {
    Present(form.itemName) && Present(form.branch) && form.quantity.Some? && form.quantity.value != 0
  }

  /** `item.stock.find(s => s.branch === branch)`. */
  function FindBranchEntry(entries: seq<BranchEntry>, branch: string): (r: Option<nat>)
    ensures r.Some? ==> r.value < |entries| && entries[r.value].branch == branch
    ensures r.Some? ==> forall j :: 0 <= j < r.value ==> entries[j].branch != branch
    ensures r.None? ==> forall j :: 0 <= j < |entries| ==> entries[j].branch != branch
  {
    FindFirst(entries, (e: BranchEntry) => e.branch == branch)
  }

  /** Replacing an entry by one at the same branch does not move the first match. */
  lemma FindBranchEntryUpdate(entries: seq<BranchEntry>, j: nat, x: BranchEntry, branch: string)
    requires j < |entries| && x.branch == entries[j].branch
    ensures FindBranchEntry(entries[j := x], branch) == FindBranchEntry(entries, branch)
  {
    assert forall i :: 0 <= i < |entries| ==> (entries[j := x][i].branch == branch <==> entries[i].branch == branch);
  }

  /** The entry pushed for a branch with none: category 'default' and an empty description unless supplied. */
  function NewEntry(branch: string, category: Option<string>, description: Option<string>, q: int): BranchEntry {
    BranchEntry(branch, if Present(category) then category.value else "default",
                if Present(description) then description.value else "", q)
  }

  /**
   * The entry list after seeding `q` at `branch`: the branch's first entry
   * gains `q`, or a new entry holding `q` is appended; nothing else changes.
   */
  function SeedEntries(entries: seq<BranchEntry>, branch: string, category: Option<string>, description: Option<string>, q: int)
    : (r: seq<BranchEntry>)
    ensures |r| == |entries| <==> FindBranchEntry(entries, branch).Some?
    ensures |entries| <= |r| <= |entries| + 1
    ensures forall j :: 0 <= j < |entries| && FindBranchEntry(entries, branch) != Some(j) ==> r[j] == entries[j]
    ensures FindBranchEntry(r, branch).Some?
    ensures var f := FindBranchEntry(entries, branch);
      r[FindBranchEntry(r, branch).value] ==
        if f.Some? then entries[f.value].(quantity := entries[f.value].quantity + q)
        else NewEntry(branch, category, description, q)
  {
    match FindBranchEntry(entries, branch)
    case Some(j) =>
      var x := entries[j].(quantity := entries[j].quantity + q);
      FindBranchEntryUpdate(entries, j, x, branch);
      entries[j := x]
    case None =>
      var r := entries + [NewEntry(branch, category, description, q)];
      assert r[|entries|].branch == branch;
      r
  }

  /** The quantity an entry contributes to its branch's total. */
  function EntryQuantityAt(branch: string): BranchEntry -> int {
    (e: BranchEntry) => if e.branch == branch then e.quantity else 0
  }

  /** All entries' quantities at one branch. */
  function BranchTotal(entries: seq<BranchEntry>, branch: string): int {
    SumOf(entries, EntryQuantityAt(branch))
  }

  /** At most one entry per branch. */
  predicate BranchesUnique(entries: seq<BranchEntry>) {
    forall i, j :: 0 <= i < |entries| && 0 <= j < |entries| && i != j ==> entries[i].branch != entries[j].branch
  }

  /** Seeding raises the seeded branch's total by `q` and leaves every other branch's total alone. */
  lemma SeedEntriesBranchTotals(entries: seq<BranchEntry>, branch: string, category: Option<string>, description: Option<string>, q: int)
    ensures forall b :: BranchTotal(SeedEntries(entries, branch, category, description, q), b) ==
                          BranchTotal(entries, b) + (if b == branch then q else 0)
  {
    var r := SeedEntries(entries, branch, category, description, q);
    forall b
      ensures BranchTotal(r, b) == BranchTotal(entries, b) + (if b == branch then q else 0)
    {
      match FindBranchEntry(entries, branch) {
        case Some(j) => SumOfUpdate(entries, j, r[j], EntryQuantityAt(b));
        case None => SumOfAppend(entries, NewEntry(branch, category, description, q), EntryQuantityAt(b));
      }
    }
  }

  /** Seeding never creates a second entry for a branch. */
  lemma SeedEntriesKeepsBranchesUnique(entries: seq<BranchEntry>, branch: string, category: Option<string>, description: Option<string>, q: int)
    requires BranchesUnique(entries)
    ensures BranchesUnique(SeedEntries(entries, branch, category, description, q))
  {
  }

  /** Seeding twice at one branch is seeding the sum once: the second call finds the entry the first one made or credited. */
  lemma SeedEntriesAccumulate(entries: seq<BranchEntry>, branch: string, c1: Option<string>, d1: Option<string>, q1: int,
                              c2: Option<string>, d2: Option<string>, q2: int)
    ensures SeedEntries(SeedEntries(entries, branch, c1, d1, q1), branch, c2, d2, q2) ==
            SeedEntries(entries, branch, c1, d1, q1 + q2)
  {
    var once := SeedEntries(entries, branch, c1, d1, q1);
    match FindBranchEntry(entries, branch) {
      case Some(j) =>
        FindBranchEntryUpdate(entries, j, once[j], branch);
      case None =>
        assert FindBranchEntry(once, branch) == Some(|entries|);
    }
  }

  /** The item the route saves: the one with the exact name, or a new one with an empty list, with the entries seeded. */
  function SeededItem(items: seq<Item>, form: SeedForm, newItemId: Id): Item
    requires SeedInputPresent(form)
  {
    var base := match FindItemNamed(items, form.itemName.value)
      case Some(k) => items[k]
      case None => Item(newItemId, form.itemName.value, None, None, None, []);
    base.(stock := SeedEntries(base.stock, form.branch.value, form.category, form.description, form.quantity.value))
  }

  /** `POST /seed-stock`: validate, find or create the item by exact name, seed its entries and save it. */
  function SeedStock(db: Db, form: SeedForm, newItemId: Id): (out: (Result<Item, SeedError>, Db))
    ensures out.0.Err? <==> !SeedInputPresent(form)
    ensures out.0.Err? ==> out.0.error == SeedMissingFields && out.1 == db
    ensures out.1.users == db.users && out.1.stocks == db.stocks && out.1.requests == db.requests
    ensures out.0.Ok? ==>
      var item := out.0.value;
      && item.name == form.itemName.value
      && match FindItemNamed(db.items, form.itemName.value)
         case Some(k) =>
           && out.1.items == db.items[k := item]
           && item == db.items[k].(stock := SeedEntries(db.items[k].stock, form.branch.value, form.category, form.description, form.quantity.value))
         case None =>
           && out.1.items == db.items + [item]
           && item == Item(newItemId, form.itemName.value, None, None, None,
                           [NewEntry(form.branch.value, form.category, form.description, form.quantity.value)])
  {
    if !SeedInputPresent(form) then (Err(SeedMissingFields), db)
    else
      var item := SeededItem(db.items, form, newItemId);
      match FindItemNamed(db.items, form.itemName.value)
      case Some(k) => (Ok(item), db.(items := db.items[k := item]))
      case None => (Ok(item), db.(items := db.items + [item]))
  }

  /** Seeding keeps the database invariant when the new item id is fresh. */
  lemma SeedStockKeepsValid(db: Db, form: SeedForm, newItemId: Id)
    requires ValidDb(db)
    requires forall k :: 0 <= k < |db.items| ==> db.items[k].id != newItemId
    ensures ValidDb(SeedStock(db, form, newItemId).1)
  {
    var (res, after) := SeedStock(db, form, newItemId);
    if res.Ok? {
      assert forall j :: 0 <= j < |db.items| ==> after.items[j].id == db.items[j].id;
      assert StocksReferToItems(after.stocks, after.items);
    }
  }

  /** The route on the database object, with the steps of seed.js. */
  method SeedHandler(db: Database, form: SeedForm, newItemId: Id) returns (res: Result<Item, SeedError>)
    requires db.Valid()
    requires forall k :: 0 <= k < |db.items| ==> db.items[k].id != newItemId
    modifies db
    ensures (res, db.Snapshot()) == SeedStock(old(db.Snapshot()), form, newItemId)
    ensures db.Valid()
  {
    SeedStockKeepsValid(db.Snapshot(), form, newItemId);
    if !SeedInputPresent(form) {
      return Err(SeedMissingFields);
    }
    var branch := form.branch.value;
    var q := form.quantity.value;
    var found := FindItemNamed(db.items, form.itemName.value);
    var item;
    if found.None? {
      item := Item(newItemId, form.itemName.value, None, None, None, []);
    } else {
      item := db.items[found.value];
    }
    var entry := FindBranchEntry(item.stock, branch);
    if entry.None? {
      item := item.(stock := item.stock + [NewEntry(branch, form.category, form.description, q)]);
    } else {
      var j := entry.value;
      item := item.(stock := item.stock[j := item.stock[j].(quantity := item.stock[j].quantity + q)]);
    }
    if found.None? {
      db.items := db.items + [item];
    } else {
      db.items := db.items[found.value := item];
    }
    res := Ok(item);
  }
}

=== FILE: stock_controller.dfy ===
/**
 * The imperative stock handlers of controllers/stockController.js: stock-add
 * updates the database object step by step, and the dashboard's grouping loop
 * fills its map record by record; each is proved against its transition or
 * specification function.
 */
module StockController {
  import opened Wrappers
  import opened Mongo
  import opened Seqs
  import opened Ledger
  import opened Users
  import opened Store
  import opened StockRules
  import opened StockLaws

  /** `createOrUpdateStock`; `newItemId` stands for the id Mongo assigns to a new item. */
  method CreateOrUpdateStockHandler(db: Database, actor: PublicUser, form: StockForm, newItemId: Id)
    returns (res: Result<StockOutcome, StockError>)
    requires db.Valid()
    requires forall k :: 0 <= k < |db.items| ==> db.items[k].id != newItemId
    modifies db
    ensures (res, db.Snapshot()) == AddStock(old(db.Snapshot()), actor, form, newItemId)
    ensures db.Valid()
  {
    ghost var spec := AddStock(db.Snapshot(), actor, form, newItemId);
    AddStockKeepsValid(db.Snapshot(), actor, form, newItemId);
    if !StockInputPresent(form) {
      return Err(MissingFields);
    }
    ghost var target := TargetItem(db.items, form, newItemId);
    var q := form.quantity.value;
    var found := FindItemNamed(db.items, form.itemName.value);
    var item;
    if found.None? {
      item := NewItem(newItemId, form.itemName.value, form.description, form.category);
      db.items := db.items + [item];
    } else {
      var changed;
      item, changed := RefreshItem(db.items[found.value], form.description, form.category);
      if changed {
        db.items := db.items[found.value := item];
      } else {
        assert db.items[found.value := item] == db.items;
      }
    }
    assert item == target && db.items == spec.1.items;
    var j := FindBranchStock(db.stocks, item.id, actor.branch);
    var stock;
    if j.Some? {
      stock := db.stocks[j.value];
      stock := stock.(quantity := stock.quantity + q);
      db.stocks := db.stocks[j.value := stock];
    } else {
      stock := BranchRecord(item.id, actor.branch, q);
      db.stocks := db.stocks + [stock];
    }
    assert db.stocks == spec.1.stocks;
    assert db.Snapshot() == spec.1;
    res := Ok(StockOutcome(item, stock));
  }

  /** The metadata update on a found item, with the flag that decides whether it is saved. */
  method RefreshItem(stored: Item, description: Option<string>, category: Option<string>) returns (item: Item, changed: bool)
    ensures item == Refreshed(stored, description, category)
    ensures changed <==> Changes(description, stored.description) || Changes(category, stored.category)
    ensures !changed ==> item == stored
  {
    item := stored;
    changed := false;
    if Changes(description, item.description) {
      item := item.(description := description);
      changed := true;
    }
    if Changes(category, item.category) {
      item := item.(category := category);
      changed := true;
    }
  }

  /** Once a record's item is missing the grouping fails, however many records follow. */
  lemma {:induction false} GroupedFailsFromPrefix(stocks: seq<StockRecord>, items: seq<Item>, i: nat)
    requires i <= |stocks|
    requires Grouped(stocks[..i], items).None?
    ensures Grouped(stocks, items).None?
    decreases |stocks| - i
  {
    if i < |stocks| {
      assert stocks[..i + 1][..i] == stocks[..i];
      GroupedFailsFromPrefix(stocks, items, i + 1);
    } else {
      assert stocks[..i] == stocks;
    }
  }

  /** One more record extends a successful grouping by one `AddToGroup` step. */
  lemma GroupedStep(stocks: seq<StockRecord>, items: seq<Item>, i: nat, g: seq<ItemSummary>, k: nat)
    requires i < |stocks|
    requires Grouped(stocks[..i], items) == Some(g)
    requires FindItemById(items, stocks[i].item) == Some(k)
    ensures Grouped(stocks[..i + 1], items) == Some(AddToGroup(g, stocks[i], items[k].name))
  {
    assert stocks[..i + 1][..i] == stocks[..i];
  }

  /** A record whose item is missing fails the grouping. */
  lemma GroupedStepFails(stocks: seq<StockRecord>, items: seq<Item>, i: nat)
    requires i < |stocks|
    requires FindItemById(items, stocks[i].item).None?
    ensures Grouped(stocks, items).None?
  {
    assert stocks[..i + 1][..i] == stocks[..i];
    GroupedFailsFromPrefix(stocks, items, i + 1);
  }

  /** The `forEach` that fills `itemMap`; None where `stock.item._id` throws on a missing item. */
  method GroupStocks(stocks: seq<StockRecord>, items: seq<Item>) returns (r: Option<seq<ItemSummary>>)
    ensures r == Grouped(stocks, items)
  {
    var g: seq<ItemSummary> := [];
    var i := 0;
    assert stocks[..0] == [];
    while i < |stocks|
      invariant 0 <= i <= |stocks|
      invariant Grouped(stocks[..i], items) == Some(g)
    {
      var stock := stocks[i];
      var k := FindItemById(items, stock.item);
      if k.None? {
        GroupedStepFails(stocks, items, i);
        return None;
      }
      GroupedStep(stocks, items, i, g, k.value);
      var name := items[k.value].name;
      var entry := BranchQuantity(stock.branch, stock.quantity);
      var at := FindSummary(g, stock.item);
      if at.Some? {
        var l := at.value;
        AddToGroupFound(g, stock, name, l);
        g := g[l := g[l].(totalQuantity := g[l].totalQuantity + stock.quantity, branches := g[l].branches + [entry])];
      } else {
        AddToGroupNew(g, stock, name);
        g := g + [ItemSummary(stock.item, name, stock.quantity, [entry])];
      }
      i := i + 1;
    }
    assert stocks[..i] == stocks;
    r := Some(g);
  }

  /** The `reduce` summing the entries' totals. */
  method SumTotals(g: seq<ItemSummary>) returns (total: int)
    ensures total == SumOf(g, SummaryTotal)
  {
    total := 0;
    var i := 0;
    assert g[..0] == [];
    while i < |g|
      invariant 0 <= i <= |g|
      invariant total == SumOf(g[..i], SummaryTotal)
    {
      assert g[..i + 1][..i] == g[..i];
      total := total + g[i].totalQuantity;
      i := i + 1;
    }
    assert g[..i] == g;
  }

  /** `getDashboardSummary`; `monthStart` is the first instant of the current month. */
  method GetDashboardSummary(db: Database, actor: PublicUser, monthStart: int)
    returns (r: Result<DashboardSummary, StockError>)
    ensures r == Dashboard(db.Snapshot(), actor, monthStart)
  {
    if actor.role != "admin" {
      return Err(Forbidden);
    }
    var grouped := GroupStocks(db.stocks, db.items);
    if grouped.None? {
      return Err(ServerError);
    }
    var g := grouped.value;
    var total := SumTotals(g);
    r := Ok(DashboardSummary(|db.items|, total, g, MonthStats(db.requests, monthStart)));
  }
}

=== FILE: stock_laws.dfy ===
/**
 * What the stock handlers guarantee: stock-add raises the totals by exactly
 * the supplied quantity and credits only the record it finds, the dashboard
 * grouping accounts for every record once, and the per-branch summaries
 * report nothing dispatched while no request carries an item reference.
 */
module StockLaws {
  import opened Wrappers
  import opened Mongo
  import opened Seqs
  import opened Ledger
  import opened Requests
  import opened Users
  import opened Store
  import opened StockRules

  /**
   * A successful stock-add raises the overall total and the item's total by
   * the supplied quantity (which may be zero or negative) and no other item's
   * total.
   */
  lemma AddStockRaisesTotals(db: Db, actor: PublicUser, form: StockForm, newItemId: Id)
    requires AddStock(db, actor, form, newItemId).0.Ok?
    ensures var (res, after) := AddStock(db, actor, form, newItemId);
      && TotalQuantity(after.stocks) == TotalQuantity(db.stocks) + form.quantity.value
      && ItemQuantity(after.stocks, res.value.item.id) == ItemQuantity(db.stocks, res.value.item.id) + form.quantity.value
      && forall id :: id != res.value.item.id ==> ItemQuantity(after.stocks, id) == ItemQuantity(db.stocks, id)
  {
    var (res, after) := AddStock(db, actor, form, newItemId);
    var q := form.quantity.value;
    match FindBranchStock(db.stocks, res.value.item.id, actor.branch)
    case Some(j) =>
      QuantityUpdate(db.stocks, j, db.stocks[j].quantity + q);
    case None =>
      QuantityAppend(db.stocks, res.value.stock);
  }

  /**
   * Stock-add credits the owner of the record it finds, whoever that is, and
   * a record it creates belongs to no owner, so the dispatch lookup, which
   * keys on the owner, never finds it.
   */
  lemma AddStockCreditsFoundRecordOnly(db: Db, actor: PublicUser, form: StockForm, newItemId: Id)
    requires AddStock(db, actor, form, newItemId).0.Ok?
    ensures var (res, after) := AddStock(db, actor, form, newItemId);
      forall item, owner, kind ::
        Holding(after.stocks, item, owner, kind) ==
        Holding(db.stocks, item, owner, kind) + (if OwnedBy(res.value.stock, item, owner, kind) then form.quantity.value else 0)
    ensures var (res, after) := AddStock(db, actor, form, newItemId);
      FindBranchStock(db.stocks, res.value.item.id, actor.branch).None? ==>
        forall item, owner, kind :: !OwnedBy(res.value.stock, item, owner, kind)
  {
    var (res, after) := AddStock(db, actor, form, newItemId);
    var q := form.quantity.value;
    match FindBranchStock(db.stocks, res.value.item.id, actor.branch)
    case Some(j) =>
      forall item, owner, kind
        ensures Holding(after.stocks, item, owner, kind) ==
          Holding(db.stocks, item, owner, kind) + (if OwnedBy(res.value.stock, item, owner, kind) then q else 0)
      {
        SumOfUpdate(db.stocks, j, res.value.stock, HoldingOf(item, owner, kind));
      }
    case None =>
      forall item, owner, kind
        ensures Holding(after.stocks, item, owner, kind) ==
          Holding(db.stocks, item, owner, kind) + (if OwnedBy(res.value.stock, item, owner, kind) then q else 0)
      {
        SumOfAppend(db.stocks, res.value.stock, HoldingOf(item, owner, kind));
      }
  }

  /** Stock-add keeps the database invariant when the new item id is fresh: names stay unique because the item is looked up first. */
  lemma AddStockKeepsValid(db: Db, actor: PublicUser, form: StockForm, newItemId: Id)
    requires ValidDb(db)
    requires forall k :: 0 <= k < |db.items| ==> db.items[k].id != newItemId
    ensures ValidDb(AddStock(db, actor, form, newItemId).1)
  {
    var after := AddStock(db, actor, form, newItemId).1;
    AddStockKeepsItemsValid(db, actor, form, newItemId);
    AddStockKeepsStocksValid(db, actor, form, newItemId);
    assert after.users == db.users && after.requests == db.requests;
  }

  /** Item ids and names stay unique under stock-add. */
  lemma AddStockKeepsItemsValid(db: Db, actor: PublicUser, form: StockForm, newItemId: Id)
    requires ItemsValid(db.items)
    requires forall k :: 0 <= k < |db.items| ==> db.items[k].id != newItemId
    ensures ItemsValid(AddStock(db, actor, form, newItemId).1.items)
  {
    var (res, after) := AddStock(db, actor, form, newItemId);
    if res.Ok? {
      match FindItemNamed(db.items, form.itemName.value) {
        case Some(k) =>
          assert after.items == db.items[k := res.value.item];
          assert res.value.item.id == db.items[k].id && res.value.item.name == db.items[k].name;
        case None =>
          assert after.items == db.items + [res.value.item];
      }
    }
  }

  /** Every record still names an existing item, and none gains a creation time. */
  lemma AddStockKeepsStocksValid(db: Db, actor: PublicUser, form: StockForm, newItemId: Id)
    requires StocksReferToItems(db.stocks, db.items) && StocksUntimed(db.stocks)
    ensures var after := AddStock(db, actor, form, newItemId).1;
      StocksReferToItems(after.stocks, after.items) && StocksUntimed(after.stocks)
  {
    var (res, after) := AddStock(db, actor, form, newItemId);
    if res.Ok? {
      var item := res.value.item;
      var at: nat;
      match FindItemNamed(db.items, form.itemName.value) {
        case Some(k) => at := k;
        case None => at := |db.items|;
      }
      assert at < |after.items| && after.items[at].id == item.id;
      assert forall j :: 0 <= j < |db.items| ==> after.items[j].id == db.items[j].id;
      assert StocksReferToItems(after.stocks, after.items);
      assert StocksUntimed(after.stocks);
    }
  }

  /** An item with no records has no branch entries. */
  lemma {:induction false} BranchesOfAbsent(stocks: seq<StockRecord>, item: Id)
    requires forall j :: 0 <= j < |stocks| ==> stocks[j].item != item
    ensures BranchesOf(stocks, item) == []
    decreases |stocks|
  {
    if stocks != [] {
      BranchesOfAbsent(stocks[..|stocks| - 1], item);
    }
  }

  /** One entry per item id. */
  predicate GroupIdsUnique(g: seq<ItemSummary>) {
    forall k, l :: 0 <= k < |g| && 0 <= l < |g| && k != l ==> g[k].itemId != g[l].itemId
  }

  /** Every record's item has an entry. */
  predicate GroupCovers(g: seq<ItemSummary>, stocks: seq<StockRecord>) {
    forall j :: 0 <= j < |stocks| ==> exists k :: 0 <= k < |g| && g[k].itemId == stocks[j].item
  }

  /** The index of the first record of `item`, or `|stocks|` when it has none. */
  function FirstRecordOf(stocks: seq<StockRecord>, item: Id): (r: nat)
    ensures r <= |stocks|
    ensures r < |stocks| ==> stocks[r].item == item
    ensures forall j :: 0 <= j < r ==> stocks[j].item != item
  {
    match FindFirst(stocks, (x: StockRecord) => x.item == item)
    case Some(i) => i
    case None => |stocks|
  }

  /** Appending a record moves no first record, and gives its item one if it had none. */
  lemma FirstRecordAppend(pre: seq<StockRecord>, x: StockRecord, item: Id)
    ensures FirstRecordOf(pre + [x], item) ==
      if FirstRecordOf(pre, item) < |pre| then FirstRecordOf(pre, item)
      else if x.item == item then |pre| else |pre| + 1
  {
    var stocks := pre + [x];
    var r := FirstRecordOf(stocks, item);
    var f := FirstRecordOf(pre, item);
    assert forall j :: 0 <= j < |pre| ==> stocks[j] == pre[j];
    if f < |pre| {
      assert stocks[f].item == item;
      assert !(r < f) && !(f < r);
    } else if x.item == item {
      assert stocks[|pre|].item == item;
      assert !(r < |pre|);
    } else {
      assert !(r < |pre|) && r != |pre|;
    }
  }

  /** Every entry's item has a record: an entry is only opened when one of its records is seen. */
  predicate GroupSound(g: seq<ItemSummary>, stocks: seq<StockRecord>) {
    forall k :: 0 <= k < |g| ==> FirstRecordOf(stocks, g[k].itemId) < |stocks|
  }

  /** Entries follow the order in which their items first appear among the records. */
  predicate GroupOrdered(g: seq<ItemSummary>, stocks: seq<StockRecord>) {
    forall k, l :: 0 <= k < l < |g| ==> FirstRecordOf(stocks, g[k].itemId) < FirstRecordOf(stocks, g[l].itemId)
  }

  /** Each entry's total is its item's total. */
  predicate GroupTotals(g: seq<ItemSummary>, stocks: seq<StockRecord>) {
    forall k :: 0 <= k < |g| ==> g[k].totalQuantity == ItemQuantity(stocks, g[k].itemId)
  }

  /** Each entry's branch list is its item's records, in order. */
  predicate GroupBranches(g: seq<ItemSummary>, stocks: seq<StockRecord>) {
    forall k :: 0 <= k < |g| ==> g[k].branches == BranchesOf(stocks, g[k].itemId)
  }

  /** Each entry carries its populated item's name. */
  predicate GroupNames(g: seq<ItemSummary>, items: seq<Item>) {
    forall k :: 0 <= k < |g| ==>
      FindItemById(items, g[k].itemId).Some? && g[k].name == items[FindItemById(items, g[k].itemId).value].name
  }

  /** What the grouping computes over a list of records. */
  predicate GroupFaithful(g: seq<ItemSummary>, stocks: seq<StockRecord>, items: seq<Item>) {
    && GroupIdsUnique(g)
    && GroupCovers(g, stocks)
    && GroupSound(g, stocks)
    && GroupOrdered(g, stocks)
    && GroupTotals(g, stocks)
    && GroupBranches(g, stocks)
    && GroupNames(g, items)
    && SumOf(g, SummaryTotal) == TotalQuantity(stocks)
  }

  /** Appending one record adds one branch pair to its item's list and nothing to the others. */
  lemma BranchesOfAppend(pre: seq<StockRecord>, x: StockRecord)
    ensures forall id :: BranchesOf(pre + [x], id) ==
                           BranchesOf(pre, id) + (if x.item == id then [BranchQuantity(x.branch, x.quantity)] else [])
  {
    assert (pre + [x])[..|pre|] == pre;
  }

  lemma StepIdsUnique(g: seq<ItemSummary>, x: StockRecord, name: string)
    requires GroupIdsUnique(g)
    ensures GroupIdsUnique(AddToGroup(g, x, name))
  {
  }

  lemma StepCovers(g: seq<ItemSummary>, pre: seq<StockRecord>, x: StockRecord, name: string)
    requires GroupCovers(g, pre)
    ensures GroupCovers(AddToGroup(g, x, name), pre + [x])
  {
    var g' := AddToGroup(g, x, name);
    var stocks := pre + [x];
    var at := if FindSummary(g, x.item).Some? then FindSummary(g, x.item).value else |g|;
    assert at < |g'| && g'[at].itemId == x.item;
    assert forall l :: 0 <= l < |g| ==> g'[l].itemId == g[l].itemId;
    forall j | 0 <= j < |stocks|
      ensures exists l :: 0 <= l < |g'| && g'[l].itemId == stocks[j].item
    {
      if j < |pre| {
        var l :| 0 <= l < |g| && g[l].itemId == pre[j].item;
        assert g'[l].itemId == stocks[j].item;
      } else {
        assert g'[at].itemId == stocks[j].item;
      }
    }
  }

  lemma StepSound(g: seq<ItemSummary>, pre: seq<StockRecord>, x: StockRecord, name: string)
    requires GroupSound(g, pre)
    ensures GroupSound(AddToGroup(g, x, name), pre + [x])
  {
    var g' := AddToGroup(g, x, name);
    assert forall l :: 0 <= l < |g| ==> g'[l].itemId == g[l].itemId;
    forall k | 0 <= k < |g'|
      ensures FirstRecordOf(pre + [x], g'[k].itemId) < |pre + [x]|
    {
      FirstRecordAppend(pre, x, g'[k].itemId);
      if k >= |g| {
        assert g'[k].itemId == x.item;
      }
    }
  }

  lemma StepOrdered(g: seq<ItemSummary>, pre: seq<StockRecord>, x: StockRecord, name: string)
    requires GroupOrdered(g, pre) && GroupSound(g, pre) && GroupCovers(g, pre)
    ensures GroupOrdered(AddToGroup(g, x, name), pre + [x])
  {
    var g' := AddToGroup(g, x, name);
    match FindSummary(g, x.item) {
      case Some(k) =>
        AddToGroupFound(g, x, name, k);
        assert forall l :: 0 <= l < |g| ==> g'[l].itemId == g[l].itemId;
        StepOrderedIds(g, pre, x, g');
      case None =>
        AddToGroupNew(g, x, name);
        assert forall j :: 0 <= j < |pre| ==> pre[j].item != x.item;
        assert FirstRecordOf(pre, x.item) == |pre|;
        assert forall l :: 0 <= l < |g| ==> g'[l].itemId == g[l].itemId;
        StepOrderedIds(g, pre, x, g');
    }
  }

  /** The order step on entry ids alone: existing entries keep their ids, and an added one is for an item not seen before. */
  lemma StepOrderedIds(g: seq<ItemSummary>, pre: seq<StockRecord>, x: StockRecord, g': seq<ItemSummary>)
    requires GroupOrdered(g, pre) && GroupSound(g, pre)
    requires |g| <= |g'| <= |g| + 1
    requires forall l :: 0 <= l < |g| ==> g'[l].itemId == g[l].itemId
    requires |g'| == |g| + 1 ==> g'[|g|].itemId == x.item && FirstRecordOf(pre, x.item) == |pre|
    ensures GroupOrdered(g', pre + [x])
  {
    forall k, l | 0 <= k < l < |g'|
      ensures FirstRecordOf(pre + [x], g'[k].itemId) < FirstRecordOf(pre + [x], g'[l].itemId)
    {
      FirstRecordAppend(pre, x, g'[k].itemId);
      FirstRecordAppend(pre, x, g'[l].itemId);
      assert FirstRecordOf(pre, g[k].itemId) < |pre|;
      if l < |g| {
        assert FirstRecordOf(pre, g[k].itemId) < FirstRecordOf(pre, g[l].itemId);
      }
    }
  }

  lemma StepTotals(g: seq<ItemSummary>, pre: seq<StockRecord>, x: StockRecord, name: string)
    requires GroupIdsUnique(g) && GroupTotals(g, pre) && GroupCovers(g, pre)
    ensures GroupTotals(AddToGroup(g, x, name), pre + [x])
  {
    QuantityAppend(pre, x);
    var g' := AddToGroup(g, x, name);
    match FindSummary(g, x.item) {
      case Some(k) =>
        AddToGroupFound(g, x, name, k);
        forall l | 0 <= l < |g'|
          ensures g'[l].totalQuantity == ItemQuantity(pre + [x], g'[l].itemId)
        {
          if l != k {
            assert g'[l] == g[l] && g[l].itemId != x.item;
          }
        }
      case None =>
        AddToGroupNew(g, x, name);
        assert forall j :: 0 <= j < |pre| ==> pre[j].item != x.item;
        ItemQuantityOfAbsent(pre, x.item);
        forall l | 0 <= l < |g'|
          ensures g'[l].totalQuantity == ItemQuantity(pre + [x], g'[l].itemId)
        {
          if l < |g| {
            assert g'[l] == g[l] && g[l].itemId != x.item;
          }
        }
    }
  }

  lemma StepBranches(g: seq<ItemSummary>, pre: seq<StockRecord>, x: StockRecord, name: string)
    requires GroupIdsUnique(g) && GroupBranches(g, pre) && GroupCovers(g, pre)
    ensures GroupBranches(AddToGroup(g, x, name), pre + [x])
  {
    BranchesOfAppend(pre, x);
    var g' := AddToGroup(g, x, name);
    match FindSummary(g, x.item) {
      case Some(k) =>
        assert forall l :: 0 <= l < |g'| ==> g'[l] == (if l == k then g[k].(totalQuantity := g[k].totalQuantity + x.quantity,
                                                                   branches := g[k].branches + [BranchQuantity(x.branch, x.quantity)]) else g[l]);
      case None =>
        assert forall j :: 0 <= j < |pre| ==> pre[j].item != x.item;
        BranchesOfAbsent(pre, x.item);
        assert g' == g + [ItemSummary(x.item, name, x.quantity, [BranchQuantity(x.branch, x.quantity)])];
    }
  }

  lemma StepNames(g: seq<ItemSummary>, x: StockRecord, items: seq<Item>)
    requires GroupNames(g, items)
    requires FindItemById(items, x.item).Some?
    ensures GroupNames(AddToGroup(g, x, items[FindItemById(items, x.item).value].name), items)
  {
  }

  lemma StepSum(g: seq<ItemSummary>, pre: seq<StockRecord>, x: StockRecord, name: string)
    requires SumOf(g, SummaryTotal) == TotalQuantity(pre)
    ensures SumOf(AddToGroup(g, x, name), SummaryTotal) == TotalQuantity(pre + [x])
  {
    QuantityAppend(pre, x);
    match FindSummary(g, x.item) {
      case Some(k) =>
        SumOfUpdate(g, k, AddToGroup(g, x, name)[k], SummaryTotal);
      case None =>
        SumOfAppend(g, ItemSummary(x.item, name, x.quantity, [BranchQuantity(x.branch, x.quantity)]), SummaryTotal);
    }
  }

  /**
   * The grouping has one entry per distinct item; each entry's total is that
   * item's total and its branch list has one element per record, in record
   * order; the entry totals add up to the overall total.
   */
  lemma {:induction false} GroupedFaithful(stocks: seq<StockRecord>, items: seq<Item>)
    requires Grouped(stocks, items).Some?
    ensures GroupFaithful(Grouped(stocks, items).value, stocks, items)
    decreases |stocks|
  {
    if stocks != [] {
      var pre := stocks[..|stocks| - 1];
      var x := stocks[|stocks| - 1];
      assert stocks == pre + [x];
      GroupedFaithful(pre, items);
      var g := Grouped(pre, items).value;
      var name := items[FindItemById(items, x.item).value].name;
      StepIdsUnique(g, x, name);
      StepCovers(g, pre, x, name);
      StepSound(g, pre, x, name);
      StepOrdered(g, pre, x, name);
      StepTotals(g, pre, x, name);
      StepBranches(g, pre, x, name);
      StepNames(g, x, items);
      StepSum(g, pre, x, name);
    }
  }

  /** The grouping succeeds exactly when every record's item exists. */
  lemma {:induction false} GroupedSucceeds(stocks: seq<StockRecord>, items: seq<Item>)
    ensures Grouped(stocks, items).Some? <==> ItemsPopulate(stocks, items)
    decreases |stocks|
  {
    if stocks != [] {
      var pre := stocks[..|stocks| - 1];
      GroupedSucceeds(pre, items);
      assert forall j :: 0 <= j < |pre| ==> pre[j] == stocks[j];
    }
  }

  /** In a valid database the dashboard answers every admin. */
  lemma DashboardAnswersAdmins(db: Db, actor: PublicUser, monthStart: int)
    requires ValidDb(db)
    ensures Dashboard(db, actor, monthStart).Ok? <==> actor.role == "admin"
  {
    GroupedSucceeds(db.stocks, db.items);
    forall j | 0 <= j < |db.stocks|
      ensures FindItemById(db.items, db.stocks[j].item).Some?
    {
      var k :| 0 <= k < |db.items| && db.items[k].id == db.stocks[j].item;
    }
  }

  /**
   * The dashboard's `totalQuantity` is the sum of all stock quantities,
   * `totalItems` the number of items, and each item row carries that item's
   * total and exactly that item's records as branch entries, in order.
   */
  lemma DashboardTotals(db: Db, actor: PublicUser, monthStart: int)
    requires Dashboard(db, actor, monthStart).Ok?
    ensures var d := Dashboard(db, actor, monthStart).value;
      && d.totalQuantity == TotalQuantity(db.stocks)
      && d.totalItems == |db.items|
      && (forall k :: 0 <= k < |d.items| ==> d.items[k].totalQuantity == ItemQuantity(db.stocks, d.items[k].itemId))
      && (forall k :: 0 <= k < |d.items| ==> d.items[k].branches == BranchesOf(db.stocks, d.items[k].itemId))
      && (forall j :: 0 <= j < |db.stocks| ==> exists k :: 0 <= k < |d.items| && d.items[k].itemId == db.stocks[j].item)
      && (forall k :: 0 <= k < |d.items| ==> FirstRecordOf(db.stocks, d.items[k].itemId) < |db.stocks|)
      && (forall k, l :: 0 <= k < l < |d.items| ==>
            FirstRecordOf(db.stocks, d.items[k].itemId) < FirstRecordOf(db.stocks, d.items[l].itemId))
  {
    GroupedFaithful(db.stocks, db.items);
  }

  /**
   * No request carries an `item` reference in a valid database, so every
   * dispatched quantity in the admin summary and every received quantity in
   * the user summary is zero.
   */
  lemma SummariesReportNothingDispatched(db: Db, actor: PublicUser)
    requires RequestsValid(db.requests)
    ensures forall k :: 0 <= k < |db.items| ==> AdminStockSummary(db, actor)[k].dispatchedQuantity == 0
    ensures UserStockSummary(db, actor).Some? ==>
              forall j :: 0 <= j < |UserStockSummary(db, actor).value| ==> UserStockSummary(db, actor).value[j].userReceivedQuantity == 0
  {
    forall k | 0 <= k < |db.items|
      ensures AdminStockSummary(db, actor)[k].dispatchedQuantity == 0
    {
      SumOfZero(db.requests, DispatchedToBranch(db.items[k].id, actor.branch));
    }
    var here := Filter(db.stocks, AtBranchOf(actor.branch));
    forall j | 0 <= j < |here|
      ensures SumOf(db.requests, ReceivedBy(actor.id, here[j].item)) == 0
    {
      SumOfZero(db.requests, ReceivedBy(actor.id, here[j].item));
    }
  }

  /** Each admin row's available quantity is that of the first record of the item at the branch, or 0 when there is none. */
  lemma AdminAvailableIsFirstBranchRecord(db: Db, actor: PublicUser, k: nat)
    requires k < |db.items|
    ensures var row := AdminStockSummary(db, actor)[k];
      && (FindBranchStock(db.stocks, db.items[k].id, actor.branch).None? ==> row.availableQuantity == 0)
      && (forall j :: 0 <= j < |db.stocks| && AtBranch(db.stocks[j], db.items[k].id, actor.branch)
            && (forall i :: 0 <= i < j ==> !AtBranch(db.stocks[i], db.items[k].id, actor.branch))
            ==> row.availableQuantity == db.stocks[j].quantity)
  {
    var f := FindBranchStock(db.stocks, db.items[k].id, actor.branch);
    if f.Some? {
      forall j | 0 <= j < |db.stocks| && AtBranch(db.stocks[j], db.items[k].id, actor.branch)
          && (forall i :: 0 <= i < j ==> !AtBranch(db.stocks[i], db.items[k].id, actor.branch))
        ensures j == f.value
      {
      }
    }
  }

  /**
   * The user summary has one row per record at the branch, showing that record's own quantity;
   * the rows' records are exactly the database's records at that branch.
   */
  lemma UserRowsFollowRecords(db: Db, actor: PublicUser)
    requires UserStockSummary(db, actor).Some?
    ensures var rows := UserStockSummary(db, actor).value;
      var here := Filter(db.stocks, AtBranchOf(actor.branch));
      && |rows| == |here|
      && (forall j :: 0 <= j < |rows| ==>
           && here[j].branch == Some(actor.branch)
           && rows[j].availableQuantity == here[j].quantity
           && rows[j].itemName == db.items[FindItemById(db.items, here[j].item).value].name)
      && (forall j :: 0 <= j < |here| ==> here[j] in db.stocks)
      && (forall i :: 0 <= i < |db.stocks| && db.stocks[i].branch == Some(actor.branch) ==> db.stocks[i] in here)
  {
    var here := Filter(db.stocks, AtBranchOf(actor.branch));
    assert forall j :: 0 <= j < |here| ==> AtBranchOf(actor.branch)(here[j]);
    assert forall i :: 0 <= i < |db.stocks| && db.stocks[i].branch == Some(actor.branch) ==> AtBranchOf(actor.branch)(db.stocks[i]);
  }
}

=== FILE: stock_rules.dfy ===
/**
 * The stock handlers of controllers/stockController.js on a database value:
 * adding stock at the caller's branch, and the dashboard, admin, user and
 * user-list summaries.
 */
module StockRules {
  import opened Wrappers
  import opened Mongo
  import opened Seqs
  import opened Ledger
  import opened Requests
  import opened Users
  import opened Store

  /** The stock handlers' error responses. */
  datatype StockError = MissingFields | Forbidden | ServerError

  function StockHttpStatus(e: StockError): nat {
    match e
    case MissingFields => 400
    case Forbidden => 403
    case ServerError => 500
  }

  /** The body of a stock-add call; None is a field that was not sent. */
  datatype StockForm = StockForm(itemName: Option<string>, description: Option<string>, category: Option<string>, quantity: Option<int>)

  /** The only input check: `!itemName || quantity == null` rejects, so zero and negative quantities pass. */
  predicate StockInputPresent(form: StockForm) {
    Present(form.itemName) && form.quantity.Some?
  }

  /** The item created when no item has the exact name. */
  function NewItem(id: Id, name: string, description: Option<string>, category: Option<string>): (r: Item)
    ensures r.id == id && r.name == name && r.rate.None? && r.stock == []
    ensures r.description == Some(if Present(description) then description.value else "No description provided")
    ensures r.category == Some(if Present(category) then category.value else "Uncategorized")
  {
    Item(id, name,
         Some(if Present(description) then description.value else "No description provided"),
         Some(if Present(category) then category.value else "Uncategorized"),
         None, [])
  }

  /** Whether the existing item's metadata differs from a supplied, non-empty value, so that it is rewritten and saved. */
  predicate Changes(supplied: Option<string>, stored: Option<string>) {
    Present(supplied) && supplied != stored
  }

  /** An existing item after the metadata update: each field is replaced only when supplied, non-empty and different. */
  function Refreshed(item: Item, description: Option<string>, category: Option<string>): (r: Item)
    ensures r.id == item.id && r.name == item.name && r.rate == item.rate && r.stock == item.stock
    ensures r.description == (if Present(description) then description else item.description)
    ensures r.category == (if Present(category) then category else item.category)
    ensures !Changes(description, item.description) && !Changes(category, item.category) ==> r == item
  {
    var described := if Changes(description, item.description) then item.(description := description) else item;
    if Changes(category, item.category) then described.(category := category) else described
  }

  /** The record created for an `(item, branch)` pair with none: only `item`, `branch` and `quantity` are set. */
  function BranchRecord(item: Id, branch: string, quantity: int): StockRecord {
    StockRecord(item, Some(branch), None, None, quantity, None, None)
  }

  /** The stock-add response: the item and the stock record as saved. */
  datatype StockOutcome = StockOutcome(item: Item, stock: StockRecord)

  /** The item the stock is added to: the one with the exact name, refreshed, or a new one. */
  function TargetItem(items: seq<Item>, form: StockForm, newItemId: Id): Item
    requires Present(form.itemName)
  {
    match FindItemNamed(items, form.itemName.value)
    case Some(k) => Refreshed(items[k], form.description, form.category)
    case None => NewItem(newItemId, form.itemName.value, form.description, form.category)
  }

  /**
   * `createOrUpdateStock`: find or create the item by exact name, then add the
   * quantity to the first `(item, branch)` record, or create that record.
   */
  function AddStock(db: Db, actor: PublicUser, form: StockForm, newItemId: Id): (out: (Result<StockOutcome, StockError>, Db))
    ensures out.0.Err? <==> !StockInputPresent(form)
    ensures out.0.Err? ==> out.0.error == MissingFields && out.1 == db
    ensures out.1.users == db.users && out.1.requests == db.requests
    ensures out.0.Ok? ==>
      && out.0.value.item.name == form.itemName.value
      && out.0.value.stock.item == out.0.value.item.id
      && out.0.value.stock.branch == Some(actor.branch)
    ensures out.0.Ok? ==>
      match FindItemNamed(db.items, form.itemName.value)
      case Some(k) =>
        && out.1.items == db.items[k := out.0.value.item] && out.0.value.item.id == db.items[k].id
        && out.0.value.item == Refreshed(db.items[k], form.description, form.category)
      case None =>
        && out.1.items == db.items + [out.0.value.item] && out.0.value.item.id == newItemId
        && out.0.value.item == NewItem(newItemId, form.itemName.value, form.description, form.category)
    ensures out.0.Ok? ==>
      match FindBranchStock(db.stocks, out.0.value.item.id, actor.branch)
      case Some(j) =>
        && out.1.stocks == db.stocks[j := out.0.value.stock]
        && out.0.value.stock == db.stocks[j].(quantity := db.stocks[j].quantity + form.quantity.value)
      case None =>
        && out.1.stocks == db.stocks + [out.0.value.stock]
        && out.0.value.stock == BranchRecord(out.0.value.item.id, actor.branch, form.quantity.value)
  {
    if !StockInputPresent(form) then (Err(MissingFields), db)
    else
      var q := form.quantity.value;
      var item := TargetItem(db.items, form, newItemId);
      var items := match FindItemNamed(db.items, form.itemName.value)
        case Some(k) => db.items[k := item]
        case None => db.items + [item];
      match FindBranchStock(db.stocks, item.id, actor.branch)
      case Some(j) =>
        var stock := db.stocks[j].(quantity := db.stocks[j].quantity + q);
        (Ok(StockOutcome(item, stock)), db.(items := items, stocks := db.stocks[j := stock]))
      case None =>
        var stock := BranchRecord(item.id, actor.branch, q);
        (Ok(StockOutcome(item, stock)), db.(items := items, stocks := db.stocks + [stock]))
  }

  // ---- getDashboardSummary ----

  /** One element of a summary's `branches` list. */
  datatype BranchQuantity = BranchQuantity(branch: Option<string>, quantity: int)

  /** One value of `itemMap`, with the key it is filed under. */
  datatype ItemSummary = ItemSummary(itemId: Id, name: string, totalQuantity: int, branches: seq<BranchQuantity>)

  function SummaryTotal(s: ItemSummary): int {
    s.totalQuantity
  }

  function FindSummary(g: seq<ItemSummary>, item: Id): (r: Option<nat>)
    ensures r.Some? ==> r.value < |g| && g[r.value].itemId == item
    ensures r.None? ==> forall k :: 0 <= k < |g| ==> g[k].itemId != item
  {
    FindFirst(g, (s: ItemSummary) => s.itemId == item)
  }

  /** One iteration of the grouping loop: add the record to its item's entry, creating the entry on first sight. */
  function AddToGroup(g: seq<ItemSummary>, x: StockRecord, name: string): seq<ItemSummary> {
    match FindSummary(g, x.item)
    case Some(k) =>
      g[k := g[k].(totalQuantity := g[k].totalQuantity + x.quantity,
                   branches := g[k].branches + [BranchQuantity(x.branch, x.quantity)])]
    case None => g + [ItemSummary(x.item, name, x.quantity, [BranchQuantity(x.branch, x.quantity)])]
  }

  /** A record whose item already has an entry is added to that entry. */
  lemma AddToGroupFound(g: seq<ItemSummary>, x: StockRecord, name: string, l: nat)
    requires FindSummary(g, x.item) == Some(l)
    ensures AddToGroup(g, x, name) ==
      g[l := g[l].(totalQuantity := g[l].totalQuantity + x.quantity, branches := g[l].branches + [BranchQuantity(x.branch, x.quantity)])]
  {
  }

  /** A record whose item has no entry yet opens one. */
  lemma AddToGroupNew(g: seq<ItemSummary>, x: StockRecord, name: string)
    requires FindSummary(g, x.item).None?
    ensures AddToGroup(g, x, name) == g + [ItemSummary(x.item, name, x.quantity, [BranchQuantity(x.branch, x.quantity)])]
  {
  }

  /**
   * The grouping loop over all stock records in order, with `populate('item')`;
   * None when a record's item is missing, where `stock.item._id` throws.
   */
  function Grouped(stocks: seq<StockRecord>, items: seq<Item>): Option<seq<ItemSummary>>
    decreases |stocks|
  {
    if stocks == [] then Some([])
    else match Grouped(stocks[..|stocks| - 1], items)
      case None => None
      case Some(g) =>
        var x := stocks[|stocks| - 1];
        match FindItemById(items, x.item)
        case None => None
        case Some(k) => Some(AddToGroup(g, x, items[k].name))
  }

  /** The `(branch, quantity)` pairs of the records of one item, in record order. */
  function BranchesOf(stocks: seq<StockRecord>, item: Id): seq<BranchQuantity>
    decreases |stocks|
  {
    if stocks == [] then []
    else
      var x := stocks[|stocks| - 1];
      BranchesOf(stocks[..|stocks| - 1], item) + (if x.item == item then [BranchQuantity(x.branch, x.quantity)] else [])
  }

  /** Requests created since the start of the month, and those among them in one status. */
  function CreatedSince(monthStart: int): Request -> bool {
    (r: Request) => r.createdAt >= monthStart
  }

  function CreatedSinceIn(monthStart: int, status: Status): Request -> bool {
    (r: Request) => r.status == status && r.createdAt >= monthStart
  }

  datatype RequestStats = RequestStats(total: nat, approved: nat, dispatched: nat, pending: nat)

  datatype DashboardSummary = DashboardSummary(totalItems: nat, totalQuantity: int, items: seq<ItemSummary>, requests: RequestStats)

  /** The month's request counts; `monthStart` is the first instant of the current month. */
  function MonthStats(requests: seq<Request>, monthStart: int): (r: RequestStats)
    ensures r.approved <= r.total && r.dispatched <= r.total && r.pending <= r.total
  {
    CountWithin(requests, CreatedSinceIn(monthStart, Approved), CreatedSince(monthStart));
    CountWithin(requests, CreatedSinceIn(monthStart, Dispatched), CreatedSince(monthStart));
    CountWithin(requests, CreatedSinceIn(monthStart, Requested), CreatedSince(monthStart));
    RequestStats(Count(requests, CreatedSince(monthStart)),
                 Count(requests, CreatedSinceIn(monthStart, Approved)),
                 Count(requests, CreatedSinceIn(monthStart, Dispatched)),
                 Count(requests, CreatedSinceIn(monthStart, Requested)))
  }

  /** `getDashboardSummary`: admin only; the grouped stock, the overall total and this month's request counts. */
  function Dashboard(db: Db, actor: PublicUser, monthStart: int): Result<DashboardSummary, StockError> {
    if actor.role != "admin" then Err(Forbidden)
    else match Grouped(db.stocks, db.items)
      case None => Err(ServerError)
      case Some(g) =>
        Ok(DashboardSummary(|db.items|, SumOf(g, SummaryTotal), g, MonthStats(db.requests, monthStart)))
  }

  // ---- getAdminStockSummary and getUserStockSummary ----

  /** A dispatched request to `branch` whose `item` reference is `item` contributes its quantity. */
  function DispatchedToBranch(item: Id, branch: string): Request -> int {
    (r: Request) => if r.status == Dispatched && r.deliveryAddress == branch && r.item == Some(item) then r.quantity else 0
  }

  datatype AdminRow = AdminRow(itemName: string, category: Option<string>, description: Option<string>,
                               availableQuantity: int, dispatchedQuantity: int)

  /** The quantity of the first record of `item` at `branch`, or 0. */
  function Available(stocks: seq<StockRecord>, item: Id, branch: string): int {
    match FindBranchStock(stocks, item, branch)
    case Some(j) => stocks[j].quantity
    case None => 0
  }

  /** `getAdminStockSummary` for the caller's branch: one row per item. */
  function AdminStockSummary(db: Db, actor: PublicUser): (rows: seq<AdminRow>)
    ensures |rows| == |db.items|
    ensures forall k :: 0 <= k < |rows| ==>
              && rows[k].itemName == db.items[k].name
              && rows[k].category == db.items[k].category
              && rows[k].description == db.items[k].description
  {
    seq(|db.items|, k requires 0 <= k < |db.items| =>
      AdminRow(db.items[k].name, db.items[k].category, db.items[k].description,
               Available(db.stocks, db.items[k].id, actor.branch),
               SumOf(db.requests, DispatchedToBranch(db.items[k].id, actor.branch))))
  }

  /** One of the caller's own dispatched requests whose `item` reference is `item` contributes its quantity. */
  function ReceivedBy(user: Id, item: Id): Request -> int {
    (r: Request) => if r.user == user && r.status == Dispatched && r.item == Some(item) then r.quantity else 0
  }

  function AtBranchOf(branch: string): StockRecord -> bool {
    (s: StockRecord) => s.branch == Some(branch)
  }

  datatype UserRow = UserRow(itemName: string, category: Option<string>, description: Option<string>,
                             availableQuantity: int, userReceivedQuantity: int)

  /** Whether every record's item can be populated. */
  predicate ItemsPopulate(stocks: seq<StockRecord>, items: seq<Item>) {
    forall j :: 0 <= j < |stocks| ==> FindItemById(items, stocks[j].item).Some?
  }

  /**
   * `getUserStockSummary` for the caller's branch: one row per record at the
   * branch; None when a record's item is missing, where `item.name` throws.
   */
  function UserStockSummary(db: Db, actor: PublicUser): (rows: Option<seq<UserRow>>)
    ensures rows.Some? <==> ItemsPopulate(Filter(db.stocks, AtBranchOf(actor.branch)), db.items)
    ensures rows.Some? ==> |rows.value| == Count(db.stocks, AtBranchOf(actor.branch))
  {
    var here := Filter(db.stocks, AtBranchOf(actor.branch));
    if !ItemsPopulate(here, db.items) then None
    else Some(seq(|here|, j requires 0 <= j < |here| =>
      var item := db.items[FindItemById(db.items, here[j].item).value];
      UserRow(item.name, item.category, item.description, here[j].quantity,
              SumOf(db.requests, ReceivedBy(actor.id, here[j].item)))))
  }

  // ---- getAllUsers ----

  datatype UserList = UserList(totalUsers: nat, users: seq<PublicUser>)

  /** `getAllUsers` of the stock controller: admin only; every user without the password, and their number. */
  function AllUsers(db: Db, actor: PublicUser): (r: Result<UserList, StockError>)
    ensures r.Ok? <==> actor.role == "admin"
    ensures r.Err? ==> r.error == Forbidden
    ensures r.Ok? ==> r.value.totalUsers == |r.value.users| == |db.users|
    ensures r.Ok? ==> forall k :: 0 <= k < |db.users| ==> r.value.users[k] == View(db.users[k])
  {
    if actor.role != "admin" then Err(Forbidden)
    else Ok(UserList(|db.users|, seq(|db.users|, k requires 0 <= k < |db.users| => View(db.users[k]))))
  }
}

=== FILE: store.dfy ===
/**
 * The database the handlers read and write: the four collections, as a value
 * (`Db`, what the pure transition functions take and return) and as a mutable
 * object (`Database`, what the handlers update in place).
 */
module Store {
  import opened Wrappers
  import opened Mongo
  import opened Seqs
  import opened Ledger
  import opened Requests
  import opened Users

  datatype Db = Db(users: seq<User>, items: seq<Item>, stocks: seq<StockRecord>, requests: seq<Request>)

  /** Item ids are unique, and so are exact item names (both creation paths look the name up first). */
  predicate ItemsValid(items: seq<Item>) {
    && (forall i, j :: 0 <= i < |items| && 0 <= j < |items| && i != j ==> items[i].id != items[j].id)
    && (forall i, j :: 0 <= i < |items| && 0 <= j < |items| && i != j ==> items[i].name != items[j].name)
  }

  /** Every stock record refers to an existing item, so `populate('item')` never yields null. */
  predicate StocksReferToItems(stocks: seq<StockRecord>, items: seq<Item>) {
    forall k :: 0 <= k < |stocks| ==> exists j :: 0 <= j < |items| && items[j].id == stocks[k].item
  }

  /** The stock schema has no `timestamps` option, so no stock record carries a creation time. */
  predicate StocksUntimed(stocks: seq<StockRecord>) {
    forall k :: 0 <= k < |stocks| ==> stocks[k].createdAt.None?
  }

  /**
   * Every request meets the schema and the lifecycle, ids and tokens are unique,
   * and no request carries an `item` reference (nothing in the handlers sets one).
   */
  ghost predicate RequestsValid(requests: seq<Request>) {
    && IdsUnique(requests)
    && TokensUnique(requests)
    && TokensWellFormed(requests)
    && (forall k :: 0 <= k < |requests| ==> SchemaValid(requests[k]) && LifecycleConsistent(requests[k]))
    && (forall k :: 0 <= k < |requests| ==> requests[k].item.None?)
  }

  ghost predicate ValidDb(db: Db) {
    && UsersValid(db.users)
    && ItemsValid(db.items)
    && StocksReferToItems(db.stocks, db.items)
    && StocksUntimed(db.stocks)
    && RequestsValid(db.requests)
  }

  /** `Request.findById(id)`. */
  function FindRequest(requests: seq<Request>, id: Id): (r: Option<nat>)
    ensures r.Some? ==> r.value < |requests| && requests[r.value].id == id
    ensures r.Some? ==> forall j :: 0 <= j < r.value ==> requests[j].id != id
    ensures r.None? ==> forall j :: 0 <= j < |requests| ==> requests[j].id != id
  {
    FindFirst(requests, (r: Request) => r.id == id)
  }

  /** Changing a request without changing its id leaves `findById` pointing at the same index. */
  lemma FindRequestUpdate(requests: seq<Request>, i: nat, x: Request, id: Id)
    requires i < |requests| && x.id == requests[i].id
    ensures FindRequest(requests[i := x], id) == FindRequest(requests, id)
  {
    assert forall j :: 0 <= j < |requests| ==> (requests[i := x][j].id == id <==> requests[j].id == id);
  }

  /** The collections, updated in place by the handlers. */
  class Database {
    var users: seq<User>
    var items: seq<Item>
    var stocks: seq<StockRecord>
    var requests: seq<Request>

    constructor (initial: Db)
      ensures Snapshot() == initial
    {
      users, items, stocks, requests := initial.users, initial.items, initial.stocks, initial.requests;
    }

    function Snapshot(): Db
      reads this
    {
      Db(users, items, stocks, requests)
    }

    ghost predicate Valid()
      reads this
    {
      ValidDb(Snapshot())
    }
  }
}

=== FILE: text.dfy ===
/**
 * The JavaScript string operations the handlers rely on: `trim`, `toLowerCase`,
 * `toUpperCase`, `slice(-n)`, `padStart`, `split`, `startsWith` and the decimal
 * rendering of a number inside a template literal.
 */
module Text {

  /** The characters `String.prototype.trim` removes (ECMAScript WhiteSpace and LineTerminator). */
  predicate IsJsSpace(c: char) {
    c == '\t' || c == '\n' || c == '\U{000B}' || c == '\U{000C}' || c == '\r' || c == ' '
    || c == '\U{00A0}' || c == '\U{1680}' || ('\U{2000}' <= c <= '\U{200A}')
    || c == '\U{2028}' || c == '\U{2029}' || c == '\U{202F}' || c == '\U{205F}'
    || c == '\U{3000}' || c == '\U{FEFF}'
  }

  function TrimStart(s: string): (r: string)
    ensures |r| <= |s| && r == s[|s| - |r|..]
    ensures r == [] || !IsJsSpace(r[0])
    ensures forall i :: 0 <= i < |s| - |r| ==> IsJsSpace(s[i])
  {
    if s != [] && IsJsSpace(s[0]) then TrimStart(s[1..]) else s
  }

  function TrimEnd(s: string): (r: string)
    ensures |r| <= |s| && r == s[..|r|]
    ensures r == [] || !IsJsSpace(r[|r| - 1])
    ensures forall i :: |r| <= i < |s| ==> IsJsSpace(s[i])
  {
    if s != [] && IsJsSpace(s[|s| - 1]) then TrimEnd(s[..|s| - 1]) else s
  }

  /** `s.trim()`: the longest infix with no leading or trailing JavaScript white space. */
  function Trim(s: string): string {
    TrimEnd(TrimStart(s))
  }

  /** A string `trim` leaves alone. */
  predicate IsTrimmed(s: string) {
    s == [] || (!IsJsSpace(s[0]) && !IsJsSpace(s[|s| - 1]))
  }

  lemma TrimIsTrimmed(s: string)
    ensures IsTrimmed(Trim(s))
  {
    var t := TrimStart(s);
    var r := TrimEnd(t);
    if r != [] {
      assert r[0] == t[0];
    }
  }

  lemma {:induction false} TrimStartOfTrimmed(s: string)
    requires s == [] || !IsJsSpace(s[0])
    ensures TrimStart(s) == s
  {
  }

  lemma {:induction false} TrimEndOfTrimmed(s: string)
    requires s == [] || !IsJsSpace(s[|s| - 1])
    ensures TrimEnd(s) == s
  {
  }

  lemma TrimOfTrimmed(s: string)
    requires IsTrimmed(s)
    ensures Trim(s) == s
  {
    TrimStartOfTrimmed(s);
    TrimEndOfTrimmed(s);
  }

  /** `toLowerCase` on one character; only the ASCII letters are mapped in this model. */
  function LowerChar(c: char): char {
    if 'A' <= c <= 'Z' then (c as int + 32) as char else c
  }

  /** `toUpperCase` on one character; only the ASCII letters are mapped in this model. */
  function UpperChar(c: char): char {
    if 'a' <= c <= 'z' then (c as int - 32) as char else c
  }

  function ToLower(s: string): (r: string)
    ensures |r| == |s|
  {
    seq(|s|, i requires 0 <= i < |s| => LowerChar(s[i]))
  }

  function ToUpper(s: string): (r: string)
    ensures |r| == |s|
  {
    seq(|s|, i requires 0 <= i < |s| => UpperChar(s[i]))
  }

  /** `s.trim().toLowerCase()`: the key under which item names and e-mail addresses are looked up. */
  function Normalize(s: string): string {
    ToLower(Trim(s))
  }

  /** A string that normalisation leaves alone: trimmed and free of upper-case ASCII letters. */
  predicate IsNormalized(s: string) {
    IsTrimmed(s) && forall i :: 0 <= i < |s| ==> !('A' <= s[i] <= 'Z')
  }

  lemma LowerOfTrimmedIsTrimmed(s: string)
    requires IsTrimmed(s)
    ensures IsTrimmed(ToLower(s))
  {
  }

  /** What normalisation produces is normalised. */
  lemma NormalizeIsNormalized(s: string)
    ensures IsNormalized(Normalize(s))
  {
    TrimIsTrimmed(s);
    LowerOfTrimmedIsTrimmed(Trim(s));
  }

  /** Normalised strings are exactly the fixed points of normalisation. */
  lemma NormalizeFixes(s: string)
    ensures Normalize(s) == s <==> IsNormalized(s)
  {
    if IsNormalized(s) {
      TrimOfTrimmed(s);
      assert ToLower(s) == s;
    } else {
      NormalizeIsNormalized(s);
    }
  }

  /** Normalising twice is normalising once. */
  lemma NormalizeIdempotent(s: string)
    ensures Normalize(Normalize(s)) == Normalize(s)
  {
    NormalizeIsNormalized(s);
    NormalizeFixes(Normalize(s));
  }

  /** `s.slice(-n)`: the last `n` characters, or all of `s` when it is shorter. */
  function Last(s: string, n: nat): (r: string)
    ensures |r| == if |s| <= n then |s| else n
    ensures r == s[|s| - |r|..]
  {
    if |s| <= n then s else s[|s| - n..]
  }

  /** `s.padStart(n, c)`. */
  function PadStart(s: string, n: nat, c: char): (r: string)
    ensures |r| == if |s| >= n then |s| else n
    ensures r[|r| - |s|..] == s
  {
    if |s| >= n then s else seq(n - |s|, _ => c) + s
  }

  predicate IsDigit(c: char) {
    '0' <= c <= '9'
  }

  function DigitChar(d: nat): (c: char)
    requires d < 10
    ensures IsDigit(c)
  {
    ('0' as int + d) as char
  }

  /** The decimal rendering `${n}` of a natural number, without leading zeros. */
  function Decimal(n: nat): (r: string)
    ensures |r| >= 1
    ensures forall i :: 0 <= i < |r| ==> IsDigit(r[i])
    ensures n >= 10 ==> |r| >= 2
  {
    if n < 10 then [DigitChar(n)] else Decimal(n / 10) + [DigitChar(n % 10)]
  }

  /** Distinct numbers render as distinct strings. */
  lemma {:induction false} DecimalInjective(a: nat, b: nat)
    requires Decimal(a) == Decimal(b)
    ensures a == b
  {
    if a >= 10 && b >= 10 {
      var da, db := Decimal(a), Decimal(b);
      assert da[..|da| - 1] == Decimal(a / 10);
      assert db[..|db| - 1] == Decimal(b / 10);
      DecimalInjective(a / 10, b / 10);
      assert da[|da| - 1] == DigitChar(a % 10);
      assert db[|db| - 1] == DigitChar(b % 10);
    }
  }

  predicate StartsWith(s: string, prefix: string) {
    |prefix| <= |s| && s[..|prefix|] == prefix
  }

  /** `s.split(sep)` with a one-character separator: empty segments are kept, and "" splits into [""]. */
  function Split(s: string, sep: char): (parts: seq<string>)
    ensures |parts| >= 1
    ensures forall k :: 0 <= k < |parts| ==> sep !in parts[k]
  {
    if s == [] then [""]
    else
      var rest := Split(s[1..], sep);
      if s[0] == sep then [""] + rest
      else [[s[0]] + rest[0]] + rest[1..]
  }

  /** `parts.join(sep)`. */
  function Join(parts: seq<string>, sep: char): string
    requires |parts| >= 1
  {
    if |parts| == 1 then parts[0] else parts[0] + [sep] + Join(parts[1..], sep)
  }

  /** Splitting loses nothing: joining the segments back gives the original string. */
  lemma {:induction false} JoinSplit(s: string, sep: char)
    ensures Join(Split(s, sep), sep) == s
  {
    if s != [] {
      var rest := Split(s[1..], sep);
      JoinSplit(s[1..], sep);
      if s[0] == sep {
        assert Split(s, sep)[1..] == rest;
      } else {
        var parts := Split(s, sep);
        if |rest| == 1 {
          assert parts == [[s[0]] + rest[0]];
        } else {
          assert parts[1..] == rest[1..];
          assert Join(rest, sep) == rest[0] + [sep] + Join(rest[1..], sep);
        }
      }
    }
  }

  /** The segments of `s` after its first separator are the segments of what follows it. */
  lemma {:induction false} SplitAfterSeparator(pre: string, sep: char, post: string)
    requires sep !in pre
    ensures Split(pre + [sep] + post, sep) == [pre] + Split(post, sep)
    decreases |pre|
  {
    var s := pre + [sep] + post;
    if pre == [] {
      assert s[1..] == post;
    } else {
      assert s[1..] == pre[1..] + [sep] + post;
      SplitAfterSeparator(pre[1..], sep, post);
      var rest := Split(s[1..], sep);
      assert rest[0] == pre[1..] && rest[1..] == Split(post, sep);
      assert [s[0]] + rest[0] == pre;
    }
  }

  /** The first segment of a string: everything before the first separator. */
  lemma {:induction false} SplitFirst(s: string, sep: char, i: nat)
    requires i <= |s|
    requires sep !in s[..i]
    requires i == |s| || s[i] == sep
    ensures Split(s, sep)[0] == s[..i]
  {
    if i < |s| {
      assert s == s[..i] + [sep] + s[i + 1..];
      SplitAfterSeparator(s[..i], sep, s[i + 1..]);
    } else {
      SplitNoSeparator(s, sep);
    }
  }

  /** A string without the separator is a single segment. */
  lemma {:induction false} SplitNoSeparator(s: string, sep: char)
    requires sep !in s
    ensures Split(s, sep) == [s]
  {
    if s != [] {
      SplitNoSeparator(s[1..], sep);
      assert [s[0]] + s[1..] == s;
    }
  }
}

=== FILE: user_controller.dfy ===
/**
 * The user-management handlers of controllers/userController.js: listing
 * every user without the password, updating a user with the name, e-mail
 * address and password stripped from the body, and deleting a user by id.
 */
module UserController {
  import opened Wrappers
  import opened Mongo
  import opened Text
  import opened Users
  import opened Store

  /** A request body of `updateUser`; None is a field that was not sent. */
  datatype UserPatch = UserPatch(
    name: Option<string>,
    email: Option<string>,
    password: Option<string>,
    phone: Option<string>,
    location: Option<string>,
    branch: Option<string>,
    role: Option<string>,
    isVerified: Option<bool>)

  /** What is left for `$set` once name, e-mail address and password are taken out of the body. */
  datatype Updatable = Updatable(
    phone: Option<string>,
    location: Option<string>,
    branch: Option<string>,
    role: Option<string>,
    isVerified: Option<bool>)

  datatype UserError = UserNotFound | UpdateFailed

  function UserHttpStatus(e: UserError): nat {
    match e
    case UserNotFound => 404
    case UpdateFailed => 500
  }

  /** The rest-destructuring of the body. */
  function Strip(p: UserPatch): Updatable {
    Updatable(p.phone, p.location, p.branch, p.role, p.isVerified)
  }

  /**
   * `runValidators: true` on a `$set`: a supplied role must be in the enum,
   * and a supplied phone or location must not be empty (they are required).
   */
  predicate UpdateValid(d: Updatable) {
    && (d.role.None? || ValidRole(d.role.value))
    && (d.phone.None? || d.phone.value != "")
    && (d.location.None? || d.location.value != "")
  }

  /** `$set`: every supplied field overwrites the stored one. */
  function Apply(u: User, d: Updatable): User {
    u.(phone := if d.phone.Some? then d.phone.value else u.phone,
       location := if d.location.Some? then d.location.value else u.location,
       branch := if d.branch.Some? then d.branch.value else u.branch,
       role := if d.role.Some? then d.role.value else u.role,
       isVerified := if d.isVerified.Some? then d.isVerified.value else u.isVerified)
  }

  // ---- getAllUsers ----

  /** `User.find().select('-password')`: every user, in order, without the password. */
  function ListUsers(users: seq<User>): (r: seq<PublicUser>)
    ensures |r| == |users|
    ensures forall k :: 0 <= k < |users| ==> r[k] == View(users[k])
  {
    if users == [] then [] else [View(users[0])] + ListUsers(users[1..])
  }

  /** The listing does not depend on the passwords: two tables that differ only there list alike. */
  lemma {:induction false} ListingIgnoresPasswords(users: seq<User>, others: seq<User>)
    requires |users| == |others|
    requires forall k :: 0 <= k < |users| ==> others[k] == users[k].(password := others[k].password)
    ensures ListUsers(users) == ListUsers(others)
  {
    if users != [] {
      ListingIgnoresPasswords(users[1..], others[1..]);
    }
  }

  // ---- updateUser ----

  /**
   * `updateUser`: the validators reject the stripped body first (500), an
   * unknown id gives 404, and otherwise the identified user is updated and
   * returned without the password. Nothing changes on an error.
   */
  function UpdateUser(users: seq<User>, id: Id, patch: UserPatch): (out: (Result<PublicUser, UserError>, seq<User>))
    ensures out.0 == Err(UpdateFailed) <==> !UpdateValid(Strip(patch))
    ensures out.0 == Err(UserNotFound) <==> UpdateValid(Strip(patch)) && FindUser(users, id).None?
    ensures out.0.Err? ==> out.1 == users
    ensures out.0.Ok? ==>
      && FindUser(users, id).Some?
      && var k := FindUser(users, id).value;
      && out.1 == users[k := Apply(users[k], Strip(patch))]
      && out.0.value == View(out.1[k])
  {
    var d := Strip(patch);
    if !UpdateValid(d) then (Err(UpdateFailed), users)
    else match FindUser(users, id)
      case None => (Err(UserNotFound), users)
      case Some(k) =>
        var u := Apply(users[k], d);
        (Ok(View(u)), users[k := u])
  }

  /** No update changes any user's id, name, e-mail address, password or creation time, whatever the body holds. */
  lemma UpdateKeepsProtectedFields(users: seq<User>, id: Id, patch: UserPatch)
    ensures var after := UpdateUser(users, id, patch).1;
      && |after| == |users|
      && forall j :: 0 <= j < |users| ==>
           && after[j].id == users[j].id
           && after[j].name == users[j].name
           && after[j].email == users[j].email
           && after[j].password == users[j].password
           && after[j].createdAt == users[j].createdAt
  {
  }

  /** The body's name, e-mail address and password never matter: bodies that differ only there act alike. */
  lemma UpdateIgnoresStrippedFields(users: seq<User>, id: Id, patch: UserPatch, name: Option<string>, email: Option<string>, password: Option<string>)
    ensures UpdateUser(users, id, patch) == UpdateUser(users, id, patch.(name := name, email := email, password := password))
  {
    assert Strip(patch) == Strip(patch.(name := name, email := email, password := password));
  }

  /** On success the supplied fields hold the sent values, the others their old ones, and no other user changes. */
  lemma UpdateOverwritesSuppliedFields(users: seq<User>, id: Id, patch: UserPatch)
    requires UpdateUser(users, id, patch).0.Ok?
    ensures var after := UpdateUser(users, id, patch).1;
      var k := FindUser(users, id).value;
      && after[k].phone == (if patch.phone.Some? then patch.phone.value else users[k].phone)
      && after[k].location == (if patch.location.Some? then patch.location.value else users[k].location)
      && after[k].branch == (if patch.branch.Some? then patch.branch.value else users[k].branch)
      && after[k].role == (if patch.role.Some? then patch.role.value else users[k].role)
      && after[k].isVerified == (if patch.isVerified.Some? then patch.isVerified.value else users[k].isVerified)
      && forall j :: 0 <= j < |users| && j != k ==> after[j] == users[j]
  {
  }

  /** Sending the same body twice changes nothing the first call did not. */
  lemma UpdateIdempotent(users: seq<User>, id: Id, patch: UserPatch)
    ensures var once := UpdateUser(users, id, patch);
      UpdateUser(once.1, id, patch) == once
  {
    var d := Strip(patch);
    if UpdateValid(d) && FindUser(users, id).Some? {
      var k := FindUser(users, id).value;
      var u := Apply(users[k], d);
      var after := users[k := u];
      assert Apply(u, d) == u;
      SameIdsSameFind(users, after, id);
      assert after[k := Apply(after[k], d)] == after;
    }
  }

  /** `findById` depends only on the ids. */
  lemma SameIdsSameFind(users: seq<User>, others: seq<User>, id: Id)
    requires |users| == |others|
    requires forall j :: 0 <= j < |users| ==> others[j].id == users[j].id
    ensures FindUser(others, id) == FindUser(users, id)
  {
    assert forall j :: 0 <= j < |users| ==> (others[j].id == id <==> users[j].id == id);
  }

  /** A table that keeps every id, e-mail address and role of a valid one, with roles from the enum, is valid. */
  lemma SameKeysStayValid(users: seq<User>, others: seq<User>)
    requires UsersValid(users)
    requires |users| == |others|
    requires forall j :: 0 <= j < |users| ==> others[j].id == users[j].id && others[j].email == users[j].email
    requires forall j :: 0 <= j < |users| ==> ValidRole(others[j].role)
    ensures UsersValid(others)
  {
  }

  /** An update that passes the validators keeps the user table valid. */
  lemma UpdateKeepsUsersValid(users: seq<User>, id: Id, patch: UserPatch)
    requires UsersValid(users)
    ensures UsersValid(UpdateUser(users, id, patch).1)
  {
    var d := Strip(patch);
    if UpdateValid(d) && FindUser(users, id).Some? {
      var k := FindUser(users, id).value;
      var after := users[k := Apply(users[k], d)];
      assert ValidRole(after[k].role);
      SameKeysStayValid(users, after);
    }
  }

  // ---- deleteUser ----

  /** `deleteUser`: an unknown id gives 404 with no change; otherwise exactly that user is removed. */
  function DeleteUser(users: seq<User>, id: Id): (out: (Result<(), UserError>, seq<User>))
    ensures out.0.Err? <==> FindUser(users, id).None?
    ensures out.0.Err? ==> out.0.error == UserNotFound && out.1 == users
    ensures out.0.Ok? ==>
      var k := FindUser(users, id).value;
      out.1 == users[..k] + users[k + 1..]
  {
    match FindUser(users, id)
    case None => (Err(UserNotFound), users)
    case Some(k) => (Ok(()), users[..k] + users[k + 1..])
  }

  /** Removing the entry at `k` keeps every other entry, in order. */
  lemma RemovedAt(users: seq<User>, k: nat)
    requires k < |users|
    ensures var after := users[..k] + users[k + 1..];
      && |after| == |users| - 1
      && forall j :: 0 <= j < |after| ==> after[j] == users[if j < k then j else j + 1]
  {
  }

  /** In a valid table a deletion leaves every other user, in order, and no user with that id. */
  lemma DeleteRemovesExactly(users: seq<User>, id: Id)
    requires UsersValid(users)
    ensures var after := DeleteUser(users, id).1;
      && (forall j :: 0 <= j < |after| ==> after[j].id != id)
      && (forall j :: 0 <= j < |users| && users[j].id != id ==> users[j] in after)
      && (DeleteUser(users, id).0.Ok? ==> |after| == |users| - 1)
  {
    var f := FindUser(users, id);
    if f.Some? {
      var k := f.value;
      var after := users[..k] + users[k + 1..];
      RemovedAt(users, k);
      forall j | 0 <= j < |after|
        ensures after[j].id != id
      {
        var i := if j < k then j else j + 1;
        assert after[j] == users[i] && i != k;
      }
      forall j | 0 <= j < |users| && users[j].id != id
        ensures users[j] in after
      {
        if j < k {
          assert after[j] == users[j];
        } else {
          assert after[j - 1] == users[j];
        }
      }
    }
  }

  /** Deleting a user keeps the user table valid. */
  lemma DeleteKeepsUsersValid(users: seq<User>, id: Id)
    requires UsersValid(users)
    ensures UsersValid(DeleteUser(users, id).1)
  {
    var f := FindUser(users, id);
    if f.Some? {
      RemovedKeepsValid(users, f.value);
    }
  }

  /** Removing one entry of a valid table leaves a valid table. */
  lemma RemovedKeepsValid(users: seq<User>, k: nat)
    requires UsersValid(users)
    requires k < |users|
    ensures UsersValid(users[..k] + users[k + 1..])
  {
    var after := users[..k] + users[k + 1..];
    RemovedAt(users, k);
    forall j | 0 <= j < |after|
      ensures after[j] in users
    {
      assert after[j] == users[if j < k then j else j + 1];
    }
    forall i, j | 0 <= i < |after| && 0 <= j < |after| && i != j
      ensures after[i].id != after[j].id && after[i].email != after[j].email
    {
      var i', j' := if i < k then i else i + 1, if j < k then j else j + 1;
      assert after[i] == users[i'] && after[j] == users[j'] && i' != j';
    }
  }

  // ---- the handlers on the database object ----

  /** `updateUser` on the database: the user table changes as `UpdateUser` says, nothing else does. */
  method UpdateUserHandler(db: Database, id: Id, patch: UserPatch) returns (res: Result<PublicUser, UserError>)
    requires db.Valid()
    modifies db
    ensures (res, db.users) == UpdateUser(old(db.users), id, patch)
    ensures db.items == old(db.items) && db.stocks == old(db.stocks) && db.requests == old(db.requests)
    ensures db.Valid()
  {
    ghost var before := db.Snapshot();
    UpdateKeepsUsersValid(db.users, id, patch);
    var updatable := Strip(patch);
    if !UpdateValid(updatable) {
      return Err(UpdateFailed);
    }
    var found := FindUser(db.users, id);
    if found.None? {
      return Err(UserNotFound);
    }
    var k := found.value;
    var user := Apply(db.users[k], updatable);
    db.users := db.users[k := user];
    assert db.Snapshot() == before.(users := db.users);
    res := Ok(View(user));
  }

  /** `deleteUser` on the database: the user table changes as `DeleteUser` says, nothing else does. */
  method DeleteUserHandler(db: Database, id: Id) returns (res: Result<(), UserError>)
    requires db.Valid()
    modifies db
    ensures (res, db.users) == DeleteUser(old(db.users), id)
    ensures db.items == old(db.items) && db.stocks == old(db.stocks) && db.requests == old(db.requests)
    ensures db.Valid()
  {
    ghost var before := db.Snapshot();
    DeleteKeepsUsersValid(db.users, id);
    var found := FindUser(db.users, id);
    if found.None? {
      return Err(UserNotFound);
    }
    var k := found.value;
    db.users := db.users[..k] + db.users[k + 1..];
    assert db.Snapshot() == before.(users := db.users);
    res := Ok(());
  }
}

=== FILE: users.dfy ===
/**
 * The User document (model/user.js) as the controllers use it, and the
 * password-free view that `select('-password')` returns.
 */
module Users {
  import opened Wrappers
  import opened Mongo
  import opened Seqs
  import opened Text

  /**
   * A stored user. `password` holds whatever hash was stored. `branch` is
   * written by registration and read by the stock handlers.
   */
  datatype User = User(
    id: Id,
    name: string,
    email: string,
    phone: string,
    location: string,
    branch: string,
    password: string,
    role: string,
    isVerified: bool,
    createdAt: int)

  /** A user as returned to clients and stored on `req.user`: every field except the password. */
  datatype PublicUser = PublicUser(
    id: Id,
    name: string,
    email: string,
    phone: string,
    location: string,
    branch: string,
    role: string,
    isVerified: bool,
    createdAt: int)

  /** The projection `select('-password')`. */
  function View(u: User): PublicUser {
    PublicUser(u.id, u.name, u.email, u.phone, u.location, u.branch, u.role, u.isVerified, u.createdAt)
  }

  /** The schema's `role` enum. */
  predicate ValidRole(role: string) {
    role == "admin" || role == "user"
  }

  /** `User.findById(id)`. */
  function FindUser(users: seq<User>, id: Id): (r: Option<nat>)
    ensures r.Some? ==> r.value < |users| && users[r.value].id == id
    ensures r.Some? ==> forall j :: 0 <= j < r.value ==> users[j].id != id
    ensures r.None? ==> forall j :: 0 <= j < |users| ==> users[j].id != id
  {
    FindFirst(users, (u: User) => u.id == id)
  }

  /** `User.findOne({ email })`: exact match on the stored, already normalised address. */
  function FindUserByEmail(users: seq<User>, email: string): (r: Option<nat>)
    ensures r.Some? ==> r.value < |users| && users[r.value].email == email
    ensures r.Some? ==> forall j :: 0 <= j < r.value ==> users[j].email != email
    ensures r.None? ==> forall j :: 0 <= j < |users| ==> users[j].email != email
  {
    FindFirst(users, (u: User) => u.email == email)
  }

  /**
   * What the user collection always satisfies: unique ids, unique e-mail
   * addresses stored trimmed and lower-cased and never empty, and roles from the enum.
   */
  predicate UsersValid(users: seq<User>) {
    && (forall i, j :: 0 <= i < |users| && 0 <= j < |users| && i != j ==> users[i].id != users[j].id)
    && (forall i, j :: 0 <= i < |users| && 0 <= j < |users| && i != j ==> users[i].email != users[j].email)
    && (forall i :: 0 <= i < |users| ==> users[i].email != "" && Normalize(users[i].email) == users[i].email)
    && (forall i :: 0 <= i < |users| ==> ValidRole(users[i].role))
  }
}

=== FILE: wrappers.dfy ===
/** Option and Result, the shapes used for missing documents and for handler outcomes. */
module Wrappers {

  datatype Option<+T> = None | Some(value: T)

  datatype Result<+T, +E> = Ok(value: T) | Err(error: E)

  /** JavaScript truthiness of an optional string body field: absent, null and "" are falsy. */
  predicate Present(o: Option<string>) {
    o.Some? && o.value != ""
  }
}

/** Lookups over in-memory collections: the model's stand-in for Mongo `findOne`, `find` and `Array.find`. */
module Seqs {
  import opened Wrappers

  /** Index of the first element satisfying `p`, or None: `findOne` in natural order. */
  function FindFirst<T>(s: seq<T>, p: T -> bool): (r: Option<nat>)
    ensures r.Some? ==> r.value < |s| && p(s[r.value])
    ensures r.Some? ==> forall j :: 0 <= j < r.value ==> !p(s[j])
    ensures r.None? ==> forall j :: 0 <= j < |s| ==> !p(s[j])
  {
    if s == [] then None
    else if p(s[0]) then Some(0)
    else match FindFirst(s[1..], p)
      case None => None
      case Some(k) => Some(k + 1)
  }

  /** Replacing an element by one that `p` judges the same way does not move the first match. */
  lemma {:induction false} FindFirstUpdate<T>(s: seq<T>, i: nat, x: T, p: T -> bool)
    requires i < |s| && p(x) == p(s[i])
    ensures FindFirst(s[i := x], p) == FindFirst(s, p)
  {
    var t := s[i := x];
    if i == 0 {
      assert t[1..] == s[1..];
    } else {
      assert t[0] == s[0];
      assert t[1..] == s[1..][i - 1 := x];
      FindFirstUpdate(s[1..], i - 1, x, p);
    }
  }

  /** Number of elements satisfying `p`: `countDocuments` with a filter. */
  function Count<T>(s: seq<T>, p: T -> bool): (n: nat)
    ensures n <= |s|
    ensures n == 0 <==> forall j :: 0 <= j < |s| ==> !p(s[j])
    decreases |s|
  {
    if s == [] then 0
    else Count(s[..|s| - 1], p) + (if p(s[|s| - 1]) then 1 else 0)
  }

  /** The elements satisfying `p`, in order: `filter`, or a `find` query with a condition. */
  function Filter<T>(s: seq<T>, p: T -> bool): (r: seq<T>)
    ensures |r| <= |s|
    ensures forall i :: 0 <= i < |r| ==> p(r[i])
    ensures forall i :: 0 <= i < |r| ==> r[i] in s
    ensures forall j :: 0 <= j < |s| && p(s[j]) ==> s[j] in r
    ensures |r| == Count(s, p)
    decreases |s|
  {
    if s == [] then []
    else Filter(s[..|s| - 1], p) + (if p(s[|s| - 1]) then [s[|s| - 1]] else [])
  }

  /** Filtering keeps order: the filter of a concatenation is the concatenation of the filters. */
  lemma {:induction false} FilterConcat<T>(a: seq<T>, b: seq<T>, p: T -> bool)
    ensures Filter(a + b, p) == Filter(a, p) + Filter(b, p)
    decreases |b|
  {
    if b == [] {
      assert a + b == a;
    } else {
      var b' := b[..|b| - 1];
      var x := b[|b| - 1];
      assert (a + b)[..|a + b| - 1] == a + b';
      assert (a + b)[|a + b| - 1] == x;
      FilterConcat(a, b', p);
    }
  }

  /** The sum of `f` over `s`: a `reduce((sum, x) => sum + f(x), 0)`, or a `forEach` accumulating `+=`. */
  function SumOf<T>(s: seq<T>, f: T -> int): int
    decreases |s|
  {
    if s == [] then 0 else SumOf(s[..|s| - 1], f) + f(s[|s| - 1])
  }

  /** A sum of non-negative terms is non-negative. */
  lemma {:induction false} SumOfNonNegative<T>(s: seq<T>, f: T -> int)
    requires forall j :: 0 <= j < |s| ==> f(s[j]) >= 0
    ensures SumOf(s, f) >= 0
    decreases |s|
  {
    if s != [] {
      SumOfNonNegative(s[..|s| - 1], f);
    }
  }

  /** A sum whose every term is zero is zero. */
  lemma {:induction false} SumOfZero<T>(s: seq<T>, f: T -> int)
    requires forall j :: 0 <= j < |s| ==> f(s[j]) == 0
    ensures SumOf(s, f) == 0
    decreases |s|
  {
    if s != [] {
      SumOfZero(s[..|s| - 1], f);
    }
  }

  /** Summing after one element is replaced. */
  lemma {:induction false} SumOfUpdate<T>(s: seq<T>, i: nat, x: T, f: T -> int)
    requires i < |s|
    ensures SumOf(s[i := x], f) == SumOf(s, f) - f(s[i]) + f(x)
    decreases |s|
  {
    var n := |s| - 1;
    var t := s[i := x];
    assert t[..n] == if i < n then s[..n][i := x] else s[..n];
    if i < n {
      SumOfUpdate(s[..n], i, x, f);
    }
  }

  /** Summing after an element is appended. */
  lemma SumOfAppend<T>(s: seq<T>, x: T, f: T -> int)
    ensures SumOf(s + [x], f) == SumOf(s, f) + f(x)
  {
    assert (s + [x])[..|s|] == s;
  }

  /** Summing over a concatenation. */
  lemma {:induction false} SumOfConcat<T>(s: seq<T>, t: seq<T>, f: T -> int)
    ensures SumOf(s + t, f) == SumOf(s, f) + SumOf(t, f)
    decreases |t|
  {
    if t == [] {
      assert s + t == s;
    } else {
      var n := |t| - 1;
      assert (s + t)[..|s + t| - 1] == s + t[..n];
      SumOfConcat(s, t[..n], f);
    }
  }

  /** Counting after one element is replaced. */
  lemma {:induction false} CountUpdate<T>(s: seq<T>, i: nat, x: T, p: T -> bool)
    requires i < |s|
    ensures Count(s[i := x], p) == Count(s, p) - (if p(s[i]) then 1 else 0) + (if p(x) then 1 else 0)
    decreases |s|
  {
    var n := |s| - 1;
    var t := s[i := x];
    assert t[..n] == if i < n then s[..n][i := x] else s[..n];
    if i < n {
      CountUpdate(s[..n], i, x, p);
    }
  }

  /** Counting after an element is appended. */
  lemma CountAppend<T>(s: seq<T>, x: T, p: T -> bool)
    ensures Count(s + [x], p) == Count(s, p) + (if p(x) then 1 else 0)
  {
    assert (s + [x])[..|s|] == s;
  }

  /** A filter implied by another counts no more. */
  lemma {:induction false} CountWithin<T>(s: seq<T>, p: T -> bool, q: T -> bool)
    requires forall x :: p(x) ==> q(x)
    ensures Count(s, p) <= Count(s, q)
    decreases |s|
  {
    if s != [] {
      CountWithin(s[..|s| - 1], p, q);
    }
  }

  /** Two filters that never both hold count, together, what their disjunction counts. */
  lemma {:induction false} CountSplit<T>(s: seq<T>, p: T -> bool, q: T -> bool, pq: T -> bool)
    requires forall x :: pq(x) <==> p(x) || q(x)
    requires forall x :: !(p(x) && q(x))
    ensures Count(s, pq) == Count(s, p) + Count(s, q)
    decreases |s|
  {
    if s != [] {
      CountSplit(s[..|s| - 1], p, q, pq);
    }
  }

  /** Summing a pointwise sum is adding the sums. */
  lemma {:induction false} SumOfAdd<T>(s: seq<T>, f: T -> int, g: T -> int, h: T -> int)
    requires forall x :: h(x) == f(x) + g(x)
    ensures SumOf(s, h) == SumOf(s, f) + SumOf(s, g)
    decreases |s|
  {
    if s != [] {
      SumOfAdd(s[..|s| - 1], f, g, h);
    }
  }

  /** Functions that agree everywhere have the same sum. */
  lemma {:induction false} SumOfSame<T>(s: seq<T>, f: T -> int, g: T -> int)
    requires forall x :: f(x) == g(x)
    ensures SumOf(s, f) == SumOf(s, g)
    decreases |s|
  {
    if s != [] {
      SumOfSame(s[..|s| - 1], f, g);
    }
  }
}

/** Document identifiers: the string form (`String(doc._id)`, `doc.id`) of a MongoDB ObjectId. */
module Mongo {
  type Id = string
}
